=== FILE: README.md ===
# Receipt validation, modelled in Dafny

This project models the core of a small receipt-registration program (`main.py`).

**Reading.** The program reads a text file. The first line is a header: a receipt number, a date and a time. Every later line is an entry: an item name, a quantity and a unit price. The reading:

- splits the file into lines and each line into whitespace-separated fields;
- checks that each line has exactly three fields;
- checks the header's receipt number, time pattern and calendar date;
- checks that the header's moment is not later than the moment of validation;
- checks each entry's name, quantity and price patterns;
- normalises the item name by capitalising each `_`-separated segment;
- stops at the first line that fails, naming it by its 1-based line number.

**Output.** An accepted receipt is printed and can be written to an output file. Both show:

- the header with the date rewritten year-first and the time on the 12-hour clock;
- one line per entry;
- a summary line with the running total and the item count.

The running total is rounded half-up to hundredths after every addition, and `Decimal.quantize` raises once that total reaches 10^26. Amounts are written with `:.2f`, which rounds an exact tie to the even hundredth. The item count counts a quantity with a unit as one item, and a bare number as its value. The output-file name is checked against a character pattern and against the files that already exist.

The modules follow the program's structure:

| Module | What it covers |
|---|---|
| `Lines` | `str.splitlines` and `str.split` |
| `Header` | the header grammar, the `strptime` calendar check, and the comparison with "now" |
| `ItemNames`, `Quantities`, `Prices`, `Entries` | the entry checks |
| `Document` | the reading loop |
| `Rounding` | `round_num`, and the rounding of the `:.2f` format |
| `Totals` | the running total and the item count |
| `Format` | money, date and time formatting |
| `Output` | the displayed and written text, and the output-file name |

Each pattern check on the input file comes with soundness and completeness lemmas against an independent description of the accepted texts. The item-count pattern is proved equal to its literal group-by-group reading (`CountPatternLiteral`). The output-file name pattern is a single character class, transcribed directly. Its examples show that it refuses more than the characters its message lists (`OutputNameExamples`). Line and field splitting come with lemmas that join their pieces back into the text (`SplitLinesSound`, `SplitJoined`, `FieldsAtSpace`, `FieldsOfToken`, `FieldsEmpty`). Each fold has a lemma relating it to its loop.

## Model

| member | source | states |
|---|---|---|
| `Document.ReadDocument` | main.py:7-38 | no contract of its own: split the text into lines, then read them in order from line 1; `AcceptedIffEveryLine`, `AcceptedContents` and `FailsAtFirstBadLine` state its outcome |
| `Document.Assemble` | main.py:13-33 | no contract of its own: the fold over line outcomes that stops at the first failure; `AssembleStep` states one step of it, and `AcceptedIffEveryLine`, `AcceptedContents` and `FailsAtFirstBadLine` state its outcome |
| `Document.CheckLineLength` | main.py:85-101 | a line passes the field-count check exactly when it has three fields |
| `Document.FieldCountRule` | main.py:85-101 | unfolds `CheckLineLength`: four or more fields fail as too many; an empty entry line fails as blank; a header with at most two fields, or an entry with one or two, fails as missing fields |
| `Document.ReadLine` | main.py:13-23 | an accepted line has three fields, and it is a header line exactly when it is the first line |
| `Document.AcceptedIffEveryLine` | main.py:7-38 | a document is accepted exactly when every line, read with its own index, is accepted |
| `Document.AcceptedContents` | main.py:17-32 | an accepted document's header is the first line's three fields, and its entries are the later lines' entries, one per line, in file order; an empty document gives no header and no entries |
| `Document.FailsAtFirstBadLine` | main.py:13-33 | a refused document reports line `n` with kind `k` exactly when line `n` fails with `k` and every earlier line is accepted |
| `Document.FieldCountAborts` | main.py:13-15 | a line without three fields, after accepted lines, ends the reading with that line's number and field-count kind, whatever follows |
| `Document.AssembleStep` | main.py:17-32 | one more line outcome adds the header, appends the entry, or stops with the 1-based line number |
| `Document.BuildReceipt` | main.py:7-38 | the line-by-line loop computes the document reading |
| `Document.AssembleAll` | main.py:13-33 | the loop over line outcomes agrees with the fold, including the early stop at the first failure |
| `Header.IsReceiptNumber` | main.py:106 | no contract of its own: the receipt-number pattern; `ReceiptNumberGroups` states what it accepts |
| `Header.ReceiptNumberGroups` | main.py:106 | four digit groups joined by `-` form a receipt number exactly when they have 1, 2, 4 and 2 digits |
| `Header.IsTimeText` | main.py:113 | no contract of its own: the time pattern; `ParseClockSound` and `ParseClockComplete` state that it accepts exactly the two-digit `HH:MM:SS` texts of valid times |
| `Header.ParseClock` | main.py:113 | every time the pattern accepts is a valid time of day |
| `Header.ParseClockSound` | main.py:113 | an accepted time field is the two-digit `HH:MM:SS` text of a valid time |
| `Header.ParseClockComplete` | main.py:113 | every valid time of day, written `HH:MM:SS`, is accepted and read back |
| `Header.SplitDate` | main.py:118 | a split date text is its three parts joined by `/` |
| `Header.SplitDateComplete` | main.py:118 | two `/`-free parts and any third, joined by `/`, are split back apart |
| `Header.ParseDate` | main.py:118 | every date it accepts is a valid calendar date; `ParseDateSound` and `ParseDateComplete` state which texts it accepts |
| `Header.ParseDateSound` | main.py:118 | an accepted date denotes a valid calendar date in years 1-9999, and is that date written month/day/year, with or without zero padding |
| `Header.ParseDateComplete` | main.py:118 | every valid date, written month/day/four-digit year with either padding, is accepted and read back |
| `Header.IsLater` | main.py:121 | no contract of its own: `datetime`'s `>`, the lexicographic order on year, month, day, hour, minute, second and microsecond; `LaterIsStrictTotal` states that it is a strict total order |
| `Header.LaterIsStrictTotal` | main.py:121 | "later than" on moments is irreflexive, asymmetric and total on distinct moments |
| `Header.CheckHeader` | main.py:103-126 | an accepted header is the line's three fields |
| `Header.AcceptedHeader` | main.py:103-126 | an accepted header has a well-formed number, a valid date and time, and a moment no later than now |
| `Header.FutureBoundary` | main.py:119-123 | with a valid number, date and time, the header fails as future-dated exactly when its moment is later than now; a header stamped exactly now is accepted |
| `Header.HeaderErrorOrder` | main.py:105-126 | unfolds `CheckHeader`: the number is checked first, the time pattern second, the date third: each kind is reported exactly when its check is the first to fail |
| `ItemNames.IsItemName` | main.py:129 | no contract of its own: a non-empty run of word characters; `NamePatternIsWordRun` states that it is what the name pattern accepts |
| `ItemNames.NamePatternIsWordRun` | main.py:129 | the name pattern, read literally, accepts exactly the non-empty runs of word characters |
| `ItemNames.Normalize` | main.py:134-135 | no contract of its own: split at `_`, capitalise each piece, join with `_`; `NormalizeByPosition` and `NormalizeShape` state its effect on each character |
| `ItemNames.NormalizeByPosition` | main.py:134-135 | split/capitalise/join upper-cases a character that starts the name or follows `_`, and lower-cases every other character |
| `ItemNames.NormalizeShape` | main.py:134-135 | normalisation keeps the length and the `_` positions, keeps a valid name valid, and is idempotent |
| `ItemNames.NormalizeSnakeCase` | main.py:134-135 | `cat_food` becomes `Cat_Food` |
| `ItemNames.NormalizeMixedCase` | main.py:134-135 | `cAT` becomes `Cat` |
| `Quantities.ParseQuantity` | main.py:137 | no contract of its own: the lookahead, then the pattern's groups; `QuantityLanguage`, `ParseShape` and `ParseQuantityComplete` state what it accepts and returns |
| `Quantities.IsQuantity` | main.py:137 | no contract of its own: the quantity pattern matches; `QuantityLanguage` states that it accepts exactly the well-shaped, non-zero quantities |
| `Quantities.ParseShape` | main.py:137 | the pattern's groups accept only texts of well-shaped quantities, and give back that quantity |
| `Quantities.ParseQuantityComplete` | main.py:137 | every well-shaped quantity outside the zero lookahead is accepted and read back |
| `Quantities.ZeroAmountShape` | main.py:137 | on a well-shaped quantity, the negative lookahead catches exactly the zero shapes |
| `Quantities.QuantityLanguage` | main.py:137 | the quantity pattern accepts exactly the texts of well-shaped, non-zero quantities |
| `Quantities.ItemCount` | main.py:237-243 | no contract of its own: 1 when the count pattern matches, otherwise `int` of the text, `None` when `int` raises, including on more than 4300 digits; `ItemCountOfQuantity` states the count of every accepted quantity |
| `Quantities.ItemCountOfQuantity` | main.py:237-243 | an accepted quantity without a unit counts as its integer value, at least 1, when it has at most 4300 digits, and makes `int` raise when it has more; with one unit it counts as 1; with the decimal part's unit and a second one, `int` raises |
| `Quantities.ItemCountDigitLimit` | main.py:243 | `1` followed by 4300 zeros is an accepted quantity, and `int` refuses it |
| `Quantities.CountPatternLiteral` | main.py:239 | a quantity counts as one item exactly when the count pattern, read group by group as an optional lead, an optional decimal part and a unit, matches it |
| `Quantities.CountWithTwoUnits` | main.py:237-243 | a quantity such as `1.5kgkg` matches neither the count pattern nor `int` |
| `Quantities.ItemCountExamples` | main.py:237-243 | `0.5kg` and `50kg` count as one item; `3` counts as three |
| `Prices.MatchPrice` | main.py:142 | no contract of its own: `P`, digits, and an optional `.` with digits; `MatchPriceSound` and `MatchPriceComplete` state that it reads back exactly the spellings of well-shaped prices |
| `Prices.MatchPriceSound` | main.py:142 | every matched field is the spelling of a well-shaped price |
| `Prices.MatchPriceComplete` | main.py:142 | every well-shaped price is matched from its spelling and read back |
| `Prices.PriceLanguage` | main.py:142 | the price pattern accepts exactly the spellings of well-shaped prices |
| `Prices.ReadPrice` | main.py:24 | a price that is read is non-negative |
| `Prices.ReadPriceOutcome` | main.py:24 | a field fails the pattern exactly when it is not a price text; a bare `P` is the only matched field `float` cannot read; every other field reads as the amount it spells |
| `Prices.ReadCents` | main.py:24 | `P<whole>.<two digits>` reads back as exactly that many cents |
| `Entries.CheckEntry` | main.py:128-145 | an accepted entry keeps the quantity and price fields, and replaces the name with a valid name of the same length |
| `Entries.ReadEntry` | main.py:23-24 | a stored entry keeps the quantity text, and its unit price is non-negative |
| `Entries.ReadEntryOutcome` | main.py:128-145 | an entry is accepted exactly when name, quantity and price pass and the price is not a bare `P`; the first failing field, in the order name, quantity, price, names the error; the stored name is the normalised one |
| `Entries.ReadEntryExamples` | main.py:137-145 | quantity `0` is refused, and price `P` cannot be read |
| `Rounding.Round` | main.py:245-248 | the result is a whole number of hundredths within 0.005 of the input; a tie goes away from zero; a non-negative input stays non-negative |
| `Rounding.RoundNum` | main.py:245-248 | `round_num` either fails or gives a whole number of hundredths below 10^26 in magnitude, within 0.005 of the input, non-negative for a non-negative input |
| `Rounding.RoundNumDefined` | main.py:245-248 | `round_num` is the half-up rounding for every amount below 10^26 by more than half a cent, and fails for every amount of magnitude 10^26 or more |
| `Rounding.RoundUnique` | main.py:245-248 | the contract of `Round` determines its result |
| `Rounding.RoundCents` | main.py:245-248 | amounts already in hundredths are unchanged, so rounding is idempotent |
| `Rounding.RoundMonotone` | main.py:245-248 | rounding preserves order |
| `Rounding.RoundHalves` | main.py:245-248 | `0.125` rounds to `0.13`, `0.005` to `0.01`, `0.015` to `0.02`, and `-0.125` to `-0.13` |
| `Rounding.RoundEven` | main.py:176 | the `:.2f` rounding gives a whole number of hundredths within 0.005 of the amount, an even number of hundredths on an exact tie, and keeps a non-negative amount non-negative |
| `Rounding.RoundEvenUnique` | main.py:176 | the contract of `RoundEven` determines its result |
| `Rounding.RoundEvenAgrees` | main.py:176 | the `:.2f` rounding agrees with the half-up rounding of `round_num` on every amount that is not an exact tie, and leaves amounts already in hundredths unchanged |
| `Rounding.RoundEvenTies` | main.py:176 | `0.125` is shown as `0.12`, `0.375` as `0.38`, and `-0.125` as `-0.12` |
| `Totals.RunningTotal` | main.py:175-179 | the running total, when `round_num` never fails, is a whole number of hundredths below 10^26, and is non-negative when the entry totals are |
| `Totals.RunningTotalNearSum` | main.py:175-179 | the running total is within 0.005 per entry of the exact sum |
| `Totals.RunningTotalDefined` | main.py:177-179 | non-negative entry totals whose sum stays below 10^26 by half a cent per entry never make `round_num` fail |
| `Totals.RunningTotalOverflow` | main.py:177-179 | an entry total of 10^26 makes `round_num` fail |
| `Totals.StepwiseRounding` | main.py:177-179 | rounding after every addition differs from rounding once: the running total of 0.005 and 0.005 is 0.02, while the rounded exact sum is 0.01 |
| `Totals.ItemTotal` | main.py:180 | the item count exists exactly when every quantity yields a count |
| `Totals.ItemTotalAppend` | main.py:175-182 | the count of two runs of entries is the sum of their counts |
| `Totals.OneUnitCount` | main.py:180 | an accepted quantity with at most one unit counts at least one item, and has a count exactly when it carries a unit or has at most 4300 characters |
| `Totals.ItemTotalLowerBound` | main.py:175-182 | a receipt of quantities with at most one unit, each within the 4300-digit limit of `int`, counts at least one item per entry |
| `Totals.ItemWord` | main.py:184-188 | the word is `item` exactly when the count is 1, and `items` otherwise |
| `Totals.AddTotals` | main.py:175-179 | the loop computes the running total, `None` once `round_num` fails |
| `Totals.CountItems` | main.py:175-182 | the loop computes the item count, `None` when some quantity makes `int` raise |
| `Totals.AddAll` | main.py:180 | adding the counts one by one, stopping at a missing one, gives their sum |
| `Totals.Summarize` | main.py:166-188 | no contract of its own: the summary is the running total and the item count, and exists exactly when both do (`RunningTotal`, `ItemTotal`, `SummarizeEntries`) |
| `Totals.SummarizeEntries` | main.py:166-188 | the loop gives the summary's total and count, and `None` when `round_num` fails or a count is missing |
| `Format.MoneyText` | main.py:176 | no contract of its own: `P{x:.2f}`, the sign, the whole part and two digits of the `:.2f` rounding; `MoneyTextReadsBack` and `MoneyTextExamples` state what it writes |
| `Format.MoneyTextReadsBack` | main.py:176 | a written non-negative amount `P{x:.2f}` is a price field again, and reads back as the amount rounded to hundredths with ties to even |
| `Format.CentsReadBack` | main.py:188 | an amount already in hundredths, such as every running total, reads back exactly |
| `Format.MoneyTextExamples` | main.py:176 | `70` is written `P70.00`, `0.125` is written `P0.12`, `0.375` is written `P0.38`, and `-0.001` is written `P-0.00` |
| `Format.FormatDate` | main.py:232 | no contract of its own: `%Y/%m/%d`, with the year padded to four digits; `FormatDateReadsBack` and `DateReordered` state what it writes |
| `Format.FormatDateReadsBack` | main.py:232 | `%Y/%m/%d` splits back into a padded year, month and day that denote the date |
| `Format.FormatClock` | main.py:233 | requires an hour below 24, as `strptime` guarantees; `%I:%M:%S %p`, whose meaning `FormatClockReadsBack`, `Hour12RoundTrip` and `TimeConverted` state |
| `Format.Hour12RoundTrip` | main.py:233 | the 12-hour hour with its `AM`/`PM` gives back the 24-hour hour |
| `Format.FormatClockReadsBack` | main.py:233 | `%I:%M:%S %p` is eleven characters with `AM` or `PM`, and reads back as the time |
| `Format.FormatClockExamples` | main.py:233 | 14:30:00 becomes `02:30:00 PM`, 00:05:00 becomes `12:05:00 AM`, and 12:00:00 becomes `12:00:00 PM` |
| `Format.FormatDateTime` | main.py:227-235 | no contract of its own: both `strptime` calls, then both `strftime` calls; `None` when either parse fails; `AcceptedHeaderFormats` states that it never fails on an accepted header |
| `Format.AcceptedHeaderFormats` | main.py:227-235 | the date and time of every accepted header can be formatted |
| `Format.DateReordered` | main.py:229-232 | the year moves to the front unchanged, and the month and day keep their values, zero-padded to two digits |
| `Format.TimeConverted` | main.py:230-233 | minutes and seconds are kept as written, and the 12-hour hour with `AM`/`PM` denotes the written hour |
| `Output.Render` | main.py:172-188 | no contract of its own: the header line, the entry lines and the summary line, as `RenderDefined` and `RenderShape` state |
| `Output.OutputText` | main.py:201-224 | no contract of its own: the rendered lines separated by `\n`, with none after the last; `OutputReadsBack`, `RenderedLinesAreLines` and `OutputIsNotInput` state what it writes |
| `Output.RenderDefined` | main.py:172-188 | unfolds `Render`: the lines exist exactly when the shown header can be formatted and the summary exists, that is, `round_num` never fails and every quantity yields a count |
| `Output.RenderShape` | main.py:172-188 | unfolds `Render`: the lines are the header line (only when there is a date and a time), the entry lines in list order, and the summary line last |
| `Output.HeaderFields` | main.py:174 | the header line splits into four fields: the number, the year-first date, and the time whose `AM`/`PM` is a separate field |
| `Output.EntryFields` | main.py:176 | an entry line splits into name, quantity and two amounts, and its unit price reads back as the price rounded to hundredths with ties to even |
| `Output.TotalFields` | main.py:188 | the summary line splits into the amount and `<count>_<word>` |
| `Output.AcceptedEntryPrintable` | main.py:128-145 | a stored entry's name and quantity are non-empty and free of whitespace |
| `Output.AcceptedHeaderPrintable` | main.py:106 | a stored receipt number is non-empty and free of whitespace |
| `Output.RenderedLinesAreLines` | main.py:201-224 | no written line contains a line break, and the last line is non-empty |
| `Output.OutputReadsBack` | main.py:201-224 | splitting the output file into lines gives back exactly the rendered lines |
| `Output.OutputIsNotInput` | main.py:201-224 | reading the output file back as input fails at line 1 on the field count |
| `Output.ReceiptExample` | main.py:175-188 | `Apple 2` at P20.00 and `Rice_5kg 1kg` at P50.00 give `P70.00 3_items` |
| `Output.OutputTarget` | main.py:194-199 | a name that is taken is the name typed; `OutputTargetOutcome` and `IllegalCharacters` state when a name is refused and why |
| `Output.IllegalCharacters` | main.py:194-195 | a name containing any of `\ / : * ? " < > \|` is refused as illegal |
| `Output.OutputNameExamples` | main.py:194-195 | `a@b.txt` holds none of the characters the message lists and is still refused, as is the empty name; `receipt.txt` is taken when no such file exists |
| `Output.OutputTargetOutcome` | main.py:194-199 | unfolds `OutputTarget`: a name is taken exactly when it fits the pattern and names no existing file; a fitting name that exists is reported as existing |
| `Output.ChooseOutput` | main.py:192-199 | the prompt loop takes the first acceptable name and refuses every earlier one; with no acceptable name, every attempt was refused |
| `Lines.SplitLines` | main.py:13 | no line it returns contains a line boundary; `SplitTerminated`, `SplitJoined` and `SplitLinesSound` state that its lines are the text's own |
| `Lines.SplitTerminated` | main.py:13 | splitting a text whose lines each end in `\n` gives the lines back |
| `Lines.SplitJoined` | main.py:13 | splitting `\n`-separated lines gives them back, when the last line is not empty |
| `Lines.SplitLinesSound` | main.py:13 | joining the lines of a text with `\n` gives the text back, when `\n` is its only line boundary and it does not end in one |
| `Lines.Fields` | main.py:14 | every field is non-empty and free of whitespace; `FieldsEmpty`, `FieldsOfToken` and `FieldsAtSpace` together determine the fields of every text |
| `Lines.FieldsEmpty` | main.py:14 | a line has no fields exactly when it is all whitespace |
| `Lines.FieldsOfToken` | main.py:14 | a non-empty run of non-whitespace is a single field |
| `Lines.FieldsAtSpace` | main.py:14 | the fields of a text split at any whitespace character are the fields before it followed by the fields after it |
| `Lines.FieldsOfJoined` | main.py:14 | splitting space-joined tokens gives the tokens back |
| `Text.JoinSplit` | main.py:134-135 | joining the pieces of `split("_")` with `_` restores the name |

## Left out

- The interactive parts are not modelled: the start-up menu, `create_list_from_user`, `ask_confirmation` and its sort option (main.py:40-83, 147-164, 250 onwards). They are prompt loops around the core.
- `receipt_checker` is not part of this model. That covers the entry class, the computation of an entry's total price and `sort_list`. An entry's total price is therefore a given field of `PricedEntry`.
- I/O is modelled as parameters:
  - The file's text is given as a string.
  - A missing input file is not modelled.
  - `datetime.now()` is a `Moment` parameter.
  - `os.path.exists` is a set of existing names.
  - The names typed at the output prompt are a sequence of attempts.
  - The written file is its text. `open(output, "w")` is taken to succeed. It can still fail on a name the checks accept, for example one too long for the file system or one in a read-only directory.
  - Printed messages are error kinds.
  - `exit` is an `Err` result.
- The linked list is a sequence in list order.
- `get_formatted_date_and_time` reads the global `receipt_obj` rather than its parameters. Both callers pass that object's own date and time, so the model formats its parameters.
- The banner lines of `display_entries` (main.py:171, 189) and the success message are not modelled.
- Floating point is replaced by exact reals. This affects `float()`, `Decimal(str(x))` and the `:.2f` format.
  - `round_num` is exact half-up rounding to hundredths (`Rounding.Round`). It fails, as `quantize` does, once the result reaches 10^26 (`Rounding.RoundNum`).
  - `:.2f` is exact rounding to hundredths with ties to even (`Rounding.RoundEven`), which is what Python does on the exact value it formats. The two differ only on exact ties: `0.125` is `0.13` after `round_num` and `P0.12` after `:.2f`.
  - A decimal such as `0.115` is a tie here. As a binary float it lies slightly above or below the half, so Python may round it either way. The model does not follow binary values.
  - `float()` of a price of more than about 309 digits gives `inf`. The program then writes `Pinf`, and `round_num` raises once the running total is infinite. The model keeps the exact amount.
  - `Decimal(str(x))` is the exact real. `str` gives the shortest decimal that reads back as the same float, which differs from the real only below float precision.
- `Rounding.Round`: is total, with no limit on the size of the amount. The `InvalidOperation` that `quantize` raises from 10^26 on is modelled by `Rounding.RoundNum`, which wraps `Round` and is what the running total uses.
- `ItemNames.IsItemName`: gives the verdict of the name pattern `^(\w+(_)?){1,}$` but not its running time. The nested repetition makes Python's backtracking engine try exponentially many splits of a long word run before it refuses, for example 40 letters followed by `-`. The program then does not answer in practice, where the model reports `InvalidItemName` at once.
- Characters are ASCII. Unicode word characters, Unicode whitespace and Unicode line boundaries are not modelled.
- `Quantities.ItemCount`: `int()` is read only on digit strings. Python also accepts signs, `_` separators and surrounding blanks, but no accepted quantity contains them. The model follows Python 3.11 and later, and the security releases of 3.7-3.10 that carry the same change: `int` raises `ValueError` on more than 4300 digits (`sys.int_max_str_digits` at its default). Older versions read any number of digits.
- `Header.ParseClock`: accepts only two-digit components. That is everything the time pattern admits, and the pattern runs before `strptime`, so `strptime`'s one-digit leniency is never reached.
- `Format.FormatDate`: assumes that `%Y` pads the year to four digits. The reading accepts years 1-999 written with leading zeros (`01/05/0999`). For those years, `strftime("%Y")` depends on the platform's C library: glibc writes `999`, others write `0999`. The model writes `0999`.
- A crash is modelled as `None`, with no partial output. That covers an `int` failure during the count, `quantize` raising `InvalidOperation` in `round_num` once the running total reaches 10^26, and a formatting failure. None of these exceptions is caught. The program may already have printed or written some lines by then.

Where the program's behaviour departs from its own messages, the model follows the code:

- Single-digit months and days (`1/5/2024`) are accepted, because `strptime`'s `%m` and `%d` accept them.
- A time that fails the time pattern is its own kind, `InvalidTime`. The program prints the "set in the future" message for it (main.py:114-116).
- A bare `P` price passes the pattern, then `float('')` fails. This is the kind `UnreadablePrice`.
- A quantity with a second unit after the decimal part's (`1.5kgkg`) passes the pattern. Counting it later makes `int` fail, so rendering gives `None`.
- An empty file is accepted, with no header and no entries.
- The output file cannot be read back as an input file. Its header line has four fields, since `AM`/`PM` is a separate field.

=== FILE: document.dfy ===
/**
 * Reading a whole receipt document: `splitlines`, then for each line
 * `split`, the field-count check, and the header or entry checks. Line 1 is
 * the header, every later line an entry, and the first line that fails
 * stops the reading with its 1-based number.
 */
module Document {
  import opened Wrappers
  import opened Errors
  import opened Lines
  import opened Header
  import opened Entries

  /** What one accepted line contributes. */
  datatype LineValue = HeaderLine(header: Header) | EntryLine(entry: Entry)

  /** A read receipt: the header (absent only for an empty document) and
      the entries in file order. */
  datatype Receipt = Receipt(header: Option<Header>, entries: seq<Entry>)

  /** `check_line_length`: exactly three fields, else the kind of failure
      the reader reports for line index `ctr`. */
  function CheckLineLength(ctr: nat, fields: seq<string>): (r: Option<ErrorKind>)
    ensures r.None? <==> |fields| == 3
  {
    if |fields| >= 4 then Some(TooManyFields)
    else if |fields| <= 2 then
      if ctr == 0 then Some(MissingFields)
      else if |fields| == 0 then Some(BlankLine)
      else Some(MissingFields)
    else None
  }

  /** One line at index `ctr` (0-based): the field count, then the header
      checks for the first line and the entry checks for the others. */
  function ReadLine(ctr: nat, line: string, now: Moment): (r: Result<LineValue, ErrorKind>)
    ensures r.Ok? ==> |Fields(line)| == 3
    ensures r.Ok? ==> (r.value.HeaderLine? <==> ctr == 0)
  {
    var fields := Fields(line);
    match CheckLineLength(ctr, fields)
    case Some(k) => Err(k)
    case None =>
      if ctr == 0 then
        match CheckHeader(fields, now)
        case Err(k) => Err(k)
        case Ok(h) => Ok(HeaderLine(h))
      else
        match ReadEntry(fields)
        case Err(k) => Err(k)
        case Ok(e) => Ok(EntryLine(e))
  }

  /** The outcome of every line, each read with its own index. */
  function Outcomes(lines: seq<string>, now: Moment): (o: seq<Result<LineValue, ErrorKind>>)
    ensures |o| == |lines|
  {
    seq(|lines|, i requires 0 <= i < |lines| => ReadLine(i, lines[i], now))
  }

  /** The reading loop of `build_list_from_file` over line outcomes: the
      header line sets the header, every entry line is appended, and the
      first failing line stops the reading with its 1-based number. */
  function Assemble(outcomes: seq<Result<LineValue, ErrorKind>>): Result<Receipt, Failure>
  {
    if |outcomes| == 0 then Ok(Receipt(None, []))
    else
      var n := |outcomes| - 1;
      match Assemble(outcomes[..n])
      case Err(f) => Err(f)
      case Ok(receipt) =>
        match outcomes[n]
        case Err(k) => Err(Failure(n + 1, k))
        case Ok(HeaderLine(h)) => Ok(Receipt(Some(h), receipt.entries))
        case Ok(EntryLine(e)) => Ok(Receipt(receipt.header, receipt.entries + [e]))
  }

  /** The reading of a document already split into lines. */
  function ReadLines(lines: seq<string>, now: Moment): Result<Receipt, Failure>
  {
    Assemble(Outcomes(lines, now))
  }

  /** `build_list_from_file` on the text of a file. */
  function ReadDocument(contents: string, now: Moment): Result<Receipt, Failure>
  {
    ReadLines(SplitLines(contents), now)
  }

  // ---------------------------------------------------------------- the fold

  /** The fold succeeds exactly when every outcome does. */
  lemma {:induction false} AssembleOk(o: seq<Result<LineValue, ErrorKind>>)
    ensures Assemble(o).Ok? <==> forall i | 0 <= i < |o| :: o[i].Ok?
  {
    if |o| > 0 {
      var n := |o| - 1;
      AssembleOk(o[..n]);
      assert forall i | 0 <= i < n :: o[..n][i] == o[i];
    }
  }

  /** The fold fails at the first failing outcome. */
  lemma {:induction false} AssembleErr(o: seq<Result<LineValue, ErrorKind>>, f: Failure)
    ensures Assemble(o) == Err(f)
            <==> && 1 <= f.line <= |o| && o[f.line - 1] == Err(f.kind)
                 && forall i | 0 <= i < f.line - 1 :: o[i].Ok?
  {
    if |o| > 0 {
      var n := |o| - 1;
      AssembleErr(o[..n], f);
      AssembleOk(o[..n]);
      assert forall i | 0 <= i < n :: o[..n][i] == o[i];
    }
  }

  /** Outcomes where only the first is a header line fold to that header
      and the later lines' entries, in order. */
  lemma {:induction false} AssembleContents(o: seq<Result<LineValue, ErrorKind>>)
    requires Assemble(o).Ok?
    requires forall i | 0 <= i < |o| :: o[i].Ok? ==> (o[i].value.HeaderLine? <==> i == 0)
    ensures var r := Assemble(o).value;
            && (|o| == 0 ==> r.header.None? && r.entries == [])
            && (|o| > 0 ==> && o[0].Ok? && o[0].value.HeaderLine?
                              && r.header == Some(o[0].value.header) && |r.entries| == |o| - 1)
            && (forall k | 0 <= k < |r.entries| :: o[k + 1] == Ok(EntryLine(r.entries[k])))
  {
    if |o| > 0 {
      var n := |o| - 1;
      var prefix := o[..n];
      assert forall i | 0 <= i < n :: prefix[i] == o[i];
      AssembleContents(prefix);
    }
  }

  /** Outcomes after the first failing one change nothing. */
  lemma {:induction false} AssembleStops(o: seq<Result<LineValue, ErrorKind>>, more: seq<Result<LineValue, ErrorKind>>)
    requires Assemble(o).Err?
    ensures Assemble(o + more) == Assemble(o)
  {
    var f := Assemble(o).error;
    AssembleErr(o, f);
    var all := o + more;
    assert forall i | 0 <= i < |o| :: all[i] == o[i];
    AssembleErr(all, f);
  }

  // ---------------------------------------------------------------- properties

  /** The field-count rule: a line without exactly three fields fails as a
      blank line (an entry line with no fields), with missing fields (the
      header with at most two, or an entry with one or two), or with too
      many fields (four or more). */
  lemma {:induction false} FieldCountRule(ctr: nat, line: string, now: Moment)
    ensures var n := |Fields(line)|;
            && (n >= 4 ==> ReadLine(ctr, line, now) == Err(TooManyFields))
            && (n == 0 && ctr > 0 ==> ReadLine(ctr, line, now) == Err(BlankLine))
            && ((ctr == 0 && n <= 2) || 1 <= n <= 2 ==> ReadLine(ctr, line, now) == Err(MissingFields))
  {
  }

  /** A document is accepted exactly when each of its lines is. */
  lemma {:induction false} AcceptedIffEveryLine(lines: seq<string>, now: Moment)
    ensures ReadLines(lines, now).Ok? <==> forall i | 0 <= i < |lines| :: ReadLine(i, lines[i], now).Ok?
  {
    var o := Outcomes(lines, now);
    AssembleOk(o);
    assert forall i | 0 <= i < |lines| :: o[i] == ReadLine(i, lines[i], now);
  }

  /** An accepted document: the header is the first line's three fields and
      the entries are the later lines' entries, one per line, in file order. */
  lemma {:induction false} AcceptedContents(lines: seq<string>, now: Moment)
    requires ReadLines(lines, now).Ok?
    ensures var r := ReadLines(lines, now).value;
            && (|lines| == 0 ==> r.header.None? && r.entries == [])
            && (|lines| > 0 ==>
                  && |Fields(lines[0])| == 3
                  && r.header == Some(Header(Fields(lines[0])[0], Fields(lines[0])[1], Fields(lines[0])[2]))
                  && |r.entries| == |lines| - 1)
            && (forall k | 0 <= k < |r.entries| :: ReadLine(k + 1, lines[k + 1], now) == Ok(EntryLine(r.entries[k])))
  {
    var o := Outcomes(lines, now);
    var r := Assemble(o).value;
    ReadLineKinds(lines, now);
    AssembleContents(o);
    if |lines| > 0 {
      HeaderOutcome(lines[0], now);
    }
    forall k | 0 <= k < |r.entries|
      ensures ReadLine(k + 1, lines[k + 1], now) == Ok(EntryLine(r.entries[k]))
    {
      assert o[k + 1] == ReadLine(k + 1, lines[k + 1], now);
    }
  }

  /** Only the first line can be a header line. */
  lemma {:induction false} ReadLineKinds(lines: seq<string>, now: Moment)
    ensures var o := Outcomes(lines, now);
            forall i | 0 <= i < |o| :: o[i].Ok? ==> (o[i].value.HeaderLine? <==> i == 0)
  {
    var o := Outcomes(lines, now);
    forall i | 0 <= i < |o| && o[i].Ok?
      ensures o[i].value.HeaderLine? <==> i == 0
    {
      assert o[i] == ReadLine(i, lines[i], now);
    }
  }

  lemma {:induction false} HeaderOutcome(line: string, now: Moment)
    requires ReadLine(0, line, now).Ok?
    ensures ReadLine(0, line, now).value.HeaderLine?
    ensures ReadLine(0, line, now).value.header == Header(Fields(line)[0], Fields(line)[1], Fields(line)[2])
  {
    assert CheckHeader(Fields(line), now).Ok?;
  }

  /** A refused document names the first failing line: every earlier line
      is accepted and the named line fails with the reported kind. */
  lemma {:induction false} FailsAtFirstBadLine(lines: seq<string>, now: Moment, f: Failure)
    ensures ReadLines(lines, now) == Err(f)
            <==> && 1 <= f.line <= |lines|
                 && ReadLine(f.line - 1, lines[f.line - 1], now) == Err(f.kind)
                 && forall i | 0 <= i < f.line - 1 :: ReadLine(i, lines[i], now).Ok?
  {
    var o := Outcomes(lines, now);
    AssembleErr(o, f);
    assert forall i | 0 <= i < |lines| :: o[i] == ReadLine(i, lines[i], now);
  }

  /** A line without exactly three fields, after lines that were all
      accepted, ends the reading with the field-count failure and that
      line's 1-based number, whatever the lines after it hold. */
  lemma {:induction false} FieldCountAborts(lines: seq<string>, i: nat, now: Moment)
    requires i < |lines| && |Fields(lines[i])| != 3
    requires forall j | 0 <= j < i :: ReadLine(j, lines[j], now).Ok?
    ensures ReadLines(lines, now) == Err(Failure(i + 1, CheckLineLength(i, Fields(lines[i])).value))
  {
    FailsAtFirstBadLine(lines, now, Failure(i + 1, CheckLineLength(i, Fields(lines[i])).value));
  }

  /** One more outcome extends the fold by one step. */
  lemma {:induction false} AssembleStep(o: seq<Result<LineValue, ErrorKind>>, i: nat, receipt: Receipt)
    requires i < |o| && Assemble(o[..i]) == Ok(receipt)
    ensures Assemble(o[..i + 1]) == match o[i]
      case Err(k) => Err(Failure(i + 1, k))
      case Ok(HeaderLine(h)) => Ok(Receipt(Some(h), receipt.entries))
      case Ok(EntryLine(e)) => Ok(Receipt(receipt.header, receipt.entries + [e]))
  {
    assert o[..i + 1][..i] == o[..i];
  }

  /** The loop of `build_list_from_file`: each line in turn, stopping at the
      first that fails. */
  method BuildReceipt(contents: string, now: Moment) returns (r: Result<Receipt, Failure>)
    ensures r == ReadDocument(contents, now)
  {
    var lines := SplitLines(contents);
    r := AssembleAll(Outcomes(lines, now));
  }

  /** The fold as a loop: header and entries gathered line by line, and the
      first failing outcome returned with its 1-based line number. */
  method AssembleAll(o: seq<Result<LineValue, ErrorKind>>) returns (r: Result<Receipt, Failure>)
    ensures r == Assemble(o)
  {
    var header: Option<Header> := None;
    var entries: seq<Entry> := [];
    var ctr := 0;
    while ctr < |o|
      invariant ctr <= |o|
      invariant Assemble(o[..ctr]) == Ok(Receipt(header, entries))
    {
      AssembleStep(o, ctr, Receipt(header, entries));
      if o[ctr].Err? {
        r := Err(Failure(ctr + 1, o[ctr].error));
        AssembleStops(o[..ctr + 1], o[ctr + 1..]);
        assert o[..ctr + 1] + o[ctr + 1..] == o;
        return;
      }
      if o[ctr].value.HeaderLine? {
        header := Some(o[ctr].value.header);
      } else {
        entries := entries + [o[ctr].value.entry];
      }
      ctr := ctr + 1;
    }
    assert o[..ctr] == o;
    r := Ok(Receipt(header, entries));
  }
}

=== FILE: entries.dfy ===
/**
 * One receipt entry line `<item name> <quantity> P<unit price>`: the three
 * field checks in the order the reader runs them, the name normalisation
 * that happens between the first and the second, and the entry the reader
 * stores once all three pass.
 */
module Entries {
  import opened Wrappers
  import opened Errors
  import ItemNames
  import Quantities
  import Prices

  /** A stored entry: the normalised name, the quantity text as given, and
      the unit price after the `P`. */
  datatype Entry = Entry(name: string, quantity: string, unitPrice: real)

  /** `check_receipt_entry`: the name pattern, then (after the name has been
      normalised in place) the quantity pattern, then the price pattern. On
      success the fields are returned with the name normalised. */
  function CheckEntry(fields: seq<string>): (r: Result<seq<string>, ErrorKind>)
    requires |fields| == 3
    ensures r.Ok? ==> && |r.value| == 3
                      && ItemNames.IsItemName(r.value[0])
                      && |r.value[0]| == |fields[0]|
                      && r.value[1..] == fields[1..]
    ensures r.Ok? ==> Quantities.IsQuantity(fields[1]) && Prices.IsPriceText(fields[2])
  {
    if !ItemNames.IsItemName(fields[0]) then Err(InvalidItemName)
    else
      var name := ItemNames.Normalize(fields[0]);
      ItemNames.NormalizeShape(fields[0]);
      if !Quantities.IsQuantity(fields[1]) then Err(InvalidQuantity)
      else if !Prices.IsPriceText(fields[2]) then Err(InvalidUnitPrice)
      else
        var checked := [name, fields[1], fields[2]];
        assert checked[1..] == fields[1..];
        Ok(checked)
  }

  /** The entry built from a line's three fields: `check_receipt_entry`,
      then `float` of the price text after `P`. */
  function ReadEntry(fields: seq<string>): (r: Result<Entry, ErrorKind>)
    requires |fields| == 3
    ensures r.Ok? ==> r.value.quantity == fields[1] && r.value.unitPrice >= 0.0
  {
    match CheckEntry(fields)
    case Err(k) => Err(k)
    case Ok(checked) =>
      match Prices.ReadPrice(checked[2])
      case Err(k) => Err(k)
      case Ok(price) => Ok(Entry(checked[0], checked[1], price))
  }

  /** An entry line is accepted exactly when its name is a run of word
      characters, its quantity matches the quantity pattern and its price is
      a `P` with at least one digit after it; the first failing field, in
      the order name, quantity, price, names the error. The stored name is
      the normalised one and the stored price is the amount the field spells. */
  lemma {:induction false} ReadEntryOutcome(fields: seq<string>)
    requires |fields| == 3
    ensures ReadEntry(fields).Ok?
            <==> && ItemNames.IsItemName(fields[0])
                 && Quantities.IsQuantity(fields[1])
                 && Prices.IsPriceText(fields[2]) && fields[2] != "P"
    ensures ReadEntry(fields) == Err(InvalidItemName) <==> !ItemNames.IsItemName(fields[0])
    ensures ReadEntry(fields) == Err(InvalidQuantity)
            <==> ItemNames.IsItemName(fields[0]) && !Quantities.IsQuantity(fields[1])
    ensures ReadEntry(fields) == Err(InvalidUnitPrice)
            <==> && ItemNames.IsItemName(fields[0]) && Quantities.IsQuantity(fields[1])
                 && !Prices.IsPriceText(fields[2])
    ensures ReadEntry(fields).Ok? ==>
              && ReadEntry(fields).value.name == ItemNames.Normalize(fields[0])
              && Prices.ReadPrice(fields[2]) == Ok(ReadEntry(fields).value.unitPrice)
  {
    Prices.ReadPriceOutcome(fields[2]);
  }

  /** A quantity of `0` is refused, and a bare `P` price cannot be read. */
  lemma {:induction false} ReadEntryExamples()
    ensures ReadEntry(["cat_food", "0", "P1"]) == Err(InvalidQuantity)
    ensures ReadEntry(["cat_food", "3", "P"]) == Err(UnreadablePrice)
  {
    assert ItemNames.IsItemName("cat_food");
    var zero := Quantities.Quantity("0", None, None);
    Quantities.ZeroAmountShape(zero);
    assert Quantities.QuantityText(zero) == "0";
    assert Quantities.IsZeroAmount("0");
    var three := Quantities.Quantity("3", None, None);
    Quantities.ParseQuantityComplete(three);
    Quantities.ZeroAmountShape(three);
    assert Quantities.QuantityText(three) == "3";
    Prices.ReadPriceOutcome("P");
    Prices.MatchPriceComplete(Prices.PriceText("", None));
    assert Prices.Spell(Prices.PriceText("", None)) == "P";
  }
}

=== FILE: errors.dfy ===
/** Why a receipt document is refused, or an output file name is turned
    down. Each kind corresponds to one of the diagnostics the program prints:
    the document kinds end the reading, the file-name kinds ask again. */
module Errors {

  datatype ErrorKind =
    /** a line with four or more fields */
    | TooManyFields
    /** the header with fewer than three fields, or an entry with one or two */
    | MissingFields
    /** an entry line with no fields at all */
    | BlankLine
    | InvalidReceiptNumber
    /** the time field does not match `HH:MM:SS`; the reader reports it with
        the same text as a future date */
    | InvalidTime
    /** the date is not a month/day/year calendar date */
    | InvalidDateTime
    /** the date and time lie after the moment of validation */
    | FutureDateTime
    | InvalidItemName
    | InvalidQuantity
    | InvalidUnitPrice
    /** the unit price passed its pattern but has no digits to read as a number */
    | UnreadablePrice
    /** the output file name contains a character outside `[\w\-. ]` */
    | IllegalFilename
    /** the output file already exists */
    | FileAlreadyExists

  /** A refused document: the 1-based line number and what is wrong with it. */
  datatype Failure = Failure(line: nat, kind: ErrorKind)
}

=== FILE: format.dfy ===
/**
 * The pieces of text the display and the output file are made of: amounts
 * written `P{x:.2f}`, and the header's date and time as
 * `get_formatted_date_and_time` rewrites them, the date as `%Y/%m/%d` and
 * the time as `%I:%M:%S %p`.
 */
module Format {
  import opened Wrappers
  import opened Text
  import opened Errors
  import opened Rounding
  import opened Header
  import Prices

  // ---------------------------------------------------------------- amounts

  /** `P{x:.2f}`: the amount rounded to hundredths, a tie to the even one,
      written with at least one integer digit and exactly two decimals. The
      sign is that of the amount, so a small negative amount shows `-0.00`. */
  function MoneyText(x: real): string
  {
    var r := RoundEven(x);
    var n := (Abs(r) * 100.0).Floor;
    "P" + (if x < 0.0 then "-" else "") + NatText(n / 100) + "." + Pad(n % 100, 2)
  }

  /** A written amount is a price field again, and reading it gives back
      the amount rounded as the format rounds it. */
  lemma {:induction false} MoneyTextReadsBack(x: real)
    requires x >= 0.0
    ensures Prices.ReadPrice(MoneyText(x)) == Ok(RoundEven(x))
  {
    var r := RoundEven(x);
    var n := (Abs(r) * 100.0).Floor;
    var w, c := n / 100, n % 100;
    assert MoneyText(x) == "P" + NatText(w) + "." + Pad(c, 2);
    Prices.ReadCents(w, c);
    CentsParts(r);
  }

  /** An amount already in hundredths, such as every running total, reads
      back unchanged. */
  lemma {:induction false} CentsReadBack(x: real)
    requires x >= 0.0 && IsCents(x)
    ensures Prices.ReadPrice(MoneyText(x)) == Ok(x)
  {
    MoneyTextReadsBack(x);
    RoundEvenAgrees(x);
  }

  /** A non-negative amount in hundredths is its whole units plus its cents. */
  lemma {:induction false} CentsParts(r: real)
    requires IsCents(r) && r >= 0.0
    ensures var n := (Abs(r) * 100.0).Floor;
            n >= 0 && (n / 100) as real + (n % 100) as real / 100.0 == r
  {
    var n := (Abs(r) * 100.0).Floor;
    assert n as real == r * 100.0;
    var w, c := n / 100, n % 100;
    assert (w * 100 + c) as real == n as real;
  }

  /** `P70.00`, `P0.12` and `P0.38`: whole amounts get `.00`, and an exact
      half cent goes to the even cent; a negative amount too small to show
      keeps its sign. */
  lemma {:induction false} MoneyTextExamples()
    ensures MoneyText(70.0) == "P70.00"
    ensures MoneyText(0.125) == "P0.12"
    ensures MoneyText(0.375) == "P0.38"
    ensures MoneyText(-0.001) == "P-0.00"
  {
    MoneyWhole();
    MoneyTies();
    MoneyNegativeZero();
  }

  lemma {:induction false} MoneyWhole()
    ensures MoneyText(70.0) == "P70.00"
  {
    RoundEvenAgrees(70.0);
    MoneyTextOf(70.0, 7000);
    assert NatText(70) == "70" && Pad(0, 2) == "00";
  }

  lemma {:induction false} MoneyTies()
    ensures MoneyText(0.125) == "P0.12"
    ensures MoneyText(0.375) == "P0.38"
  {
    MoneyTieDown();
    MoneyTieUp();
  }

  /** 0.125 lies halfway between 0.12 and 0.13 and goes to the even 0.12. */
  lemma {:induction false} MoneyTieDown()
    ensures MoneyText(0.125) == "P0.12"
  {
    RoundEvenTies();
    MoneyTextOf(0.125, 12);
    assert Pad(12, 2) == "12";
  }

  /** 0.375 lies halfway between 0.37 and 0.38 and goes to the even 0.38. */
  lemma {:induction false} MoneyTieUp()
    ensures MoneyText(0.375) == "P0.38"
  {
    RoundEvenTies();
    MoneyTextOf(0.375, 38);
    assert Pad(38, 2) == "38";
  }

  lemma {:induction false} MoneyNegativeZero()
    ensures MoneyText(-0.001) == "P-0.00"
  {
    RoundEvenUnique(-0.001, 0.0);
    MoneyTextOf(-0.001, 0);
    assert NatText(0) == "0" && Pad(0, 2) == "00";
  }

  /** The text of an amount the format rounds to `n` hundredths. */
  lemma {:induction false} MoneyTextOf(x: real, n: nat)
    requires Abs(RoundEven(x)) == n as real / 100.0
    ensures MoneyText(x) == "P" + (if x < 0.0 then "-" else "") + NatText(n / 100) + "." + Pad(n % 100, 2)
  {
    assert (n as real / 100.0 * 100.0).Floor == n;
  }

  // ---------------------------------------------------------------- date

  /** `strftime("%Y/%m/%d")`: year first, every component zero-padded. */
  function FormatDate(d: Date): string
  {
    Pad(d.year, 4) + "/" + Pad(d.month, 2) + "/" + Pad(d.day, 2)
  }

  /** A formatted date splits at its two `/` into a four-digit year and a
      two-digit month and day that read back as the date. */
  lemma {:induction false} FormatDateReadsBack(d: Date)
    requires IsValidDate(d)
    ensures SplitDate(FormatDate(d)) == Some((Pad(d.year, 4), Pad(d.month, 2), Pad(d.day, 2)))
    ensures var p := SplitDate(FormatDate(d)).value;
            Date(DigitsValue(p.0), DigitsValue(p.1), DigitsValue(p.2)) == d
  {
    var y, m, dd := Pad(d.year, 4), Pad(d.month, 2), Pad(d.day, 2);
    DigitsHaveNoSlash(y);
    DigitsHaveNoSlash(m);
    SplitDateComplete(y, m, dd);
    assert Pow10(4) == 10000;
    PadValue(d.year, 4);
    PadValue(d.month, 2);
    PadValue(d.day, 2);
  }

  // ---------------------------------------------------------------- time

  /** `%I`: the hour on the 12-hour clock, where midnight and noon are 12. */
  function Hour12(hour: nat): (h: nat)
    requires hour < 24
    ensures 1 <= h <= 12
  {
    if hour % 12 == 0 then 12 else hour % 12
  }

  /** `%p` */
  function Meridiem(hour: nat): string
  {
    if hour < 12 then "AM" else "PM"
  }

  /** The 24-hour hour that a 12-hour hour and its `AM`/`PM` denote. */
  function To24(h: nat, pm: bool): nat
  {
    h % 12 + if pm then 12 else 0
  }

  /** `%I:%M:%S` */
  function ClockFace(c: Clock): string
    requires c.hour < 24
  {
    Pad(Hour12(c.hour), 2) + ":" + Pad(c.minute, 2) + ":" + Pad(c.second, 2)
  }

  /** `strftime("%I:%M:%S %p")` */
  function FormatClock(c: Clock): string
    requires c.hour < 24
  {
    ClockFace(c) + " " + Meridiem(c.hour)
  }

  /** The 12-hour reading loses nothing: with its `AM`/`PM` it gives back
      the 24-hour hour. */
  lemma {:induction false} Hour12RoundTrip(hour: nat)
    requires hour < 24
    ensures To24(Hour12(hour), Meridiem(hour) == "PM") == hour
  {
  }

  /** A formatted time is `hh:mm:ss` and `AM` or `PM`; its hour with the
      `AM`/`PM` and its minute and second read back as the time. */
  lemma {:induction false} FormatClockReadsBack(c: Clock)
    requires IsValidClock(c)
    ensures var s := FormatClock(c);
            && |s| == 11 && s[2] == ':' && s[5] == ':' && s[8] == ' '
            && (s[9..] == "AM" || s[9..] == "PM")
            && AllDigits(s[0..2]) && AllDigits(s[3..5]) && AllDigits(s[6..8])
            && Clock(To24(DigitsValue(s[0..2]), s[9..] == "PM"), DigitsValue(s[3..5]), DigitsValue(s[6..8])) == c
  {
    var h := Hour12(c.hour);
    PadTwo(h);
    PadTwo(c.minute);
    PadTwo(c.second);
    Hour12RoundTrip(c.hour);
    var s := FormatClock(c);
    assert s[0..2] == Pad(h, 2);
    assert s[3..5] == Pad(c.minute, 2);
    assert s[6..8] == Pad(c.second, 2);
    assert s[9..] == Meridiem(c.hour);
  }

  /** Afternoon, midnight and noon on the 12-hour clock. */
  lemma {:induction false} FormatClockExamples()
    ensures FormatClock(Clock(14, 30, 0)) == "02:30:00 PM"
    ensures FormatClock(Clock(0, 5, 0)) == "12:05:00 AM"
    ensures FormatClock(Clock(12, 0, 0)) == "12:00:00 PM"
  {
    ClockFaceOf(Clock(14, 30, 0), 2);
    ClockFaceOf(Clock(0, 5, 0), 12);
    ClockFaceOf(Clock(12, 0, 0), 12);
  }

  /** The formatted time, digit by digit, for a 12-hour hour `h`. */
  lemma {:induction false} ClockFaceOf(c: Clock, h: nat)
    requires IsValidClock(c) && Hour12(c.hour) == h
    ensures FormatClock(c) == [DigitChar(h / 10), DigitChar(h % 10), ':',
                               DigitChar(c.minute / 10), DigitChar(c.minute % 10), ':',
                               DigitChar(c.second / 10), DigitChar(c.second % 10), ' ']
                              + Meridiem(c.hour)
  {
    PadTwo(h);
    PadTwo(c.minute);
    PadTwo(c.second);
  }

  // ---------------------------------------------------------------- both

  /** `get_formatted_date_and_time`, on the date and time it is given:
      `strptime` of both (`None` where it raises), then `strftime`. */
  function FormatDateTime(date: string, time: string): Option<(string, string)>
  {
    match (ParseDate(date), ParseClock(time))
    case (Some(d), Some(c)) =>
      Some((FormatDate(d), FormatClock(c)))
    case _ => None
  }

  /** The header of every accepted receipt can be formatted. */
  lemma {:induction false} AcceptedHeaderFormats(fields: seq<string>, now: Moment)
    requires |fields| == 3 && CheckHeader(fields, now).Ok?
    ensures FormatDateTime(fields[1], fields[2]).Some?
  {
    AcceptedHeader(fields, now);
  }

  /** The date is rewritten year first: the year is copied as written and
      the month and day keep their values, zero-padded to two digits. */
  lemma {:induction false} DateReordered(date: string, time: string)
    requires FormatDateTime(date, time).Some?
    ensures SplitDate(date).Some? && SplitDate(FormatDateTime(date, time).value.0).Some?
    ensures var i := SplitDate(date).value;
            var o := SplitDate(FormatDateTime(date, time).value.0).value;
            && AllDigits(i.0) && AllDigits(i.1) && AllDigits(i.2)
            && o.0 == i.2 && |o.1| == 2 && |o.2| == 2
            && DigitsValue(o.1) == DigitsValue(i.0) && DigitsValue(o.2) == DigitsValue(i.1)
  {
    var i := SplitDate(date).value;
    ReadDateParts(i.0, i.1, i.2);
    FormatDateReadsBack(ParseDate(date).value);
    PadOfValue(i.2);
  }

  lemma {:induction false} ReadDateParts(mt: string, dt: string, yt: string)
    requires ReadDate(mt, dt, yt).Some?
    ensures AllDigits(mt) && AllDigits(dt) && AllDigits(yt) && |yt| == 4
    ensures ReadDate(mt, dt, yt).value == Date(DigitsValue(yt), DigitsValue(mt), DigitsValue(dt))
    ensures IsValidDate(ReadDate(mt, dt, yt).value)
  {
  }

  /** The time keeps its minutes and seconds as written, and its hour is
      the 12-hour hour that, with the `AM`/`PM`, denotes the written one. */
  lemma {:induction false} TimeConverted(date: string, time: string)
    requires FormatDateTime(date, time).Some?
    ensures var t := FormatDateTime(date, time).value.1;
            && |time| == 8 && |t| == 11
            && AllDigits(time[0..2]) && AllDigits(t[0..2])
            && t[2..8] == time[2..8]
            && To24(DigitsValue(t[0..2]), t[9..] == "PM") == DigitsValue(time[0..2])
  {
    assert FormatDateTime(date, time).value.1 == FormatClock(ParseClock(time).value);
    ClockConverted(time);
  }

  lemma {:induction false} ClockConverted(time: string)
    requires ParseClock(time).Some?
    ensures var c := ParseClock(time).value;
            var t := FormatClock(c);
            && |time| == 8 && |t| == 11
            && AllDigits(time[0..2]) && AllDigits(t[0..2])
            && t[2..8] == time[2..8]
            && To24(DigitsValue(t[0..2]), t[9..] == "PM") == DigitsValue(time[0..2])
  {
    var c := ParseClock(time).value;
    ParseClockSound(time);
    FormatClockReadsBack(c);
    var t := FormatClock(c);
    var tail := ":" + Pad(c.minute, 2) + ":" + Pad(c.second, 2);
    assert t[2..8] == tail;
    assert ClockText(c)[2..8] == tail;
  }
}

=== FILE: header.dfy ===
/**
 * The header line `<receipt number> <MM/DD/YYYY> <HH:MM:SS>`: its three
 * grammars, the calendar check that `datetime.strptime` performs, and the
 * "not in the future" comparison against the moment of validation.
 */
module Header {
  import opened Wrappers
  import opened Text
  import opened Errors

  // ---------------------------------------------------------------- receipt number

  /** `^\d{1}-\d{2}-\d{4}-\d{2}$` */
  predicate IsReceiptNumber(s: string) {
    && |s| == 12
    && s[1] == '-' && s[4] == '-' && s[9] == '-'
    && IsDigit(s[0])
    && IsDigit(s[2]) && IsDigit(s[3])
    && IsDigit(s[5]) && IsDigit(s[6]) && IsDigit(s[7]) && IsDigit(s[8])
    && IsDigit(s[10]) && IsDigit(s[11])
  }

  /** Four digit groups joined by `-` form a receipt number exactly when
      they have 1, 2, 4 and 2 digits. */
  lemma {:induction false} ReceiptNumberGroups(a: string, b: string, c: string, d: string)
    requires AllDigits(a) && AllDigits(b) && AllDigits(c) && AllDigits(d)
    ensures IsReceiptNumber(a + "-" + b + "-" + c + "-" + d)
            <==> |a| == 1 && |b| == 2 && |c| == 4 && |d| == 2
  {
    var s := a + "-" + b + "-" + c + "-" + d;
    assert forall k | 0 <= k < |a| :: s[k] == a[k];
    assert s[|a|] == '-';
    assert forall k | 0 <= k < |b| :: s[|a| + 1 + k] == b[k];
    assert s[|a| + 1 + |b|] == '-';
    assert forall k | 0 <= k < |c| :: s[|a| + 2 + |b| + k] == c[k];
    assert s[|a| + 2 + |b| + |c|] == '-';
    assert forall k | 0 <= k < |d| :: s[|a| + 3 + |b| + |c| + k] == d[k];
  }

  // ---------------------------------------------------------------- time

  /** `^([0-1][0-9]|2[0-3]):[0-5][0-9]:[0-5][0-9]$` */
  predicate IsTimeText(s: string) {
    && |s| == 8
    && s[2] == ':' && s[5] == ':'
    && (('0' <= s[0] <= '1' && IsDigit(s[1])) || (s[0] == '2' && '0' <= s[1] <= '3'))
    && '0' <= s[3] <= '5' && IsDigit(s[4])
    && '0' <= s[6] <= '5' && IsDigit(s[7])
  }

  /** A time of day on the 24-hour clock. */
  datatype Clock = Clock(hour: nat, minute: nat, second: nat)

  predicate IsValidClock(c: Clock) {
    c.hour < 24 && c.minute < 60 && c.second < 60
  }

  /** `strftime("%H:%M:%S")` */
  function ClockText(c: Clock): string
  {
    Pad(c.hour, 2) + ":" + Pad(c.minute, 2) + ":" + Pad(c.second, 2)
  }

  /** The time a `HH:MM:SS` field denotes, if it matches the pattern. */
  function ParseClock(s: string): (r: Option<Clock>)
    ensures r.Some? ==> IsValidClock(r.value)
  {
    if IsTimeText(s) then
      TimeComponentsInRange(s);
      Some(Clock(DigitsValue(s[0..2]), DigitsValue(s[3..5]), DigitsValue(s[6..8])))
    else None
  }

  /** Every accepted time field is a valid time of day written with two
      digits per component. */
  lemma {:induction false} ParseClockSound(s: string)
    requires ParseClock(s).Some?
    ensures IsValidClock(ParseClock(s).value)
    ensures ClockText(ParseClock(s).value) == s
  {
    assert ParseClock(s).value == Clock(DigitsValue(s[0..2]), DigitsValue(s[3..5]), DigitsValue(s[6..8]));
    TimeComponentsInRange(s);
    TimeTextOfComponents(s);
  }

  lemma {:induction false} TimeComponentsInRange(s: string)
    requires IsTimeText(s)
    ensures DigitsValue(s[0..2]) < 24 && DigitsValue(s[3..5]) < 60 && DigitsValue(s[6..8]) < 60
  {
    TwoDigitValue(s[0..2]);
    TwoDigitValue(s[3..5]);
    TwoDigitValue(s[6..8]);
  }

  lemma {:induction false} TimeTextOfComponents(s: string)
    requires IsTimeText(s)
    ensures ClockText(Clock(DigitsValue(s[0..2]), DigitsValue(s[3..5]), DigitsValue(s[6..8]))) == s
  {
    var h, m, x := s[0..2], s[3..5], s[6..8];
    assert AllDigits(h) && AllDigits(m) && AllDigits(x);
    ClockTextOfParts(h, m, x);
    ColonSeparated(s);
  }

  lemma {:induction false} ClockTextOfParts(h: string, m: string, x: string)
    requires |h| == 2 && |m| == 2 && |x| == 2
    requires AllDigits(h) && AllDigits(m) && AllDigits(x)
    ensures ClockText(Clock(DigitsValue(h), DigitsValue(m), DigitsValue(x))) == h + ":" + m + ":" + x
  {
    PadOfValue(h);
    PadOfValue(m);
    PadOfValue(x);
  }

  lemma {:induction false} ColonSeparated(s: string)
    requires |s| == 8 && s[2] == ':' && s[5] == ':'
    ensures s == s[0..2] + ":" + s[3..5] + ":" + s[6..8]
  {
  }

  lemma {:induction false} TwoDigitValue(t: string)
    requires |t| == 2 && AllDigits(t)
    ensures DigitsValue(t) == 10 * DigitValue(t[0]) + DigitValue(t[1])
  {
    var init := t[..1];
    assert init[..0] == "";
    assert DigitsValue(init) == DigitValue(t[0]);
  }

  lemma {:induction false} PadTwo(n: nat)
    requires n < 100
    ensures Pad(n, 2) == [DigitChar(n / 10), DigitChar(n % 10)]
    ensures DigitsValue(Pad(n, 2)) == n
  {
    PadValue(n, 2);
  }

  /** Every valid time of day, written `HH:MM:SS`, is accepted and read back. */
  lemma {:induction false} ParseClockComplete(c: Clock)
    requires IsValidClock(c)
    ensures ParseClock(ClockText(c)) == Some(c)
  {
    PadTwo(c.hour);
    PadTwo(c.minute);
    PadTwo(c.second);
    var s := ClockText(c);
    assert s[0..2] == Pad(c.hour, 2);
    assert s[3..5] == Pad(c.minute, 2);
    assert s[6..8] == Pad(c.second, 2);
  }

  // ---------------------------------------------------------------- date

  /** A proleptic Gregorian calendar date. */
  datatype Date = Date(year: nat, month: nat, day: nat)

  predicate IsLeapYear(y: nat) {
    y % 4 == 0 && (y % 100 != 0 || y % 400 == 0)
  }

  function DaysInMonth(y: nat, m: nat): nat
    requires 1 <= m <= 12
  {
    if m == 2 then (if IsLeapYear(y) then 29 else 28)
    else if m == 4 || m == 6 || m == 9 || m == 11 then 30
    else 31
  }

  /** The dates `datetime` can represent. */
  predicate IsValidDate(d: Date) {
    1 <= d.year <= 9999 && 1 <= d.month <= 12 && 1 <= d.day <= DaysInMonth(d.year, d.month)
  }

  /** `%m` of `strptime`: `1[0-2]|0[1-9]|[1-9]` */
  predicate IsMonthText(s: string) {
    || (|s| == 1 && '1' <= s[0] <= '9')
    || (|s| == 2 && ((s[0] == '1' && '0' <= s[1] <= '2') || (s[0] == '0' && '1' <= s[1] <= '9')))
  }

  /** `%d` of `strptime`: `3[01]|[12]\d|0[1-9]|[1-9]`; its further
      alternative ` [1-9]` starts with a space, which no field contains. */
  predicate IsDayText(s: string) {
    || (|s| == 1 && '1' <= s[0] <= '9')
    || (|s| == 2 && (|| (s[0] == '3' && '0' <= s[1] <= '1')
                     || ('1' <= s[0] <= '2' && IsDigit(s[1]))
                     || (s[0] == '0' && '1' <= s[1] <= '9')))
  }

  /** `strptime(s, "%m/%d/%Y")`: month and day of one or two digits, a year
      of exactly four, and a date the calendar has; `None` where it raises. */
  function ParseDate(s: string): (r: Option<Date>)
    ensures r.Some? ==> IsValidDate(r.value)
  {
    match SplitDate(s)
    case None => None
    case Some(parts) => ReadDate(parts.0, parts.1, parts.2)
  }

  /** The text before the first `/`, between it and the second, and after
      the second; `None` when there are fewer than two. */
  function SplitDate(s: string): (r: Option<(string, string, string)>)
    ensures r.Some? ==> s == r.value.0 + "/" + r.value.1 + "/" + r.value.2
  {
    var i := IndexOf(s, '/');
    if i == |s| then None
    else
      var rest := s[i + 1..];
      var j := IndexOf(rest, '/');
      if j == |rest| then None
      else
        CutAt(rest, j);
        CutAt(s, i);
        Some((s[..i], rest[..j], rest[j + 1..]))
  }

  /** The three fields read as month, day and year. */
  function ReadDate(mt: string, dt: string, yt: string): Option<Date>
  {
    if IsMonthText(mt) && IsDayText(dt) && |yt| == 4 && AllDigits(yt) then
      var d := Date(DigitsValue(yt), DigitsValue(mt), DigitsValue(dt));
      if IsValidDate(d) then Some(d) else None
    else None
  }

  /** A text with `/` at `i` is what comes before it, the `/`, and what
      comes after. */
  lemma {:induction false} CutAt(s: string, i: nat)
    requires i < |s| && s[i] == '/'
    ensures s == s[..i] + "/" + s[i + 1..]
  {
    assert s == s[..i] + [s[i]] + s[i + 1..];
  }

  /** Two fields free of `/` and any third are split back apart. */
  lemma {:induction false} SplitDateComplete(a: string, b: string, c: string)
    requires forall k | 0 <= k < |a| :: a[k] != '/'
    requires forall k | 0 <= k < |b| :: b[k] != '/'
    ensures SplitDate(a + "/" + b + "/" + c) == Some((a, b, c))
  {
    var s := a + "/" + b + "/" + c;
    var rest := b + "/" + c;
    assert s == a + "/" + rest;
    IndexOfConcat(a, '/', rest);
    assert s[..|a|] == a;
    assert s[|a| + 1..] == rest;
    IndexOfConcat(b, '/', c);
    assert rest[..|b|] == b;
    assert rest[|b| + 1..] == c;
  }

  /** A month or day number written with two digits or with as few as needed. */
  function NumberText(n: nat, padded: bool): string
  {
    if padded then Pad(n, 2) else NatText(n)
  }

  /** A date written month/day/year with a four-digit year. */
  function DateText(d: Date, padMonth: bool, padDay: bool): string
  {
    NumberText(d.month, padMonth) + "/" + NumberText(d.day, padDay) + "/" + Pad(d.year, 4)
  }

  lemma {:induction false} ShortOrPadded(s: string)
    requires (|s| == 1 && '1' <= s[0] <= '9') || (|s| == 2 && AllDigits(s))
    ensures AllDigits(s)
    ensures s == NumberText(DigitsValue(s), |s| == 2)
  {
    if |s| == 2 {
      PadOfValue(s);
    } else {
      assert s[..0] == "";
    }
  }

  /** Every accepted date text denotes a valid date, and is that date
      written month/day/year with or without zero-padding. */
  lemma {:induction false} ParseDateSound(s: string)
    requires ParseDate(s).Some?
    ensures IsValidDate(ParseDate(s).value)
    ensures exists pm: bool, pd: bool :: s == DateText(ParseDate(s).value, pm, pd)
  {
    var parts := SplitDate(s).value;
    ReadDateSound(parts.0, parts.1, parts.2);
  }

  lemma {:induction false} ReadDateSound(mt: string, dt: string, yt: string)
    requires ReadDate(mt, dt, yt).Some?
    ensures var d := ReadDate(mt, dt, yt).value;
            IsValidDate(d) && mt + "/" + dt + "/" + yt == DateText(d, |mt| == 2, |dt| == 2)
  {
    ShortOrPadded(mt);
    ShortOrPadded(dt);
    PadOfValue(yt);
  }

  lemma {:induction false} MonthNumberText(m: nat, padded: bool)
    requires 1 <= m <= 12
    ensures IsMonthText(NumberText(m, padded))
    ensures AllDigits(NumberText(m, padded)) && DigitsValue(NumberText(m, padded)) == m
  {
    PadTwo(m);
    NatTextValue(m);
    if m >= 10 {
      assert NatText(m) == NatText(1) + [DigitChar(m % 10)];
    }
  }

  lemma {:induction false} DayNumberText(n: nat, padded: bool)
    requires 1 <= n <= 31
    ensures IsDayText(NumberText(n, padded))
    ensures AllDigits(NumberText(n, padded)) && DigitsValue(NumberText(n, padded)) == n
  {
    PadTwo(n);
    NatTextValue(n);
    if n >= 10 {
      assert NatText(n) == NatText(n / 10) + [DigitChar(n % 10)];
    }
  }

  lemma {:induction false} DigitsHaveNoSlash(s: string)
    requires AllDigits(s)
    ensures forall k | 0 <= k < |s| :: s[k] != '/'
  {
  }

  /** Every valid date, written month/day/year with or without padding, is
      accepted and read back. */
  lemma {:induction false} ParseDateComplete(d: Date, padMonth: bool, padDay: bool)
    requires IsValidDate(d)
    ensures ParseDate(DateText(d, padMonth, padDay)) == Some(d)
  {
    var mt := NumberText(d.month, padMonth);
    var dt := NumberText(d.day, padDay);
    var yt := Pad(d.year, 4);
    MonthNumberText(d.month, padMonth);
    DayNumberText(d.day, padDay);
    PadValue(d.year, 4);
    DigitsHaveNoSlash(mt);
    DigitsHaveNoSlash(dt);
    SplitDateComplete(mt, dt, yt);
  }

  // ---------------------------------------------------------------- moments

  /** A `datetime` value; the moment of validation carries microseconds. */
  datatype Moment = Moment(year: int, month: int, day: int,
                           hour: int, minute: int, second: int, microsecond: int)

  function Key(m: Moment): seq<int> {
    [m.year, m.month, m.day, m.hour, m.minute, m.second, m.microsecond]
  }

  /** Lexicographic order on equal-length integer tuples. */
  predicate LexLess(a: seq<int>, b: seq<int>)
    requires |a| == |b|
  {
    |a| > 0 && (a[0] < b[0] || (a[0] == b[0] && LexLess(a[1..], b[1..])))
  }

  /** `a > b` between two `datetime` values: the later one has the larger
      (year, month, day, hour, minute, second, microsecond). */
  predicate IsLater(a: Moment, b: Moment) {
    LexLess(Key(b), Key(a))
  }

  lemma {:induction false} LexTrichotomy(a: seq<int>, b: seq<int>)
    requires |a| == |b|
    ensures a == b || LexLess(a, b) || LexLess(b, a)
    ensures !(LexLess(a, b) && LexLess(b, a))
    ensures !LexLess(a, a)
  {
    if |a| > 0 {
      LexTrichotomy(a[1..], b[1..]);
      LexTrichotomy(a[1..], a[1..]);
      if a[0] == b[0] && a[1..] == b[1..] {
        assert a == [a[0]] + a[1..];
        assert b == [b[0]] + b[1..];
      }
    }
  }

  /** Exactly one of: `a` is later than `b`, they are equal, `b` is later. */
  lemma {:induction false} LaterIsStrictTotal(a: Moment, b: Moment)
    ensures a == b || IsLater(a, b) || IsLater(b, a)
    ensures !(IsLater(a, b) && IsLater(b, a))
    ensures !IsLater(a, a)
  {
    LexTrichotomy(Key(a), Key(b));
    LexTrichotomy(Key(a), Key(a));
    if Key(a) == Key(b) {
      assert a.year == Key(a)[0] == Key(b)[0] == b.year;
      assert a.microsecond == Key(a)[6];
    }
  }

  /** The moment a header's date and time denote (whole seconds). */
  function Stamp(d: Date, c: Clock): Moment {
    Moment(d.year, d.month, d.day, c.hour, c.minute, c.second, 0)
  }

  // ---------------------------------------------------------------- the header line

  /** A header as the receipt stores it: the three fields verbatim. */
  datatype Header = Header(number: string, date: string, time: string)

  /** `check_header_line`: the receipt number, then the time pattern, then
      the calendar date, then the comparison with `now`. */
  function CheckHeader(fields: seq<string>, now: Moment): (r: Result<Header, ErrorKind>)
    requires |fields| == 3
    ensures r.Ok? ==> r.value == Header(fields[0], fields[1], fields[2])
  {
    if !IsReceiptNumber(fields[0]) then Err(InvalidReceiptNumber)
    else if !IsTimeText(fields[2]) then Err(InvalidTime)
    else match ParseDate(fields[1])
      case None => Err(InvalidDateTime)
      case Some(d) =>
        if IsLater(Stamp(d, ParseClock(fields[2]).value), now) then Err(FutureDateTime)
        else Ok(Header(fields[0], fields[1], fields[2]))
  }

  /** What an accepted header guarantees: a well-formed receipt number, a
      valid calendar date and time of day, and a moment no later than `now`. */
  lemma {:induction false} AcceptedHeader(fields: seq<string>, now: Moment)
    requires |fields| == 3 && CheckHeader(fields, now).Ok?
    ensures IsReceiptNumber(fields[0])
    ensures ParseDate(fields[1]).Some? && IsValidDate(ParseDate(fields[1]).value)
    ensures ParseClock(fields[2]).Some? && IsValidClock(ParseClock(fields[2]).value)
    ensures var m := Stamp(ParseDate(fields[1]).value, ParseClock(fields[2]).value);
            m == now || IsLater(now, m)
  {
    ParseDateSound(fields[1]);
    ParseClockSound(fields[2]);
    var m := Stamp(ParseDate(fields[1]).value, ParseClock(fields[2]).value);
    LaterIsStrictTotal(m, now);
  }

  /** The future check in both directions: with a well-formed number, date
      and time, the header is refused as future-dated exactly when its moment
      is later than `now`, and is accepted otherwise (in particular when it
      equals `now`). */
  lemma {:induction false} FutureBoundary(fields: seq<string>, now: Moment)
    requires |fields| == 3 && IsReceiptNumber(fields[0])
    requires ParseDate(fields[1]).Some? && ParseClock(fields[2]).Some?
    ensures var m := Stamp(ParseDate(fields[1]).value, ParseClock(fields[2]).value);
            && (CheckHeader(fields, now) == Err(FutureDateTime) <==> IsLater(m, now))
            && (CheckHeader(fields, now).Ok? <==> !IsLater(m, now))
            && (m == now ==> CheckHeader(fields, now).Ok?)
  {
    var m := Stamp(ParseDate(fields[1]).value, ParseClock(fields[2]).value);
    LaterIsStrictTotal(m, now);
  }

  /** The order the checks run in: the first failing one is reported. */
  lemma {:induction false} HeaderErrorOrder(fields: seq<string>, now: Moment)
    requires |fields| == 3
    ensures CheckHeader(fields, now) == Err(InvalidReceiptNumber) <==> !IsReceiptNumber(fields[0])
    ensures CheckHeader(fields, now) == Err(InvalidTime)
            <==> IsReceiptNumber(fields[0]) && ParseClock(fields[2]).None?
    ensures CheckHeader(fields, now) == Err(InvalidDateTime)
            <==> IsReceiptNumber(fields[0]) && ParseClock(fields[2]).Some? && ParseDate(fields[1]).None?
  {
  }
}

=== FILE: itemnames.dfy ===
/**
 * Item names: the pattern `^(\w+(_)?){1,}$` and the normalisation that
 * capitalises every `_`-separated segment (`str.capitalize` on each piece
 * of `split("_")`, re-joined with `_`).
 */
module ItemNames {
  import opened Text

  /** The name pattern read literally: one or more groups, each a non-empty
      run of word characters optionally followed by `_`. */
  predicate MatchesNamePattern(s: string)
    decreases |s|
  {
    exists i | 1 <= i <= |s| ::
      && AllWordChars(s[..i])
      && (|| i == |s|
          || MatchesNamePattern(s[i..])
          || (s[i] == '_' && (i + 1 == |s| || MatchesNamePattern(s[i + 1..]))))
  }

  /** Since `\w` already contains `_`, the pattern accepts exactly the
      non-empty strings of word characters. */
  predicate IsItemName(s: string) {
    |s| > 0 && AllWordChars(s)
  }

  lemma {:induction false} NamePatternIsWordRun(s: string)
    ensures MatchesNamePattern(s) <==> IsItemName(s)
  {
    if IsItemName(s) {
      assert s[..|s|] == s;
    }
    if MatchesNamePattern(s) {
      PatternIsWordRun(s);
    }
  }

  lemma {:induction false} PatternIsWordRun(s: string)
    requires MatchesNamePattern(s)
    ensures IsItemName(s)
    decreases |s|
  {
    var i :| 1 <= i <= |s| && AllWordChars(s[..i])
             && (|| i == |s|
                 || MatchesNamePattern(s[i..])
                 || (s[i] == '_' && (i + 1 == |s| || MatchesNamePattern(s[i + 1..]))));
    if i == |s| {
      assert s == s[..i];
    } else if MatchesNamePattern(s[i..]) {
      PatternIsWordRun(s[i..]);
      WordCharsConcat(s[..i], s[i..]);
      assert s == s[..i] + s[i..];
    } else {
      var rest := if i + 1 == |s| then "" else s[i + 1..];
      if i + 1 < |s| {
        PatternIsWordRun(s[i + 1..]);
      }
      WordCharsConcat(s[..i], [s[i]]);
      WordCharsConcat(s[..i] + [s[i]], rest);
      assert s == s[..i] + [s[i]] + rest;
    }
  }

  lemma {:induction false} WordCharsConcat(a: string, b: string)
    requires AllWordChars(a) && AllWordChars(b)
    ensures AllWordChars(a + b)
  {
    var s := a + b;
    forall k | 0 <= k < |s|
      ensures IsWordChar(s[k])
    {
      if k < |a| {
        assert s[k] == a[k];
      } else {
        assert s[k] == b[k - |a|];
      }
    }
  }

  // ---------------------------------------------------------------- normalisation

  function LowerAll(w: string): (l: string)
    ensures |l| == |w|
  {
    seq(|w|, i requires 0 <= i < |w| => ToLower(w[i]))
  }

  /** `str.capitalize` on ASCII: first character upper-cased, the rest lower-cased. */
  function Capitalize(w: string): string
  {
    if |w| == 0 then "" else [ToUpper(w[0])] + LowerAll(w[1..])
  }

  function CapitalizeEach(parts: seq<string>): (caps: seq<string>)
    ensures |caps| == |parts|
  {
    seq(|parts|, i requires 0 <= i < |parts| => Capitalize(parts[i]))
  }

  /** `'_'.join(word.capitalize() for word in name.split("_"))` */
  function Normalize(name: string): string
  {
    JoinWith(CapitalizeEach(SplitOn(name, '_')), '_')
  }

  /** The same normalisation stated character by character: a character that
      starts the name or follows `_` is upper-cased, every other one is
      lower-cased. */
  function CaseByPosition(s: string): (r: string)
    ensures |r| == |s|
  {
    seq(|s|, i requires 0 <= i < |s| =>
      if i == 0 || s[i - 1] == '_' then ToUpper(s[i]) else ToLower(s[i]))
  }

  lemma {:induction false} LastPieceEmpty(s: string, sep: char)
    ensures var parts := SplitOn(s, sep);
            parts[|parts| - 1] == "" <==> |s| == 0 || s[|s| - 1] == sep
  {
  }

  lemma {:induction false} CapitalizeSnoc(w: string, c: char)
    ensures Capitalize(w + [c]) == Capitalize(w) + [if |w| == 0 then ToUpper(c) else ToLower(c)]
  {
    if |w| > 0 {
      assert (w + [c])[1..] == w[1..] + [c];
      assert LowerAll(w[1..] + [c]) == LowerAll(w[1..]) + [ToLower(c)];
    }
  }

  /** The case a position receives: `_` stays, a segment start is upper-cased,
      anything else lower-cased. */
  function CaseAfter(prev: string, c: char): char
  {
    if |prev| == 0 || prev[|prev| - 1] == '_' then ToUpper(c) else ToLower(c)
  }

  lemma {:induction false} CaseByPositionSnoc(t: string, c: char)
    ensures CaseByPosition(t + [c]) == CaseByPosition(t) + [CaseAfter(t, c)]
  {
    var s := t + [c];
    assert CaseByPosition(s)[..|t|] == CaseByPosition(t);
  }

  lemma {:induction false} NormalizeSnocSeparator(t: string)
    ensures Normalize(t + ['_']) == Normalize(t) + ['_']
  {
    var s := t + ['_'];
    assert s[..|s| - 1] == t;
    var init := SplitOn(t, '_');
    var caps := CapitalizeEach(init);
    assert SplitOn(s, '_') == init + [""];
    assert CapitalizeEach(init + [""]) == caps + [""];
    assert (caps + [""])[..|caps|] == caps;
  }

  lemma {:induction false} NormalizeSnocWord(t: string, c: char)
    requires c != '_'
    ensures Normalize(t + [c]) == Normalize(t) + [CaseAfter(t, c)]
  {
    var s := t + [c];
    assert s[..|s| - 1] == t;
    var init := SplitOn(t, '_');
    var caps := CapitalizeEach(init);
    var n := |init|;
    var last := init[n - 1];
    assert SplitOn(s, '_') == init[..n - 1] + [last + [c]];
    LastPieceEmpty(t, '_');
    CapitalizeSnoc(last, c);
    var x := CaseAfter(t, c);
    assert CapitalizeEach(init[..n - 1] + [last + [c]]) == caps[..n - 1] + [caps[n - 1] + [x]];
    JoinReplaceLast(caps, '_', x);
  }

  /** Split/capitalise/join and the position-wise rule agree on every string. */
  lemma {:induction false} NormalizeByPosition(s: string)
    ensures Normalize(s) == CaseByPosition(s)
    decreases |s|
  {
    if |s| > 0 {
      var t := s[..|s| - 1];
      var c := s[|s| - 1];
      assert s == t + [c];
      NormalizeByPosition(t);
      CaseByPositionSnoc(t, c);
      if c == '_' {
        NormalizeSnocSeparator(t);
      } else {
        NormalizeSnocWord(t, c);
      }
    }
  }

  /** Normalisation keeps the length, keeps `_` exactly where it was, keeps
      a valid name valid, and is idempotent. */
  lemma {:induction false} NormalizeShape(s: string)
    ensures |Normalize(s)| == |s|
    ensures forall i | 0 <= i < |s| :: (Normalize(s)[i] == '_' <==> s[i] == '_')
    ensures IsItemName(s) ==> IsItemName(Normalize(s))
    ensures Normalize(Normalize(s)) == Normalize(s)
  {
    NormalizeByPosition(s);
    CaseKeepsSeparators(s);
    CaseKeepsWordChars(s);
    var n := CaseByPosition(s);
    NormalizeByPosition(n);
    CaseIdempotent(s);
  }

  lemma {:induction false} CaseKeepsSeparators(s: string)
    ensures forall i | 0 <= i < |s| :: (CaseByPosition(s)[i] == '_' <==> s[i] == '_')
  {
  }

  lemma {:induction false} CaseKeepsWordChars(s: string)
    ensures IsItemName(s) ==> IsItemName(CaseByPosition(s))
  {
    var n := CaseByPosition(s);
    if IsItemName(s) {
      assert forall i | 0 <= i < |n| :: IsWordChar(s[i]);
    }
  }

  lemma {:induction false} CaseIdempotent(s: string)
    ensures CaseByPosition(CaseByPosition(s)) == CaseByPosition(s)
  {
    var n := CaseByPosition(s);
    var m := CaseByPosition(n);
    forall i | 0 <= i < |s|
      ensures m[i] == n[i]
    {
      var start := i == 0 || s[i - 1] == '_';
      assert start <==> (i == 0 || n[i - 1] == '_') by {
        CaseKeepsSeparators(s);
      }
      CaseTwice(s[i]);
      assert n[i] == if start then ToUpper(s[i]) else ToLower(s[i]);
    }
  }

  lemma {:induction false} CaseTwice(c: char)
    ensures ToUpper(ToUpper(c)) == ToUpper(c)
    ensures ToLower(ToLower(c)) == ToLower(c)
  {
  }

  /** `cat_food` becomes `Cat_Food`. */
  lemma {:induction false} NormalizeSnakeCase(s: string)
    requires s == "cat_food"
    ensures Normalize(s) == "Cat_Food"
  {
    NormalizeByPosition(s);
    var a := CaseByPosition(s);
    assert a[0] == 'C' && a[1] == 'a' && a[2] == 't' && a[3] == '_';
    assert a[4] == 'F' && a[5] == 'o' && a[6] == 'o' && a[7] == 'd';
  }

  /** `cAT` becomes `Cat`: the rest of a segment is lower-cased. */
  lemma {:induction false} NormalizeMixedCase(s: string)
    requires s == "cAT"
    ensures Normalize(s) == "Cat"
  {
    NormalizeByPosition(s);
    var a := CaseByPosition(s);
    assert a[0] == 'C' && a[1] == 'a' && a[2] == 't';
  }
}

=== FILE: lines.dfy ===
/**
 * The two splits the file reader performs before any validation:
 * `contents.splitlines()` into lines and `value.split()` into fields.
 */
module Lines {
  import opened Text

  /** ASCII characters Python's `str.splitlines` treats as line boundaries:
      `\n`, `\v`, `\f`, `\r` and the separators 0x1C-0x1E. */
  predicate IsLineBreak(c: char) {
    10 <= c as int <= 13 || 28 <= c as int <= 30
  }

  /** ASCII characters `str.split()` treats as whitespace: tab through
      carriage return, the separators 0x1C-0x1F and space. */
  predicate IsSpace(c: char) {
    9 <= c as int <= 13 || 28 <= c as int <= 32
  }

  predicate NoBreaks(s: string) { forall i | 0 <= i < |s| :: !IsLineBreak(s[i]) }

  predicate NoSpaces(s: string) { forall i | 0 <= i < |s| :: !IsSpace(s[i]) }

  /** Index of the first line boundary in `s`, or `|s|`. */
  function FirstBreak(s: string): (i: nat)
    ensures i <= |s| && NoBreaks(s[..i])
    ensures i < |s| ==> IsLineBreak(s[i])
  {
    if |s| == 0 || IsLineBreak(s[0]) then 0
    else
      var k := 1 + FirstBreak(s[1..]);
      assert s[..k] == [s[0]] + s[1..][..k - 1];
      k
  }

  /** `str.splitlines()`: lines without their terminators; `\r\n` is one
      terminator, and a final terminator does not open an empty line. */
  function SplitLines(s: string): (lines: seq<string>)
    ensures forall k | 0 <= k < |lines| :: NoBreaks(lines[k])
    decreases |s|
  {
    if |s| == 0 then []
    else
      var i := FirstBreak(s);
      if i == |s| then [s]
      else
        var next := if s[i] == '\r' && i + 1 < |s| && s[i + 1] == '\n' then i + 2 else i + 1;
        [s[..i]] + SplitLines(s[next..])
  }

  /** The text of `lines` with each line terminated by `\n`, as a file
      written line by line. */
  function Terminated(lines: seq<string>): string
  {
    if |lines| == 0 then "" else lines[0] + "\n" + Terminated(lines[1..])
  }

  /** `lines` separated (not terminated) by `\n`. */
  function JoinLines(lines: seq<string>): string
  {
    if |lines| == 0 then ""
    else if |lines| == 1 then lines[0]
    else lines[0] + "\n" + JoinLines(lines[1..])
  }

  lemma {:induction false} FirstBreakAt(a: string, b: string)
    requires NoBreaks(a) && |b| > 0 && IsLineBreak(b[0])
    ensures FirstBreak(a + b) == |a|
    decreases |a|
  {
    if |a| > 0 {
      FirstBreakAt(a[1..], b);
      assert (a + b)[1..] == a[1..] + b;
    }
  }

  lemma {:induction false} FirstBreakNone(a: string)
    requires NoBreaks(a)
    ensures FirstBreak(a) == |a|
    decreases |a|
  {
    if |a| > 0 {
      FirstBreakNone(a[1..]);
    }
  }

  /** Splitting a file whose lines are each terminated by `\n` gives the
      lines back. */
  lemma {:induction false} SplitTerminated(lines: seq<string>)
    requires forall k | 0 <= k < |lines| :: NoBreaks(lines[k])
    ensures SplitLines(Terminated(lines)) == lines
  {
    if |lines| > 0 {
      TailNoBreaks(lines);
      SplitTerminated(lines[1..]);
      SplitLinesAt(lines[0], Terminated(lines[1..]));
      assert [lines[0]] + lines[1..] == lines;
    }
  }

  /** A line without breaks, `\n`, and the rest: the line comes first. */
  lemma {:induction false} SplitLinesAt(line: string, rest: string)
    requires NoBreaks(line)
    ensures SplitLines(line + "\n" + rest) == [line] + SplitLines(rest)
  {
    var s := line + "\n" + rest;
    assert s == line + ("\n" + rest);
    FirstBreakAt(line, "\n" + rest);
    assert s[..|line|] == line;
    assert s[|line|] == '\n';
    assert s[|line| + 1..] == rest;
  }

  /** Splitting `\n`-separated lines gives them back, provided the last
      line is not empty (a trailing empty line has no text of its own). */
  lemma {:induction false} SplitJoined(lines: seq<string>)
    requires forall k | 0 <= k < |lines| :: NoBreaks(lines[k])
    requires |lines| > 0 ==> |lines[|lines| - 1]| > 0
    ensures SplitLines(JoinLines(lines)) == lines
  {
    if |lines| == 1 {
      SplitSingle(lines[0]);
    } else if |lines| > 1 {
      TailLines(lines);
      SplitJoined(lines[1..]);
      SplitJoinedFirst(lines);
      assert [lines[0]] + lines[1..] == lines;
    }
  }

  /** Line boundaries other than `\n` are absent. */
  predicate OnlyNewlines(s: string) {
    forall i | 0 <= i < |s| :: IsLineBreak(s[i]) ==> s[i] == '\n'
  }

  /** Joining the lines of a text with `\n` gives the text back, when its
      only line boundaries are `\n` and it does not end in one. */
  lemma {:induction false} SplitLinesSound(s: string)
    requires OnlyNewlines(s)
    requires |s| == 0 || s[|s| - 1] != '\n'
    ensures JoinLines(SplitLines(s)) == s
    decreases |s|
  {
    if |s| > 0 {
      var i := FirstBreak(s);
      if i == |s| {
        assert s[..|s|] == s;
        SplitSingle(s);
      } else {
        var line, rest := s[..i], s[i + 1..];
        NewlineSplit(s, i);
        SplitLinesAt(line, rest);
        SplitLinesSound(rest);
        JoinLinesCons(line, SplitLines(rest));
      }
    }
  }

  /** Around a line boundary, such a text is the text before it, `\n`, and
      a non-empty rest of the same kind. */
  lemma {:induction false} NewlineSplit(s: string, i: nat)
    requires OnlyNewlines(s) && |s| > 0 && s[|s| - 1] != '\n'
    requires i < |s| && IsLineBreak(s[i])
    ensures s == s[..i] + "\n" + s[i + 1..]
    ensures |s[i + 1..]| > 0 && s[i + 1..][|s[i + 1..]| - 1] != '\n'
    ensures OnlyNewlines(s[i + 1..])
  {
    var rest := s[i + 1..];
    assert s[i] == '\n';
    assert i != |s| - 1;
    assert rest[|rest| - 1] == s[|s| - 1];
    forall k | 0 <= k < |rest| && IsLineBreak(rest[k])
      ensures rest[k] == '\n'
    {
      assert rest[k] == s[i + 1 + k];
    }
  }

  lemma {:induction false} JoinLinesCons(line: string, lines: seq<string>)
    requires |lines| > 0
    ensures JoinLines([line] + lines) == line + "\n" + JoinLines(lines)
  {
    assert ([line] + lines)[1..] == lines;
  }

  /** The tail of several lines meets the requirements of the whole. */
  lemma {:induction false} TailLines(lines: seq<string>)
    requires forall k | 0 <= k < |lines| :: NoBreaks(lines[k])
    requires |lines| > 1 && |lines[|lines| - 1]| > 0
    ensures forall k | 0 <= k < |lines[1..]| :: NoBreaks(lines[1..][k])
    ensures |lines[1..][|lines[1..]| - 1]| > 0
  {
    TailNoBreaks(lines);
  }

  lemma {:induction false} TailNoBreaks(lines: seq<string>)
    requires forall k | 0 <= k < |lines| :: NoBreaks(lines[k])
    requires |lines| > 0
    ensures forall k | 0 <= k < |lines[1..]| :: NoBreaks(lines[1..][k])
  {
    assert forall k | 0 <= k < |lines[1..]| :: lines[1..][k] == lines[k + 1];
  }

  /** A non-empty text without breaks is one line. */
  lemma {:induction false} SplitSingle(line: string)
    requires NoBreaks(line) && |line| > 0
    ensures SplitLines(line) == [line]
  {
    FirstBreakNone(line);
  }

  /** The first of several joined lines is split off first. */
  lemma {:induction false} SplitJoinedFirst(lines: seq<string>)
    requires |lines| > 1 && NoBreaks(lines[0])
    ensures SplitLines(JoinLines(lines)) == [lines[0]] + SplitLines(JoinLines(lines[1..]))
  {
    var rest := JoinLines(lines[1..]);
    assert JoinLines(lines) == lines[0] + "\n" + rest;
    SplitLinesAt(lines[0], rest);
  }

  // ---------------------------------------------------------------- fields

  /** Length of the run of non-whitespace characters at the start of `s`. */
  function WordLength(s: string): (n: nat)
    ensures n <= |s| && NoSpaces(s[..n])
    ensures n < |s| ==> IsSpace(s[n])
  {
    if |s| == 0 || IsSpace(s[0]) then 0
    else
      var k := 1 + WordLength(s[1..]);
      assert s[..k] == [s[0]] + s[1..][..k - 1];
      k
  }

  /** `str.split()` with no argument: the maximal runs of non-whitespace
      characters, in order; every field is non-empty and space-free. */
  function Fields(s: string): (fields: seq<string>)
    ensures forall k | 0 <= k < |fields| :: |fields[k]| > 0 && NoSpaces(fields[k])
    decreases |s|
  {
    if |s| == 0 then []
    else if IsSpace(s[0]) then Fields(s[1..])
    else
      var n := WordLength(s);
      [s[..n]] + Fields(s[n..])
  }

  /** A line has no fields exactly when it is all whitespace. */
  lemma {:induction false} FieldsEmpty(s: string)
    ensures |Fields(s)| == 0 <==> forall i | 0 <= i < |s| :: IsSpace(s[i])
    decreases |s|
  {
    if |s| > 0 && IsSpace(s[0]) {
      FieldsEmpty(s[1..]);
      assert forall i | 1 <= i < |s| :: s[1..][i - 1] == s[i];
    }
  }

  /** A non-empty run of non-whitespace is one field. */
  lemma {:induction false} FieldsOfToken(s: string)
    requires |s| > 0 && NoSpaces(s)
    ensures Fields(s) == [s]
  {
    WordLengthAt(s, "");
    assert s + "" == s;
    assert s[..|s|] == s;
    assert s[|s|..] == "";
  }

  /** Splitting at any whitespace character: the fields of the text before
      it, then those of the text after it. With `FieldsEmpty` and
      `FieldsOfToken` this determines `Fields` on every text. */
  lemma {:induction false} FieldsAtSpace(a: string, c: char, b: string)
    requires IsSpace(c)
    ensures Fields(a + [c] + b) == Fields(a) + Fields(b)
    decreases |a|
  {
    var s := a + [c] + b;
    if |a| == 0 {
      assert s == [c] + b;
      FieldsSpaceFirst(c, b);
    } else if IsSpace(a[0]) {
      assert s[0] == a[0] && s[1..] == a[1..] + [c] + b;
      FieldsAtSpace(a[1..], c, b);
    } else {
      var m := WordLength(a);
      FirstWordKept(a, c, b);
      if m < |a| {
        FieldsAtSpace(a[m..], c, b);
      } else {
        assert a[m..] == [];
        FieldsSpaceFirst(c, b);
      }
    }
  }

  lemma {:induction false} FieldsSpaceFirst(c: char, b: string)
    requires IsSpace(c)
    ensures Fields([c] + b) == Fields(b)
  {
    assert ([c] + b)[1..] == b;
  }

  /** The first word of `a` is the first word of `a + [c] + b`. */
  lemma {:induction false} FirstWordKept(a: string, c: char, b: string)
    requires IsSpace(c) && |a| > 0 && !IsSpace(a[0])
    ensures var s, m := a + [c] + b, WordLength(a);
            && m > 0 && WordLength(s) == m && s[..m] == a[..m] && s[m..] == a[m..] + [c] + b
            && Fields(s) == [a[..m]] + Fields(a[m..] + [c] + b)
            && Fields(a) == [a[..m]] + Fields(a[m..])
  {
    var s, m := a + [c] + b, WordLength(a);
    WordLengthAt(a[..m], a[m..] + [c] + b);
    assert a[..m] + (a[m..] + [c] + b) == s;
    assert s[0] == a[0];
  }

  /** Fields separated by single spaces. */
  function JoinSpaced(fields: seq<string>): string
  {
    if |fields| == 0 then ""
    else if |fields| == 1 then fields[0]
    else fields[0] + " " + JoinSpaced(fields[1..])
  }

  lemma {:induction false} WordLengthAt(a: string, b: string)
    requires NoSpaces(a) && (|b| == 0 || IsSpace(b[0]))
    ensures WordLength(a + b) == |a|
    decreases |a|
  {
    if |a| > 0 {
      WordLengthAt(a[1..], b);
      assert (a + b)[1..] == a[1..] + b;
    }
  }

  /** Splitting space-separated fields gives them back: `Fields` inverts
      `JoinSpaced` on non-empty, space-free fields. */
  lemma {:induction false} FieldsOfJoined(fields: seq<string>)
    requires forall k | 0 <= k < |fields| :: |fields[k]| > 0 && NoSpaces(fields[k])
    ensures Fields(JoinSpaced(fields)) == fields
  {
    if |fields| == 1 {
      WordLengthAt(fields[0], "");
      assert fields[0][..|fields[0]|] == fields[0];
    } else if |fields| > 1 {
      var s := JoinSpaced(fields);
      var rest := JoinSpaced(fields[1..]);
      assert s == fields[0] + (" " + rest);
      WordLengthAt(fields[0], " " + rest);
      assert s[..|fields[0]|] == fields[0];
      assert s[|fields[0]|..] == " " + rest;
      assert (" " + rest)[1..] == rest;
      FieldsOfJoined(fields[1..]);
    }
  }
}

=== FILE: output.dfy ===
/**
 * The receipt as `display_entries` prints it and `write_receipt_output_file`
 * writes it: the formatted header line when the receipt has a date and a
 * time, one line per entry, and the summary line. Both functions build the
 * same lines, so they are modelled once; the output file is those lines
 * joined with `\n`, with no break after the last. Also the output-file
 * name check.
 */
module Output {
  import opened Wrappers
  import opened Text
  import opened Lines
  import opened Errors
  import opened Header
  import opened Quantities
  import opened ItemNames
  import opened Entries
  import opened Totals
  import opened Format
  import Prices
  import Rounding
  import Document

  // ---------------------------------------------------------------- lines

  /** `f"{receipt_number} {formatted_date} {formatted_time}"`, or `None`
      where formatting the date or time raises. */
  function HeaderText(h: Header): Option<string>
  {
    match FormatDateTime(h.date, h.time)
    case None => None
    case Some(dt) => Some(JoinSpaced([h.number, dt.0, dt.1]))
  }

  /** `f"{item_name} {quantity} P{unit_price:.2f} P{total_price:.2f}"` */
  function EntryText(p: PricedEntry): string
  {
    JoinSpaced([p.entry.name, p.entry.quantity, MoneyText(p.entry.unitPrice), MoneyText(p.totalPrice)])
  }

  /** `f"P{total_price:.2f} {total_of_items}_{item_string}"` */
  function TotalText(s: Summary): string
  {
    JoinSpaced([MoneyText(s.total), NatText(s.count) + "_" + ItemWord(s.count)])
  }

  /** `if receipt_obj.date and receipt_obj.time`: the header line is shown
      only when there is a header with a non-empty date and time. */
  predicate ShowsHeader(header: Option<Header>) {
    header.Some? && header.value.date != "" && header.value.time != ""
  }

  function HeadLines(header: Option<Header>): Option<seq<string>>
  {
    if !ShowsHeader(header) then Some([])
    else
      match HeaderText(header.value)
      case None => None
      case Some(t) => Some([t])
  }

  function EntryLines(lines: seq<PricedEntry>): (r: seq<string>)
    ensures |r| == |lines| && forall k | 0 <= k < |lines| :: r[k] == EntryText(lines[k])
  {
    seq(|lines|, k requires 0 <= k < |lines| => EntryText(lines[k]))
  }

  /** The printed or written lines; `None` where the source raises, while
      formatting the header or while counting the items. */
  function Render(header: Option<Header>, lines: seq<PricedEntry>): Option<seq<string>>
  {
    match (HeadLines(header), Summarize(lines))
    case (Some(head), Some(s)) => Some(head + EntryLines(lines) + [TotalText(s)])
    case _ => None
  }

  /** The text of the output file. */
  function OutputText(header: Option<Header>, lines: seq<PricedEntry>): Option<string>
  {
    match Render(header, lines)
    case None => None
    case Some(r) => Some(JoinLines(r))
  }

  // ---------------------------------------------------------------- shape

  /** The lines exist exactly when the header, if shown, can be formatted
      and the summary exists: `round_num` never fails and every quantity
      yields a count. */
  lemma {:induction false} RenderDefined(header: Option<Header>, lines: seq<PricedEntry>)
    ensures Render(header, lines).Some?
            <==> Summarize(lines).Some? && (ShowsHeader(header) ==> HeaderText(header.value).Some?)
  {
  }

  /** The lines are the header line (when shown), the entry lines in list
      order, and the summary line last. */
  lemma {:induction false} RenderShape(header: Option<Header>, lines: seq<PricedEntry>)
    requires Render(header, lines).Some?
    ensures HeadLines(header).Some? && Summarize(lines).Some?
    ensures HeadLines(header).value
            == if ShowsHeader(header) then [HeaderText(header.value).value] else []
    ensures Render(header, lines).value
            == HeadLines(header).value + EntryLines(lines) + [TotalText(Summarize(lines).value)]
  {
  }

  /** Where each line sits among the header lines, entry lines and summary. */
  lemma {:induction false} PartsShape(head: seq<string>, lines: seq<PricedEntry>, s: Summary)
    ensures var r := head + EntryLines(lines) + [TotalText(s)];
            && |r| == |head| + |lines| + 1
            && (forall k | 0 <= k < |head| :: r[k] == head[k])
            && (forall k | 0 <= k < |lines| :: r[|head| + k] == EntryText(lines[k]))
            && r[|r| - 1] == TotalText(s)
  {
  }

  // ---------------------------------------------------------------- visible text

  /** Printable ASCII other than the space. */
  predicate IsVisible(c: char) { '!' <= c <= '~' }

  predicate Visible(s: string) { forall i | 0 <= i < |s| :: IsVisible(s[i]) }

  /** A non-empty run of visible characters: one field of a line. */
  predicate IsToken(s: string) { |s| > 0 && Visible(s) }

  lemma {:induction false} VisibleConcat(a: string, b: string)
    requires Visible(a) && Visible(b)
    ensures Visible(a + b)
  {
    assert forall i | 0 <= i < |a + b| :: (a + b)[i] == if i < |a| then a[i] else b[i - |a|];
  }

  lemma {:induction false} DigitsVisible(s: string)
    requires AllDigits(s)
    ensures Visible(s)
  {
  }

  lemma {:induction false} MoneyTextToken(x: real)
    ensures IsToken(MoneyText(x))
  {
    var r := Rounding.RoundEven(x);
    var n := (Rounding.Abs(r) * 100.0).Floor;
    var w, c := NatText(n / 100), Pad(n % 100, 2);
    var sign := if x < 0.0 then "-" else "";
    DigitsVisible(w);
    DigitsVisible(c);
    VisibleConcat("P", sign);
    VisibleConcat("P" + sign, w);
    VisibleConcat("P" + sign + w, ".");
    VisibleConcat("P" + sign + w + ".", c);
  }

  lemma {:induction false} CountWordToken(n: nat)
    ensures IsToken(NatText(n) + "_" + ItemWord(n))
  {
    DigitsVisible(NatText(n));
    VisibleConcat(NatText(n), "_");
    VisibleConcat(NatText(n) + "_", ItemWord(n));
  }

  lemma {:induction false} DateToken(d: Date)
    ensures IsToken(FormatDate(d))
  {
    var y, m, dd := Pad(d.year, 4), Pad(d.month, 2), Pad(d.day, 2);
    DigitsVisible(y);
    DigitsVisible(m);
    DigitsVisible(dd);
    VisibleConcat(y, "/");
    VisibleConcat(y + "/", m);
    VisibleConcat(y + "/" + m, "/");
    VisibleConcat(y + "/" + m + "/", dd);
  }

  lemma {:induction false} ClockFaceToken(c: Clock)
    requires c.hour < 24
    ensures IsToken(ClockFace(c))
  {
    var h, m, s := Pad(Hour12(c.hour), 2), Pad(c.minute, 2), Pad(c.second, 2);
    DigitsVisible(h);
    DigitsVisible(m);
    DigitsVisible(s);
    VisibleConcat(h, ":");
    VisibleConcat(h + ":", m);
    VisibleConcat(h + ":" + m, ":");
    VisibleConcat(h + ":" + m + ":", s);
  }

  lemma {:induction false} MeridiemToken(hour: nat)
    ensures IsToken(Meridiem(hour))
  {
    var t := Meridiem(hour);
    assert t[0] == 'A' || t[0] == 'P';
    assert t[1] == 'M';
  }

  /** Fields of visible characters joined by single spaces make a
      non-empty line without a line break. */
  lemma {:induction false} JoinedLine(fields: seq<string>)
    requires |fields| > 0 && forall k | 0 <= k < |fields| :: IsToken(fields[k])
    ensures |JoinSpaced(fields)| > 0 && NoBreaks(JoinSpaced(fields))
  {
    if |fields| > 1 {
      JoinedLine(fields[1..]);
      var rest := JoinSpaced(fields[1..]);
      assert JoinSpaced(fields) == fields[0] + " " + rest;
      assert forall i | 0 <= i < |fields[0]| :: JoinSpaced(fields)[i] == fields[0][i];
      assert forall i | |fields[0]| < i < |JoinSpaced(fields)| :: JoinSpaced(fields)[i] == rest[i - |fields[0]| - 1];
    }
  }

  /** Stored names and quantities are tokens. */
  lemma {:induction false} ItemNameToken(s: string)
    requires IsItemName(s)
    ensures IsToken(s)
  {
  }

  lemma {:induction false} QuantityToken(s: string)
    requires IsQuantity(s)
    ensures IsToken(s)
  {
    ParseQuantitySound(s);
    QuantityTextToken(ParseQuantity(s).value);
  }

  /** A well-shaped quantity is written without spaces or control characters. */
  lemma {:induction false} QuantityTextToken(q: Quantity)
    requires IsWellShaped(q)
    ensures IsToken(QuantityText(q))
  {
    var w, f, o := q.whole, Quantities.FractionText(q.fraction), OptionalUnitText(q.unit);
    DigitsVisible(w);
    FractionVisible(q.fraction);
    OptionalUnitVisible(q.unit);
    VisibleConcat(w, f);
    VisibleConcat(w + f, o);
  }

  lemma {:induction false} FractionVisible(f: Option<Fraction>)
    requires f.Some? ==> AllDigits(f.value.digits)
    ensures Visible(Quantities.FractionText(f))
  {
    if f.Some? {
      var fr := f.value;
      DigitsVisible(fr.digits);
      UnitLetters(fr.unit);
      VisibleConcat(".", fr.digits);
      VisibleConcat("." + fr.digits, UnitText(fr.unit));
    }
  }

  lemma {:induction false} OptionalUnitVisible(u: Option<Unit>)
    ensures Visible(OptionalUnitText(u))
  {
    if u.Some? {
      UnitLetters(u.value);
    }
  }

  /** What the reader stores can be rendered: an accepted header's number
      and an accepted entry's name and quantity are tokens. */
  predicate Printable(header: Option<Header>, lines: seq<PricedEntry>) {
    && (header.Some? ==> IsToken(header.value.number))
    && forall k | 0 <= k < |lines| :: IsToken(lines[k].entry.name) && IsToken(lines[k].entry.quantity)
  }

  lemma {:induction false} AcceptedEntryPrintable(fields: seq<string>)
    requires |fields| == 3 && ReadEntry(fields).Ok?
    ensures IsToken(ReadEntry(fields).value.name) && IsToken(ReadEntry(fields).value.quantity)
  {
    ReadEntryOutcome(fields);
    ItemNames.NormalizeShape(fields[0]);
    ItemNameToken(ReadEntry(fields).value.name);
    QuantityToken(fields[1]);
  }

  lemma {:induction false} AcceptedHeaderPrintable(fields: seq<string>, now: Moment)
    requires |fields| == 3 && CheckHeader(fields, now).Ok?
    ensures IsToken(CheckHeader(fields, now).value.number)
  {
    AcceptedHeader(fields, now);
    ReceiptNumberToken(fields[0]);
  }

  lemma {:induction false} ReceiptNumberToken(s: string)
    requires IsReceiptNumber(s)
    ensures IsToken(s)
  {
    assert forall i | 0 <= i < |s| :: IsDigit(s[i]) || s[i] == '-';
  }

  // ---------------------------------------------------------------- fields

  lemma {:induction false} HeaderLine(h: Header)
    requires HeaderText(h).Some?
    ensures var d := ParseDate(h.date).value;
            var c := ParseClock(h.time).value;
            && IsValidClock(c)
            && HeaderText(h).value == JoinSpaced([h.number, FormatDate(d), ClockFace(c), Meridiem(c.hour)])
  {
    var d := ParseDate(h.date).value;
    var c := ParseClock(h.time).value;
    ParseClockSound(h.time);
    assert FormatDateTime(h.date, h.time).value == (FormatDate(d), FormatClock(c));
    JoinTime(h.number, FormatDate(d), ClockFace(c), Meridiem(c.hour));
  }

  /** A last field with a space in it reads as two fields. */
  lemma {:induction false} JoinTime(n: string, d: string, t: string, m: string)
    ensures JoinSpaced([n, d, t + " " + m]) == JoinSpaced([n, d, t, m])
  {
    assert [t, m][1..] == [m];
    assert JoinSpaced([t, m]) == t + " " + m;
    assert [d, t, m][1..] == [t, m];
    assert [n, d, t, m][1..] == [d, t, m];
    var l := t + " " + m;
    assert [d, l][1..] == [l];
    assert JoinSpaced([d, l]) == d + " " + l;
    assert [n, d, l][1..] == [d, l];
  }

  /** The header line splits into four fields, not three: the number, the
      year-first date, and the time whose `AM`/`PM` is a field of its own. */
  lemma {:induction false} HeaderFields(h: Header)
    requires IsToken(h.number) && HeaderText(h).Some?
    ensures var f := Fields(HeaderText(h).value);
            && |f| == 4 && f[0] == h.number
            && f[1] == FormatDateTime(h.date, h.time).value.0
            && f[2] + " " + f[3] == FormatDateTime(h.date, h.time).value.1
  {
    var d := ParseDate(h.date).value;
    var c := ParseClock(h.time).value;
    var parts := [h.number, FormatDate(d), ClockFace(c), Meridiem(c.hour)];
    HeaderLine(h);
    assert FormatDateTime(h.date, h.time).value == (FormatDate(d), FormatClock(c));
    DateToken(d);
    ClockFaceToken(c);
    MeridiemToken(c.hour);
    assert forall k | 0 <= k < 4 :: IsToken(parts[k]) by {
      assert parts[0] == h.number && parts[1] == FormatDate(d);
      assert parts[2] == ClockFace(c) && parts[3] == Meridiem(c.hour);
    }
    FieldsOfTokens(parts);
  }

  /** Tokens joined by single spaces split back into the same tokens. */
  lemma {:induction false} FieldsOfTokens(tokens: seq<string>)
    requires forall k | 0 <= k < |tokens| :: IsToken(tokens[k])
    ensures Fields(JoinSpaced(tokens)) == tokens
  {
    FieldsOfJoined(tokens);
  }

  /** An entry line splits into its four fields, and its unit price field
      reads back as the unit price rounded as the format rounds it. */
  lemma {:induction false} EntryFields(p: PricedEntry)
    requires IsToken(p.entry.name) && IsToken(p.entry.quantity)
    ensures Fields(EntryText(p))
            == [p.entry.name, p.entry.quantity, MoneyText(p.entry.unitPrice), MoneyText(p.totalPrice)]
    ensures p.entry.unitPrice >= 0.0 ==>
              Prices.ReadPrice(Fields(EntryText(p))[2]) == Ok(Rounding.RoundEven(p.entry.unitPrice))
  {
    MoneyTextToken(p.entry.unitPrice);
    MoneyTextToken(p.totalPrice);
    FieldsOfTokens([p.entry.name, p.entry.quantity, MoneyText(p.entry.unitPrice), MoneyText(p.totalPrice)]);
    if p.entry.unitPrice >= 0.0 {
      MoneyTextReadsBack(p.entry.unitPrice);
    }
  }

  /** The summary line splits into the amount and the `<count>_<word>` field. */
  lemma {:induction false} TotalFields(s: Summary)
    ensures Fields(TotalText(s)) == [MoneyText(s.total), NatText(s.count) + "_" + ItemWord(s.count)]
  {
    MoneyTextToken(s.total);
    CountWordToken(s.count);
    FieldsOfTokens([MoneyText(s.total), NatText(s.count) + "_" + ItemWord(s.count)]);
  }

  // ---------------------------------------------------------------- the file

  lemma {:induction false} HeaderLineNoBreaks(h: Header)
    requires IsToken(h.number) && HeaderText(h).Some?
    ensures NoBreaks(HeaderText(h).value)
  {
    var d := ParseDate(h.date).value;
    var c := ParseClock(h.time).value;
    HeaderLine(h);
    DateToken(d);
    ClockFaceToken(c);
    JoinedLine([h.number, FormatDate(d), ClockFace(c), Meridiem(c.hour)]);
  }

  lemma {:induction false} EntryLineNoBreaks(p: PricedEntry)
    requires IsToken(p.entry.name) && IsToken(p.entry.quantity)
    ensures NoBreaks(EntryText(p))
  {
    MoneyTextToken(p.entry.unitPrice);
    MoneyTextToken(p.totalPrice);
    JoinedLine([p.entry.name, p.entry.quantity, MoneyText(p.entry.unitPrice), MoneyText(p.totalPrice)]);
  }

  lemma {:induction false} TotalLineNoBreaks(s: Summary)
    ensures NoBreaks(TotalText(s)) && |TotalText(s)| > 0
  {
    MoneyTextToken(s.total);
    CountWordToken(s.count);
    JoinedLine([MoneyText(s.total), NatText(s.count) + "_" + ItemWord(s.count)]);
  }

  lemma {:induction false} PartsAreLines(head: seq<string>, lines: seq<PricedEntry>, s: Summary)
    requires forall k | 0 <= k < |head| :: NoBreaks(head[k])
    requires forall k | 0 <= k < |lines| :: IsToken(lines[k].entry.name) && IsToken(lines[k].entry.quantity)
    ensures var r := head + EntryLines(lines) + [TotalText(s)];
            && (forall k | 0 <= k < |r| :: NoBreaks(r[k]))
            && |r[|r| - 1]| > 0
  {
    var e := EntryLines(lines);
    var r := head + e + [TotalText(s)];
    forall k | 0 <= k < |lines|
      ensures NoBreaks(e[k])
    {
      EntryLineNoBreaks(lines[k]);
    }
    TotalLineNoBreaks(s);
    assert forall k | 0 <= k < |r| :: r[k] == if k < |head| then head[k] else if k < |head| + |e| then e[k - |head|] else TotalText(s);
  }

  lemma {:induction false} RenderedLinesAreLines(header: Option<Header>, lines: seq<PricedEntry>)
    requires Printable(header, lines) && Render(header, lines).Some?
    ensures var r := Render(header, lines).value;
            && (forall k | 0 <= k < |r| :: NoBreaks(r[k]))
            && |r[|r| - 1]| > 0
  {
    RenderShape(header, lines);
    var head := HeadLines(header).value;
    var s := Summarize(lines).value;
    if ShowsHeader(header) {
      HeaderLineNoBreaks(header.value);
    }
    PartsAreLines(head, lines, s);
  }

  /** The output file holds exactly the rendered lines: splitting its text
      at line breaks gives them back. */
  lemma {:induction false} OutputReadsBack(header: Option<Header>, lines: seq<PricedEntry>)
    requires Printable(header, lines) && OutputText(header, lines).Some?
    ensures SplitLines(OutputText(header, lines).value) == Render(header, lines).value
  {
    RenderedLinesAreLines(header, lines);
    SplitJoined(Render(header, lines).value);
  }

  /** The output file is not an input file: its first line has four fields
      (the header or the first entry) or two (a bare summary), so reading it
      back fails at line 1 on the field count. */
  lemma {:induction false} OutputIsNotInput(header: Option<Header>, lines: seq<PricedEntry>, now: Moment)
    requires Printable(header, lines) && OutputText(header, lines).Some?
    ensures var r := Document.ReadDocument(OutputText(header, lines).value, now);
            r.Err? && r.error.line == 1
            && (r.error.kind == TooManyFields || r.error.kind == MissingFields)
  {
    var text, r := OutputText(header, lines).value, Render(header, lines).value;
    OutputReadsBack(header, lines);
    assert Document.ReadDocument(text, now) == Document.ReadLines(r, now);
    FirstLineFields(header, lines);
    var k := Document.CheckLineLength(0, Fields(r[0])).value;
    assert k == TooManyFields || k == MissingFields;
    Document.FieldCountAborts(r, 0, now);
  }

  /** The first rendered line has four fields or two. */
  lemma {:induction false} FirstLineFields(header: Option<Header>, lines: seq<PricedEntry>)
    requires Printable(header, lines) && Render(header, lines).Some?
    ensures var r := Render(header, lines).value;
            |r| > 0 && (|Fields(r[0])| == 4 || |Fields(r[0])| == 2)
  {
    RenderShape(header, lines);
    var head, s := HeadLines(header).value, Summarize(lines).value;
    var r := Render(header, lines).value;
    PartsShape(head, lines, s);
    if ShowsHeader(header) {
      assert r[0] == HeaderText(header.value).value;
      HeaderFields(header.value);
    } else if |lines| > 0 {
      assert r[0] == EntryText(lines[0]);
      EntryFields(lines[0]);
    } else {
      assert r[0] == TotalText(s);
      TotalFields(s);
    }
  }

  /** The end-to-end receipt: `Apple 2` at P10.00 (total P20.00) and
      `Rice_5kg 1kg` at P50.00. */
  function ExampleLines(): seq<PricedEntry>
  {
    [PricedEntry(Entry("Apple", "2", 10.0), 20.0), PricedEntry(Entry("Rice_5kg", "1kg", 50.0), 50.0)]
  }

  /** The example counts 2 + 1 items and totals P70.00. */
  lemma {:induction false} ReceiptExample()
    ensures Summarize(ExampleLines()) == Some(Summary(70.0, 3))
    ensures TotalText(Summary(70.0, 3)) == "P70.00 3_items"
  {
    ExampleColumns();
    ExampleCount();
    ExampleTotal();
    SummaryOf(ExampleLines(), 3, 70.0);
    ExampleTotalText();
  }

  lemma {:induction false} ExampleColumns()
    ensures QuantitiesOf(ExampleLines()) == ["2", "1kg"]
    ensures Amounts(ExampleLines()) == [20.0, 50.0]
  {
  }

  lemma {:induction false} SummaryOf(lines: seq<PricedEntry>, n: nat, t: real)
    requires ItemTotal(QuantitiesOf(lines)) == Some(n) && RunningTotal(Amounts(lines)) == Some(t)
    ensures Summarize(lines) == Some(Summary(t, n))
  {
  }

  lemma {:induction false} ExampleTotalText()
    ensures TotalText(Summary(70.0, 3)) == "P70.00 3_items"
  {
    MoneyTextExamples();
    assert NatText(3) == "3";
    assert NatText(3) + "_" + ItemWord(3) == "3_items";
    assert ["P70.00", "3_items"][1..] == ["3_items"];
    assert JoinSpaced(["P70.00", "3_items"]) == "P70.00" + " " + "3_items";
  }

  lemma {:induction false} ExampleCount()
    ensures ItemTotal(["2", "1kg"]) == Some(3)
  {
    TwoCount();
    OneKiloCount();
    PairCount("2", "1kg", 2, 1);
  }

  lemma {:induction false} PairCount(a: string, b: string, m: nat, n: nat)
    requires ItemCount(a) == Some(m) && ItemCount(b) == Some(n)
    ensures ItemTotal([a, b]) == Some(m + n)
  {
    var cs := Counts([a, b]);
    assert cs[0] == Some(m) && cs[1] == Some(n);
    var c1 := cs[..1];
    assert |c1[..0]| == 0;
    assert AddCounts(c1[..0]) == Some(0);
    assert c1[0] == Some(m);
    assert AddCounts(c1) == Some(m);
    assert cs[..|cs| - 1] == c1;
  }

  lemma {:induction false} TwoCount()
    ensures ItemCount("2") == Some(2)
  {
    CountPlain("2");
    assert "2"[..0] == "";
  }

  lemma {:induction false} OneKiloCount()
    ensures ItemCount("1kg") == Some(1)
  {
    CountWithUnit("1", Kilogram);
    assert "1" + UnitText(Kilogram) == "1kg";
  }

  lemma {:induction false} ExampleTotal()
    ensures RunningTotal([20.0, 50.0]) == Some(70.0)
  {
    var a := [20.0, 50.0];
    assert a[..1] == [20.0];
    assert [20.0][..0] == [];
    Rounding.RoundCents(20.0);
    Rounding.RoundCents(70.0);
    Rounding.RoundNumDefined(0.0 + 20.0);
    Rounding.RoundNumDefined(20.0 + 50.0);
    assert RunningTotal([20.0]) == Some(20.0);
  }

  // ---------------------------------------------------------------- output file name

  /** `^[\w\-. ]+$`: word characters, `-`, `.` and space, at least one. */
  predicate IsOutputName(s: string) {
    && |s| > 0
    && forall i | 0 <= i < |s| :: IsWordChar(s[i]) || s[i] == '-' || s[i] == '.' || s[i] == ' '
  }

  /** The checks on a name the user typed: the pattern, then whether a file
      of that name already exists. */
  function OutputTarget(name: string, existing: set<string>): (r: Result<string, ErrorKind>)
    ensures r.Ok? ==> r.value == name
  {
    if !IsOutputName(name) then Err(IllegalFilename)
    else if name in existing then Err(FileAlreadyExists)
    else Ok(name)
  }

  /** The characters the error message names, `\ / : * ? " < > |`, are all
      refused, wherever they occur in the name. */
  lemma {:induction false} IllegalCharacters(name: string, i: nat, existing: set<string>)
    requires i < |name| && name[i] in "\\/:*?\"<>|"
    ensures OutputTarget(name, existing) == Err(IllegalFilename)
  {
  }

  /** The pattern refuses more than the message lists: `a@b.txt` holds none
      of `\ / : * ? " < > |` and is still refused, as is the empty name,
      while `receipt.txt` is taken when no such file exists. */
  lemma {:induction false} OutputNameExamples(existing: set<string>)
    ensures forall i | 0 <= i < |"a@b.txt"| :: "a@b.txt"[i] !in "\\/:*?\"<>|"
    ensures OutputTarget("a@b.txt", existing) == Err(IllegalFilename)
    ensures OutputTarget("", existing) == Err(IllegalFilename)
    ensures "receipt.txt" !in existing ==> OutputTarget("receipt.txt", existing) == Ok("receipt.txt")
  {
    assert "a@b.txt"[1] == '@';
  }

  /** A name is taken exactly when it fits the pattern and names no
      existing file; a name that fits but exists is reported as such. */
  lemma {:induction false} OutputTargetOutcome(name: string, existing: set<string>)
    ensures OutputTarget(name, existing).Ok? <==> IsOutputName(name) && name !in existing
    ensures OutputTarget(name, existing) == Err(FileAlreadyExists) <==> IsOutputName(name) && name in existing
  {
  }

  /** The prompt loop of `write_receipt_output_file` over the names the
      user types in turn: the position of the first one taken, or `None`
      when every one is refused. */
  method ChooseOutput(attempts: seq<string>, existing: set<string>) returns (r: Option<nat>)
    ensures r.Some? ==> && r.value < |attempts|
                        && OutputTarget(attempts[r.value], existing).Ok?
                        && forall j | 0 <= j < r.value :: OutputTarget(attempts[j], existing).Err?
    ensures r.None? ==> forall j | 0 <= j < |attempts| :: OutputTarget(attempts[j], existing).Err?
  {
    var i := 0;
    while i < |attempts|
      invariant i <= |attempts|
      invariant forall j | 0 <= j < i :: OutputTarget(attempts[j], existing).Err?
    {
      if OutputTarget(attempts[i], existing).Ok? {
        return Some(i);
      }
      i := i + 1;
    }
    r := None;
  }
}

=== FILE: prices.dfy ===
/**
 * Unit prices: the pattern `^P(?:\d+)?(?:\.\d+)?$` and the number the
 * reader takes from what follows the `P` (`float(price[1:])`), held here as
 * an exact decimal.
 */
module Prices {
  import opened Wrappers
  import opened Text
  import opened Errors

  /** The groups of the price pattern: an integer part (possibly empty) and
      an optional decimal part of at least one digit. */
  datatype PriceText = PriceText(whole: string, fraction: Option<string>)

  predicate IsWellShaped(p: PriceText) {
    && AllDigits(p.whole)
    && (p.fraction.Some? ==> |p.fraction.value| > 0 && AllDigits(p.fraction.value))
  }

  function FractionText(f: Option<string>): string
  {
    match f
    case None => ""
    case Some(d) => "." + d
  }

  /** The field that spells `p`. */
  function Spell(p: PriceText): string
  {
    "P" + p.whole + FractionText(p.fraction)
  }

  /** The price pattern. The integer part is the whole leading digit run:
      a digit can neither start `\.\d+` nor end the field. */
  function MatchPrice(s: string): Option<PriceText>
  {
    if |s| == 0 || s[0] != 'P' then None
    else
      var t := s[1..];
      var n := DigitRun(t);
      var rest := t[n..];
      if |rest| == 0 then Some(PriceText(t[..n], None))
      else if rest[0] == '.' && |rest| > 1 && AllDigits(rest[1..]) then
        Some(PriceText(t[..n], Some(rest[1..])))
      else None
  }

  predicate IsPriceText(s: string) { MatchPrice(s).Some? }

  /** The exact number the digits denote; an empty integer part reads as 0
      (`float(".5")` is 0.5). */
  function Amount(p: PriceText): real
    requires IsWellShaped(p)
  {
    DigitsValue(p.whole) as real
      + match p.fraction
        case None => 0.0
        case Some(d) => DigitsValue(d) as real / Pow10(|d|) as real
  }

  /** The reader's handling of the price field: the pattern check of the
      entry validation, then `float` of the text after `P`. A bare `P`
      passes the pattern but leaves `float('')` nothing to read. */
  function ReadPrice(s: string): (r: Result<real, ErrorKind>)
    ensures r.Ok? ==> r.value >= 0.0
  {
    match MatchPrice(s)
    case None => Err(InvalidUnitPrice)
    case Some(p) =>
      if p.whole == "" && p.fraction.None? then Err(UnreadablePrice)
      else
        MatchPriceSound(s);
        Ok(Amount(p))
  }

  // ---------------------------------------------------------------- round trip

  /** Every matched field is the spelling of a well-shaped price. */
  lemma {:induction false} MatchPriceSound(s: string)
    requires MatchPrice(s).Some?
    ensures IsWellShaped(MatchPrice(s).value) && Spell(MatchPrice(s).value) == s
  {
    var t := s[1..];
    var n := DigitRun(t);
    DigitRunSpec(t);
    var rest := t[n..];
    assert s == "P" + t[..n] + rest;
    if |rest| > 0 {
      assert rest == "." + rest[1..];
    }
  }

  /** Every well-shaped price is matched and read back from its spelling. */
  lemma {:induction false} MatchPriceComplete(p: PriceText)
    requires IsWellShaped(p)
    ensures MatchPrice(Spell(p)) == Some(p)
  {
    var s := Spell(p);
    var f := FractionText(p.fraction);
    var t := p.whole + f;
    assert s[1..] == t;
    DigitRunAt(p.whole, f);
    assert t[..|p.whole|] == p.whole;
    assert t[|p.whole|..] == f;
    if p.fraction.Some? {
      assert f[1..] == p.fraction.value;
    }
  }

  /** The price pattern accepts exactly the spellings of well-shaped prices. */
  lemma {:induction false} PriceLanguage(s: string)
    ensures IsPriceText(s) <==> exists p :: IsWellShaped(p) && Spell(p) == s
  {
    if IsPriceText(s) {
      MatchPriceSound(s);
    }
    if exists p :: IsWellShaped(p) && Spell(p) == s {
      var p :| IsWellShaped(p) && Spell(p) == s;
      MatchPriceComplete(p);
    }
  }

  /** Reading a price: a bare `P` is the only matched field that cannot be
      read, and every other matched field reads as the amount it spells. */
  lemma {:induction false} ReadPriceOutcome(s: string)
    ensures ReadPrice(s) == Err(InvalidUnitPrice) <==> !IsPriceText(s)
    ensures ReadPrice(s) == Err(UnreadablePrice) <==> s == "P"
    ensures IsPriceText(s) ==> IsWellShaped(MatchPrice(s).value)
    ensures ReadPrice(s).Ok? ==> ReadPrice(s) == Ok(Amount(MatchPrice(s).value))
  {
    if s == "P" {
      assert s[1..] == "";
    }
    if IsPriceText(s) {
      MatchPriceSound(s);
    }
  }

  /** Amounts written with two decimals read back exactly as cents:
      `P250.46` is 25046 cents. */
  lemma {:induction false} ReadCents(whole: nat, cents: nat)
    requires cents < 100
    ensures ReadPrice("P" + NatText(whole) + "." + Pad(cents, 2))
            == Ok(whole as real + cents as real / 100.0)
  {
    var w, c := NatText(whole), Pad(cents, 2);
    var p := PriceText(w, Some(c));
    NatTextValue(whole);
    assert Pow10(2) == 100;
    PadValue(cents, 2);
    MatchPriceComplete(p);
    assert Spell(p) == "P" + w + "." + c;
    assert Amount(p) == whole as real + cents as real / 100.0;
  }
}

=== FILE: quantities.dfy ===
/**
 * Quantities: the entry pattern
 *   `^(?!0+(?:\.0+)?(?:g|kg|mL|L)?$)([1-9]\d*|0)(\.\d+(g|kg|mL|L))?(g|kg|mL|L)?$`
 * and the item-count rule of `add_entry_quantity`, which counts a quantity
 * matching `^(?:0*[1-9][0-9]*)?(?:\.\d*|0+\.\d+)?(?:g|mL|L|kg)$` as one item
 * and any other quantity as its integer value.
 */
module Quantities {
  import opened Wrappers
  import opened Text

  datatype Unit = Gram | Kilogram | Millilitre | Litre

  function UnitText(u: Unit): string
  {
    match u
    case Gram => "g"
    case Kilogram => "kg"
    case Millilitre => "mL"
    case Litre => "L"
  }

  /** The unit whose text is exactly `s`. */
  function UnitOf(s: string): (r: Option<Unit>)
    ensures r.Some? ==> UnitText(r.value) == s
  {
    if |s| == 1 && s[0] == 'g' then Some(Gram)
    else if |s| == 2 && s[0] == 'k' && s[1] == 'g' then Some(Kilogram)
    else if |s| == 2 && s[0] == 'm' && s[1] == 'L' then Some(Millilitre)
    else if |s| == 1 && s[0] == 'L' then Some(Litre)
    else None
  }

  /** The unit whose text starts `s`; the four units begin with different
      letters, so at most one does. */
  function UnitPrefix(s: string): (r: Option<Unit>)
    ensures r.Some? ==> |UnitText(r.value)| <= |s| && s[..|UnitText(r.value)|] == UnitText(r.value)
  {
    if |s| >= 1 && s[0] == 'g' then Some(Gram)
    else if |s| >= 2 && s[0] == 'k' && s[1] == 'g' then Some(Kilogram)
    else if |s| >= 2 && s[0] == 'm' && s[1] == 'L' then Some(Millilitre)
    else if |s| >= 1 && s[0] == 'L' then Some(Litre)
    else None
  }

  lemma {:induction false} UnitOfText(u: Unit)
    ensures UnitOf(UnitText(u)) == Some(u)
  {
  }

  lemma {:induction false} UnitPrefixOf(u: Unit, t: string)
    ensures UnitPrefix(UnitText(u) + t) == Some(u)
  {
    var s := UnitText(u) + t;
    assert s[0] == UnitText(u)[0];
    if |UnitText(u)| == 2 {
      assert s[1] == UnitText(u)[1];
    }
  }

  /** Every unit ends in `g` or `L`; only `kg` and `mL` are two letters long. */
  lemma {:induction false} UnitLetters(u: Unit)
    ensures 1 <= |UnitText(u)| <= 2
    ensures var t := UnitText(u); t[|t| - 1] == 'g' || t[|t| - 1] == 'L'
    ensures var t := UnitText(u); |t| == 2 ==> t[0] == 'k' || t[0] == 'm'
    ensures var t := UnitText(u); forall k | 0 <= k < |t| :: IsLetter(t[k])
  {
  }

  // ---------------------------------------------------------------- shape

  /** The groups of `([1-9]\d*|0)(\.\d+(g|kg|mL|L))?(g|kg|mL|L)?`: the whole
      part, an optional decimal part that carries its own unit, and an
      optional trailing unit. */
  datatype Fraction = Fraction(digits: string, unit: Unit)
  datatype Quantity = Quantity(whole: string, fraction: Option<Fraction>, unit: Option<Unit>)

  function FractionText(f: Option<Fraction>): string
  {
    match f
    case None => ""
    case Some(fr) => "." + fr.digits + UnitText(fr.unit)
  }

  function OptionalUnitText(u: Option<Unit>): string
  {
    match u
    case None => ""
    case Some(v) => UnitText(v)
  }

  function QuantityText(q: Quantity): string
  {
    q.whole + FractionText(q.fraction) + OptionalUnitText(q.unit)
  }

  /** `[1-9]\d*|0` */
  predicate IsWhole(s: string) {
    s == "0" || (|s| > 0 && '1' <= s[0] <= '9' && AllDigits(s))
  }

  predicate IsWellShaped(q: Quantity) {
    && IsWhole(q.whole)
    && (q.fraction.Some? ==> |q.fraction.value.digits| > 0 && AllDigits(q.fraction.value.digits))
  }

  /** How many unit texts the quantity carries: none, one, or two when the
      decimal part's unit is followed by another. */
  function UnitCount(q: Quantity): nat
  {
    (if q.fraction.Some? then 1 else 0) + (if q.unit.Some? then 1 else 0)
  }

  /** The shapes the negative lookahead `0+(\.0+)?(g|kg|mL|L)?$` catches. */
  predicate IsZeroShape(q: Quantity) {
    && q.whole == "0"
    && (q.fraction.None? || (q.unit.None? && AllChar(q.fraction.value.digits, '0')))
  }

  // ---------------------------------------------------------------- scanning

  /** Length of the run of `0` at the start of `s`. */
  function ZeroRun(s: string): (n: nat)
    ensures n <= |s|
  {
    if |s| == 0 || s[0] != '0' then 0 else 1 + ZeroRun(s[1..])
  }

  lemma {:induction false} ZeroRunSpec(s: string)
    ensures AllChar(s[..ZeroRun(s)], '0')
    ensures ZeroRun(s) < |s| ==> s[ZeroRun(s)] != '0'
    decreases |s|
  {
    if |s| > 0 && s[0] == '0' {
      ZeroRunSpec(s[1..]);
      var k := ZeroRun(s);
      assert s[..k] == [s[0]] + s[1..][..k - 1];
    }
  }

  /** The negative lookahead `0+(\.0+)?(g|kg|mL|L)?$`: a run of zeros, an
      optional `.` with a run of zeros, and at most one unit. Each run is
      followed by a character it cannot contain, so reading it greedily is
      the only way to match. */
  predicate IsZeroAmount(s: string) {
    var z := ZeroRun(s);
    z > 0 && IsZeroRest(s[z..])
  }

  /** `(\.0+)?(g|kg|mL|L)?$` */
  predicate IsZeroRest(rest: string) {
    || IsUnitOrEmpty(rest)
    || (|rest| > 0 && rest[0] == '.' && IsZeroDecimal(rest[1..]))
  }

  /** `0+(g|kg|mL|L)?$` after the `.` */
  predicate IsZeroDecimal(r: string) {
    var z := ZeroRun(r);
    z > 0 && IsUnitOrEmpty(r[z..])
  }

  predicate IsUnitOrEmpty(s: string) {
    |s| == 0 || UnitOf(s).Some?
  }

  /** What follows the whole part: nothing, a unit, or `.` and a decimal
      part. What it accepts is the text of the parts it returns. */
  function ParseTail(t: string): (r: Option<(Option<Fraction>, Option<Unit>)>)
    ensures r.Some? ==> FractionText(r.value.0) + OptionalUnitText(r.value.1) == t
    ensures r.Some? && r.value.0.Some? ==> |r.value.0.value.digits| > 0 && AllDigits(r.value.0.value.digits)
  {
    if |t| == 0 then Some((None, None))
    else if t[0] == '.' then
      if ParseDecimal(t[1..]).Some? then
        DecimalTailSound(t[1..]);
        assert t == "." + t[1..];
        ParseDecimal(t[1..])
      else None
    else
      match UnitOf(t)
      case None => None
      case Some(u) => Some((None, Some(u)))
  }

  /** After the `.`: a digit run, the decimal part's unit, and possibly a
      second unit. */
  function ParseDecimal(t: string): Option<(Option<Fraction>, Option<Unit>)>
  {
    var m := DigitRun(t);
    if m == 0 then None else ParseUnits(t[..m], t[m..])
  }

  function ParseUnits(digits: string, t: string): Option<(Option<Fraction>, Option<Unit>)>
  {
    match UnitPrefix(t)
    case None => None
    case Some(u1) =>
      var rest := t[|UnitText(u1)|..];
      var f := Fraction(digits, u1);
      if |rest| == 0 then Some((Some(f), None))
      else
        match UnitOf(rest)
        case None => None
        case Some(u2) => Some((Some(f), Some(u2)))
  }

  /** The quantity pattern: the lookahead first, then the groups. The whole
      part is the full leading digit run, since a digit can follow neither
      `0` nor `[1-9]\d*` in the pattern. */
  function ParseQuantity(s: string): Option<Quantity>
  {
    if IsZeroAmount(s) then None else ParseShape(s)
  }

  /** The groups of the quantity pattern, without the lookahead. What it
      accepts is the text of the well-shaped quantity it returns. */
  function ParseShape(s: string): (r: Option<Quantity>)
    ensures r.Some? ==> QuantityText(r.value) == s && IsWellShaped(r.value)
  {
    var n := DigitRun(s);
    if !IsWhole(s[..n]) then None
    else
      match ParseTail(s[n..])
      case None => None
      case Some(p) =>
        AssembleSound(s, n, p.0, p.1);
        Some(Quantity(s[..n], p.0, p.1))
  }

  predicate IsQuantity(s: string) { ParseQuantity(s).Some? }

  // ---------------------------------------------------------------- round trip

  lemma {:induction false} ParseUnitsSound(digits: string, t: string)
    requires ParseUnits(digits, t).Some?
    ensures var p := ParseUnits(digits, t).value;
            && p.0 == Some(Fraction(digits, p.0.value.unit))
            && UnitText(p.0.value.unit) + OptionalUnitText(p.1) == t
  {
    var u1 := UnitPrefix(t).value;
    assert t == UnitText(u1) + t[|UnitText(u1)|..];
  }

  lemma {:induction false} ParseDecimalSound(r: string)
    requires ParseDecimal(r).Some?
    ensures var p := ParseDecimal(r).value;
            && p.0.Some? && |p.0.value.digits| > 0 && AllDigits(p.0.value.digits)
            && p.0.value.digits + (UnitText(p.0.value.unit) + OptionalUnitText(p.1)) == r
  {
    var m := DigitRun(r);
    var d, t := r[..m], r[m..];
    assert m > 0 && ParseDecimal(r) == ParseUnits(d, t);
    DigitRunSpec(r);
    ParseUnitsSound(d, t);
    var p := ParseUnits(d, t).value;
    assert p.0.value.digits + (UnitText(p.0.value.unit) + OptionalUnitText(p.1)) == d + t;
    assert d + t == r;
  }

  lemma {:induction false} DecimalTailSound(r: string)
    requires ParseDecimal(r).Some?
    ensures var p := ParseDecimal(r).value;
            && FractionText(p.0) + OptionalUnitText(p.1) == "." + r
            && p.0.Some? && |p.0.value.digits| > 0 && AllDigits(p.0.value.digits)
  {
    ParseDecimalSound(r);
    var p := ParseDecimal(r).value;
    DecimalText(p.0.value, p.1);
  }

  lemma {:induction false} DecimalText(f: Fraction, u: Option<Unit>)
    ensures FractionText(Some(f)) + OptionalUnitText(u) == "." + (f.digits + (UnitText(f.unit) + OptionalUnitText(u)))
  {
    var d, a, o := f.digits, UnitText(f.unit), OptionalUnitText(u);
    assert "." + d + a + o == "." + (d + (a + o));
  }

  /** Every accepted quantity is the text of a well-shaped quantity. */
  lemma {:induction false} ParseQuantitySound(s: string)
    requires ParseQuantity(s).Some?
    ensures var q := ParseQuantity(s).value;
            QuantityText(q) == s && IsWellShaped(q) && !IsZeroAmount(s)
  {
  }

  /** A whole part followed by the text of a decimal part and a unit is
      the text of the quantity made of them. */
  lemma {:induction false} AssembleSound(s: string, n: nat, f: Option<Fraction>, u: Option<Unit>)
    requires n <= |s| && IsWhole(s[..n]) && FractionText(f) + OptionalUnitText(u) == s[n..]
    requires f.Some? ==> |f.value.digits| > 0 && AllDigits(f.value.digits)
    ensures QuantityText(Quantity(s[..n], f, u)) == s
    ensures IsWellShaped(Quantity(s[..n], f, u))
  {
    var w, a, b := s[..n], FractionText(f), OptionalUnitText(u);
    assert w + a + b == w + (a + b);
    assert w + s[n..] == s;
  }

  lemma {:induction false} ParseUnitsComplete(digits: string, u1: Unit, u: Option<Unit>)
    ensures ParseUnits(digits, UnitText(u1) + OptionalUnitText(u)) == Some((Some(Fraction(digits, u1)), u))
  {
    var t := UnitText(u1) + OptionalUnitText(u);
    UnitPrefixOf(u1, OptionalUnitText(u));
    assert t[|UnitText(u1)|..] == OptionalUnitText(u);
    if u.Some? {
      UnitOfText(u.value);
    }
  }

  lemma {:induction false} ParseTailComplete(f: Option<Fraction>, u: Option<Unit>)
    requires f.Some? ==> |f.value.digits| > 0 && AllDigits(f.value.digits)
    ensures ParseTail(FractionText(f) + OptionalUnitText(u)) == Some((f, u))
  {
    if f.Some? {
      var d, u1 := f.value.digits, f.value.unit;
      var after := UnitText(u1) + OptionalUnitText(u);
      assert FractionText(f) + OptionalUnitText(u) == "." + (d + after);
      ParseTailDot(d + after);
      DecimalTailComplete(d, u1, u);
    } else if u.Some? {
      ParseTailUnit(u.value);
    }
  }

  /** After a `.`, the tail is read as a decimal part. */
  lemma {:induction false} ParseTailDot(r: string)
    ensures ParseTail("." + r) == ParseDecimal(r)
  {
    assert ("." + r)[1..] == r;
  }

  /** A tail that is only a unit is read as that unit. */
  lemma {:induction false} ParseTailUnit(u: Unit)
    ensures ParseTail(UnitText(u)) == Some((None, Some(u)))
  {
    UnitOfText(u);
    UnitLetters(u);
  }

  lemma {:induction false} DecimalTailComplete(d: string, u1: Unit, u: Option<Unit>)
    requires |d| > 0 && AllDigits(d)
    ensures ParseDecimal(d + (UnitText(u1) + OptionalUnitText(u))) == Some((Some(Fraction(d, u1)), u))
  {
    var after := UnitText(u1) + OptionalUnitText(u);
    var r := d + after;
    UnitLetters(u1);
    assert after[0] == UnitText(u1)[0];
    DigitRunAt(d, after);
    assert r[..|d|] == d;
    assert r[|d|..] == after;
    ParseUnitsComplete(d, u1, u);
  }

  /** Every well-shaped quantity the lookahead does not catch is accepted
      and read back. */
  lemma {:induction false} ParseQuantityComplete(q: Quantity)
    requires IsWellShaped(q) && !IsZeroAmount(QuantityText(q))
    ensures ParseQuantity(QuantityText(q)) == Some(q)
  {
    ParseShapeComplete(q);
  }

  lemma {:induction false} ParseShapeComplete(q: Quantity)
    requires IsWellShaped(q)
    ensures ParseShape(QuantityText(q)) == Some(q)
  {
    var s := QuantityText(q);
    var tail := FractionText(q.fraction) + OptionalUnitText(q.unit);
    assert s == q.whole + tail;
    TailStart(q.fraction, q.unit);
    DigitRunAt(q.whole, tail);
    assert s[..|q.whole|] == q.whole;
    assert s[|q.whole|..] == tail;
    ParseTailComplete(q.fraction, q.unit);
  }

  /** A tail never starts with a digit. */
  lemma {:induction false} TailStart(f: Option<Fraction>, u: Option<Unit>)
    ensures var t := FractionText(f) + OptionalUnitText(u);
            |t| == 0 || t[0] == '.' || IsLetter(t[0])
  {
    if u.Some? {
      UnitLetters(u.value);
    }
  }

  lemma {:induction false} ZeroRunAt(a: string, b: string)
    requires AllChar(a, '0') && (|b| == 0 || b[0] != '0')
    ensures ZeroRun(a + b) == |a|
    decreases |a|
  {
    var s := a + b;
    if |a| == 0 {
      assert s == b;
    } else {
      assert s[0] == a[0] == '0';
      assert s[1..] == a[1..] + b;
      assert AllChar(a[1..], '0');
      ZeroRunAt(a[1..], b);
    }
  }

  lemma {:induction false} TwoUnitsAreNotAUnit(u1: Unit, u2: Unit)
    ensures UnitOf(UnitText(u1) + UnitText(u2)).None?
  {
    var a, b := UnitText(u1), UnitText(u2);
    UnitLetters(u1);
    UnitLetters(u2);
    var s := a + b;
    assert s[|a| - 1] == a[|a| - 1];
    if |s| == 2 {
      assert s[0] == a[0];
    }
  }

  lemma {:induction false} ZeroDecimalShape(d: string, u1: Unit, u: Option<Unit>)
    requires |d| > 0 && AllDigits(d)
    ensures IsZeroDecimal(d + (UnitText(u1) + OptionalUnitText(u)))
            <==> AllChar(d, '0') && u.None?
  {
    var after := UnitText(u1) + OptionalUnitText(u);
    var r := d + after;
    UnitLetters(u1);
    assert after[0] == UnitText(u1)[0];
    var z := ZeroRun(r);
    ZeroRunSpec(r);
    if AllChar(d, '0') {
      ZeroRunAt(d, after);
      assert r[z..] == after;
      if u.Some? {
        TwoUnitsAreNotAUnit(u1, u.value);
      } else {
        UnitOfText(u1);
      }
    } else {
      var j :| 0 <= j < |d| && d[j] != '0';
      assert r[j] == d[j];
      assert z <= j;
      assert r[z..][0] == r[z] == d[z];
      assert IsDigit(d[z]);
    }
  }

  /** The lookahead, read on the text of a well-shaped quantity, catches
      exactly the zero shapes: `0`, `0` with one unit, and `0.0…0` with the
      decimal part's unit and nothing after it. */
  lemma {:induction false} ZeroAmountShape(q: Quantity)
    requires IsWellShaped(q)
    ensures IsZeroAmount(QuantityText(q)) <==> IsZeroShape(q)
  {
    var tail := FractionText(q.fraction) + OptionalUnitText(q.unit);
    assert QuantityText(q) == q.whole + tail;
    if q.whole != "0" {
      LeadingDigitIsNotZero(q.whole, tail);
    } else {
      ZeroRestShape(q.fraction, q.unit);
      ZeroThen(tail);
    }
  }

  lemma {:induction false} LeadingDigitIsNotZero(w: string, tail: string)
    requires IsWhole(w) && w != "0"
    ensures !IsZeroAmount(w + tail)
  {
    assert (w + tail)[0] == w[0];
  }

  lemma {:induction false} ZeroThen(tail: string)
    requires |tail| == 0 || tail[0] != '0'
    ensures IsZeroAmount("0" + tail) <==> IsZeroRest(tail)
  {
    ZeroRunAt("0", tail);
    assert ("0" + tail)[1..] == tail;
  }

  /** What follows a lone `0` completes the lookahead exactly when there is
      no decimal part, or a decimal part of zeros with no second unit. */
  lemma {:induction false} ZeroRestShape(f: Option<Fraction>, u: Option<Unit>)
    requires f.Some? ==> |f.value.digits| > 0 && AllDigits(f.value.digits)
    ensures var tail := FractionText(f) + OptionalUnitText(u);
            && (|tail| == 0 || tail[0] != '0')
            && (IsZeroRest(tail) <==> f.None? || (u.None? && AllChar(f.value.digits, '0')))
  {
    if f.Some? {
      ZeroRestDecimal(f.value, u);
    } else if u.Some? {
      UnitLetters(u.value);
      UnitOfText(u.value);
      assert FractionText(f) + OptionalUnitText(u) == UnitText(u.value);
    }
  }

  lemma {:induction false} ZeroRestDecimal(fr: Fraction, u: Option<Unit>)
    requires |fr.digits| > 0 && AllDigits(fr.digits)
    ensures var tail := FractionText(Some(fr)) + OptionalUnitText(u);
            && tail[0] == '.'
            && (IsZeroRest(tail) <==> u.None? && AllChar(fr.digits, '0'))
  {
    var tail := FractionText(Some(fr)) + OptionalUnitText(u);
    var after := UnitText(fr.unit) + OptionalUnitText(u);
    assert tail == "." + (fr.digits + after);
    assert tail[1..] == fr.digits + after;
    ZeroDecimalShape(fr.digits, fr.unit, u);
  }

  /** The accepted quantities are exactly the texts of well-shaped quantities
      that are not zero shapes. */
  lemma {:induction false} QuantityLanguage(s: string)
    ensures IsQuantity(s) <==> exists q :: IsWellShaped(q) && !IsZeroShape(q) && QuantityText(q) == s
  {
    if IsQuantity(s) {
      var q := ParseQuantity(s).value;
      ParseQuantitySound(s);
      ZeroAmountShape(q);
    }
    if exists q :: IsWellShaped(q) && !IsZeroShape(q) && QuantityText(q) == s {
      var q :| IsWellShaped(q) && !IsZeroShape(q) && QuantityText(q) == s;
      ZeroAmountShape(q);
      ParseQuantityComplete(q);
    }
  }

  // ---------------------------------------------------------------- item count

  /** Length of the unit text `s` ends with, or 0. Where both `L` and `mL`
      (or `g` and `kg`) fit, the longer one is the only one the count
      pattern can use, since `m` and `k` are neither digits nor `.`. */
  function UnitSuffixLength(s: string): (n: nat)
    ensures n <= |s|
  {
    if HasSuffix(s, "kg") || HasSuffix(s, "mL") then 2
    else if HasSuffix(s, "g") || HasSuffix(s, "L") then 1
    else 0
  }

  /** `(?:0*[1-9][0-9]*)?`: empty, or digits of which one is not `0`. */
  predicate IsCountLead(a: string) {
    AllDigits(a) && (|a| == 0 || !AllChar(a, '0'))
  }

  /** `(?:0*[1-9][0-9]*)?(?:\.\d*|0+\.\d+)?`: without a `.`, the lead alone;
      with one, a lead then `.` and any digits, or zeros then `.` and at
      least one digit. */
  predicate IsCountNumber(p: string) {
    var i := IndexOf(p, '.');
    if i == |p| then IsCountLead(p)
    else
      var a, b := p[..i], p[i + 1..];
      AllDigits(b) && (IsCountLead(a) || (|a| > 0 && AllChar(a, '0') && |b| > 0))
  }

  /** The count pattern `^(?:0*[1-9][0-9]*)?(?:\.\d*|0+\.\d+)?(?:g|mL|L|kg)$`:
      a number as above followed by exactly one unit. */
  predicate IsCountedAsOne(s: string) {
    var n := UnitSuffixLength(s);
    n > 0 && IsCountNumber(s[..|s| - n])
  }

  /** `sys.int_max_str_digits` by default: from Python 3.11 on, `int` raises
      `ValueError` on a decimal text of more digits than this. */
  const IntMaxStrDigits: nat := 4300

  /** `add_entry_quantity`: 1 for a quantity the count pattern matches,
      otherwise `int(quantity)`; `None` where `int` raises. Python's `int`
      also admits a sign, `_` separators and surrounding blanks, none of
      which an accepted quantity contains, so only digit strings are read,
      and only up to the digit limit. */
  function ItemCount(s: string): Option<nat>
  {
    if IsCountedAsOne(s) then Some(1)
    else if 0 < |s| <= IntMaxStrDigits && AllDigits(s) then Some(DigitsValue(s))
    else None
  }

  lemma {:induction false} UnitSuffixOf(p: string, u: Unit)
    requires |p| == 0 || IsDigit(p[|p| - 1]) || p[|p| - 1] == '.'
    ensures UnitSuffixLength(p + UnitText(u)) == |UnitText(u)|
  {
    var t := UnitText(u);
    var s := p + t;
    assert s[|p|..] == t;
    if |t| == 2 {
      assert s[|s| - 2..] == t;
    } else {
      assert s[|s| - 1..] == t;
      if |s| >= 2 {
        assert s[|s| - 2] == p[|p| - 1];
        NoTwoLetterUnit(s);
      }
    }
  }

  lemma {:induction false} UnitSuffixAfterUnit(p: string, u1: Unit, u2: Unit)
    ensures UnitSuffixLength(p + UnitText(u1) + UnitText(u2)) == |UnitText(u2)|
  {
    var t1, t2 := UnitText(u1), UnitText(u2);
    var s := p + t1 + t2;
    UnitLetters(u1);
    UnitLetters(u2);
    assert s[|s| - 1] == t2[|t2| - 1];
    if |t2| == 2 {
      assert s[|s| - 2..] == t2;
    } else {
      assert s[|s| - 1..] == t2;
      assert s[|s| - 2] == t1[|t1| - 1];
      NoTwoLetterUnit(s);
    }
  }

  /** A text whose last-but-one letter is neither `k` nor `m` ends in no
      two-letter unit. */
  lemma {:induction false} NoTwoLetterUnit(s: string)
    requires |s| >= 2 && s[|s| - 2] != 'k' && s[|s| - 2] != 'm'
    ensures !HasSuffix(s, "kg") && !HasSuffix(s, "mL")
  {
    var a := s[|s| - 2..];
    assert a[0] == s[|s| - 2];
    assert "kg"[0] == 'k' && "mL"[0] == 'm';
  }

  lemma {:induction false} DigitsHaveNoDot(s: string)
    requires AllDigits(s)
    ensures IndexOf(s, '.') == |s|
  {
  }

  lemma {:induction false} NonZeroWhole(w: string)
    requires IsWhole(w) && w != "0"
    ensures IsCountLead(w) && DigitsValue(w) >= 1
  {
    DigitsValuePositive(w, 0);
  }

  /** A whole number without a unit is read by `int`, which fails beyond
      the digit limit. */
  lemma {:induction false} CountPlain(w: string)
    requires IsWhole(w) && w != "0"
    ensures ItemCount(w) == if |w| <= IntMaxStrDigits then Some(DigitsValue(w)) else None
    ensures DigitsValue(w) >= 1
  {
    NonZeroWhole(w);
  }

  lemma {:induction false} CountWithUnit(w: string, u: Unit)
    requires IsWhole(w) && w != "0"
    ensures ItemCount(w + UnitText(u)) == Some(1)
  {
    var s := w + UnitText(u);
    UnitSuffixOf(w, u);
    assert s[..|s| - |UnitText(u)|] == w;
    NonZeroWhole(w);
    DigitsHaveNoDot(w);
  }

  lemma {:induction false} CountWithDecimal(w: string, d: string, u: Unit)
    requires IsWhole(w) && |d| > 0 && AllDigits(d)
    ensures ItemCount(w + "." + d + UnitText(u)) == Some(1)
  {
    var p := w + "." + d;
    assert p[|p| - 1] == d[|d| - 1];
    DecimalCountNumber(w, d);
    CountedAsOne(p, u);
  }

  /** A count number followed by one unit counts as one item. */
  lemma {:induction false} CountedAsOne(p: string, u: Unit)
    requires |p| > 0 && IsDigit(p[|p| - 1]) && IsCountNumber(p)
    ensures ItemCount(p + UnitText(u)) == Some(1)
  {
    var s := p + UnitText(u);
    UnitSuffixOf(p, u);
    assert s[..|s| - |UnitText(u)|] == p;
  }

  /** A whole part, `.` and digits make a count number. */
  lemma {:induction false} DecimalCountNumber(w: string, d: string)
    requires IsWhole(w) && |d| > 0 && AllDigits(d)
    ensures IsCountNumber(w + "." + d)
  {
    var p := w + "." + d;
    DigitsHaveNoDot(w);
    IndexOfConcat(w, '.', d);
    assert p[..|w|] == w && p[|w| + 1..] == d;
    if w != "0" {
      NonZeroWhole(w);
    }
  }

  /** A number whose part after the `.` is not all digits is no count number. */
  lemma {:induction false} NotCountNumber(a: string, b: string)
    requires AllDigits(a) && !AllDigits(b)
    ensures !IsCountNumber(a + "." + b)
  {
    var p := a + "." + b;
    DigitsHaveNoDot(a);
    IndexOfConcat(a, '.', b);
    assert p[|a| + 1..] == b;
  }

  lemma {:induction false} CountWithTwoUnits(w: string, d: string, u1: Unit, u2: Unit)
    requires IsWhole(w) && AllDigits(d)
    ensures ItemCount(w + "." + d + UnitText(u1) + UnitText(u2)) == None
  {
    var t1, t2 := UnitText(u1), UnitText(u2);
    var s := w + "." + d + t1 + t2;
    var b := d + t1;
    var pre := w + "." + b;
    assert s == pre + t2;
    assert !IsCountedAsOne(s) by {
      UnitSuffixAfterUnit(w + "." + d, u1, u2);
      assert s[..|s| - |t2|] == pre;
      UnitLetters(u1);
      assert b[|b| - 1] == t1[|t1| - 1];
      NotCountNumber(w, b);
    }
    assert s[|w|] == '.';
    NotAllDigits(s, |w|);
  }

  lemma {:induction false} NotAllDigits(s: string, k: nat)
    requires k < |s| && !IsDigit(s[k])
    ensures !AllDigits(s)
  {
  }

  // ---------------------------------------------------------------- the count pattern, literally

  /** `0*[1-9][0-9]*`: zeros, a non-zero digit, then any digits. */
  predicate IsLeadMatch(a: string) {
    exists k | 0 <= k < |a| :: AllChar(a[..k], '0') && '1' <= a[k] <= '9' && AllDigits(a[k + 1..])
  }

  /** `\.\d*|0+\.\d+`: a `.` and any digits, or zeros, a `.` and at least
      one digit. */
  predicate IsDecimalMatch(d: string) {
    || (|d| > 0 && d[0] == '.' && AllDigits(d[1..]))
    || (exists k | 0 < k < |d| - 1 :: AllChar(d[..k], '0') && d[k] == '.' && AllDigits(d[k + 1..]))
  }

  /** `g|mL|L|kg` */
  predicate IsCountUnitText(t: string) {
    t == "g" || t == "mL" || t == "L" || t == "kg"
  }

  /** `^(?:0*[1-9][0-9]*)?(?:\.\d*|0+\.\d+)?(?:g|mL|L|kg)$` read group by
      group: the text splits into an optional lead, an optional decimal
      part and a unit. */
  predicate MatchesCountPattern(s: string) {
    exists i, j | 0 <= i <= j <= |s| ::
      && (i == 0 || IsLeadMatch(s[..i]))
      && (i == j || IsDecimalMatch(s[i..j]))
      && IsCountUnitText(s[j..])
  }

  /** The count pattern, read literally, matches exactly the quantities
      `add_entry_quantity` counts as one item. */
  lemma {:induction false} CountPatternLiteral(s: string)
    ensures IsCountedAsOne(s) <==> MatchesCountPattern(s)
  {
    if IsCountedAsOne(s) {
      CountPatternSound(s);
    }
    if MatchesCountPattern(s) {
      var i, j :| 0 <= i <= j <= |s|
                  && (i == 0 || IsLeadMatch(s[..i]))
                  && (i == j || IsDecimalMatch(s[i..j]))
                  && IsCountUnitText(s[j..]);
      CountPatternComplete(s, i, j);
    }
  }

  /** A lead match is a non-empty digit run with a non-zero digit. */
  lemma {:induction false} LeadMatchIsCountLead(a: string)
    ensures IsLeadMatch(a) <==> |a| > 0 && IsCountLead(a)
  {
    if IsLeadMatch(a) {
      var k :| 0 <= k < |a| && AllChar(a[..k], '0') && '1' <= a[k] <= '9' && AllDigits(a[k + 1..]);
      forall i | 0 <= i < |a|
        ensures IsDigit(a[i])
      {
        if i < k {
          assert a[..k][i] == a[i];
        } else if i > k {
          assert a[k + 1..][i - k - 1] == a[i];
        }
      }
    }
    if |a| > 0 && IsCountLead(a) {
      var k := ZeroRun(a);
      ZeroRunSpec(a);
      assert AllChar(a[..k], '0') && '1' <= a[k] <= '9' && AllDigits(a[k + 1..]);
    }
  }

  /** The unit texts of the count pattern are the four units. */
  lemma {:induction false} CountUnitText(t: string)
    requires IsCountUnitText(t)
    ensures UnitOf(t).Some?
  {
  }

  lemma {:induction false} CountPatternSound(s: string)
    requires IsCountedAsOne(s)
    ensures MatchesCountPattern(s)
  {
    var n := UnitSuffixLength(s);
    var m := |s| - n;
    var p := s[..m];
    assert IsCountUnitText(s[m..]);
    var x := IndexOf(p, '.');
    if x == |p| {
      if m > 0 {
        LeadMatchIsCountLead(p);
      }
      assert s[m..m] == "";
      assert (m == 0 || IsLeadMatch(s[..m])) && IsCountUnitText(s[m..]);
    } else {
      var a, b := p[..x], p[x + 1..];
      assert s[..x] == a;
      if IsCountLead(a) {
        if x > 0 {
          LeadMatchIsCountLead(a);
        }
        var d := s[x..m];
        assert d[0] == '.' && d[1..] == b;
        assert (x == 0 || IsLeadMatch(s[..x])) && IsDecimalMatch(s[x..m]);
      } else {
        assert s[0..m] == p;
        assert p[..x] == a && p[x + 1..] == b;
        assert IsDecimalMatch(s[0..m]);
      }
    }
  }

  lemma {:induction false} CountPatternComplete(s: string, i: nat, j: nat)
    requires i <= j <= |s|
    requires i == 0 || IsLeadMatch(s[..i])
    requires i == j || IsDecimalMatch(s[i..j])
    requires IsCountUnitText(s[j..])
    ensures IsCountedAsOne(s)
  {
    var p, t := s[..j], s[j..];
    CountUnitText(t);
    var u := UnitOf(t).value;
    assert s == p + UnitText(u);
    var a := s[..i];
    if i > 0 {
      LeadMatchIsCountLead(a);
    }
    assert IsCountLead(a);
    if i == j {
      assert p == a;
      DigitsHaveNoDot(a);
      LastIsDigit(a);
    } else {
      LeadThenDecimal(a, s[i..j]);
      assert p == a + s[i..j];
    }
    UnitSuffixOf(p, u);
    assert s[..|s| - |UnitText(u)|] == p;
  }

  lemma {:induction false} LastIsDigit(a: string)
    requires AllDigits(a)
    ensures |a| == 0 || IsDigit(a[|a| - 1])
  {
  }

  /** A count lead followed by a decimal match is a count number ending in a
      digit or `.`. */
  lemma {:induction false} LeadThenDecimal(a: string, d: string)
    requires IsCountLead(a) && IsDecimalMatch(d)
    ensures IsCountNumber(a + d)
    ensures IsDigit((a + d)[|a + d| - 1]) || (a + d)[|a + d| - 1] == '.'
  {
    assert (a + d)[|a + d| - 1] == d[|d| - 1];
    if |d| > 0 && d[0] == '.' && AllDigits(d[1..]) {
      assert a + d == a + "." + d[1..];
      CountNumberOfDecimal(a, d[1..]);
    } else {
      var k :| 0 < k < |d| - 1 && AllChar(d[..k], '0') && d[k] == '.' && AllDigits(d[k + 1..]);
      ZerosThenDecimal(a, d, k);
    }
  }

  lemma {:induction false} ZerosThenDecimal(a: string, d: string, k: nat)
    requires IsCountLead(a) && 0 < k < |d| - 1
    requires AllChar(d[..k], '0') && d[k] == '.' && AllDigits(d[k + 1..])
    ensures IsCountNumber(a + d)
  {
    var z, b := d[..k], d[k + 1..];
    var w := a + z;
    assert d == z + "." + b;
    assert a + d == w + "." + b;
    ZerosAfterLead(a, z);
    CountNumberOfDecimal(w, b);
  }

  /** Zeros after a count lead: all digits, and a count lead again unless
      the lead was empty, when they are the zeros alone. */
  lemma {:induction false} ZerosAfterLead(a: string, z: string)
    requires IsCountLead(a) && |z| > 0 && AllChar(z, '0')
    ensures AllDigits(a + z)
    ensures |a| == 0 ==> a + z == z
    ensures |a| > 0 ==> IsCountLead(a + z)
  {
    var w := a + z;
    forall x | 0 <= x < |w|
      ensures IsDigit(w[x])
    {
      if x >= |a| {
        assert w[x] == z[x - |a|];
      }
    }
    if |a| > 0 {
      var y :| 0 <= y < |a| && a[y] != '0';
      assert w[y] == a[y];
    }
  }

  /** Digits, `.`, digits: the `.` is the first one, and the text is a count
      number exactly when the part before it is a count lead, or is zeros
      followed by at least one digit after the `.`. */
  lemma {:induction false} CountNumberOfDecimal(w: string, b: string)
    requires AllDigits(w) && AllDigits(b)
    ensures IsCountNumber(w + "." + b) <==> IsCountLead(w) || (|w| > 0 && AllChar(w, '0') && |b| > 0)
  {
    var p := w + "." + b;
    DigitsHaveNoDot(w);
    IndexOfConcat(w, '.', b);
    assert p[..|w|] == w && p[|w| + 1..] == b;
  }

  /** The item count of every accepted quantity: without a unit, its
      integer value (at least 1) when it has at most `IntMaxStrDigits`
      digits and a failure of `int` when it has more; 1 with exactly one
      unit; and a failure of `int` when a second unit follows the decimal
      part's (`1.5kgkg`). */
  lemma {:induction false} ItemCountOfQuantity(q: Quantity)
    requires IsWellShaped(q) && !IsZeroShape(q)
    ensures UnitCount(q) == 0 ==> DigitsValue(q.whole) >= 1
    ensures UnitCount(q) == 0 && |q.whole| <= IntMaxStrDigits ==> ItemCount(QuantityText(q)) == Some(DigitsValue(q.whole))
    ensures UnitCount(q) == 0 && |q.whole| > IntMaxStrDigits ==> ItemCount(QuantityText(q)) == None
    ensures UnitCount(q) == 1 ==> ItemCount(QuantityText(q)) == Some(1)
    ensures UnitCount(q) == 2 ==> ItemCount(QuantityText(q)) == None
  {
    var w := q.whole;
    if q.fraction.None? && q.unit.None? {
      assert QuantityText(q) == w;
      CountPlain(w);
    } else if q.fraction.None? {
      assert QuantityText(q) == w + UnitText(q.unit.value);
      CountWithUnit(w, q.unit.value);
    } else if q.unit.None? {
      var f := q.fraction.value;
      assert QuantityText(q) == w + "." + f.digits + UnitText(f.unit);
      CountWithDecimal(w, f.digits, f.unit);
    } else {
      var f := q.fraction.value;
      assert QuantityText(q) == w + "." + f.digits + UnitText(f.unit) + UnitText(q.unit.value);
      CountWithTwoUnits(w, f.digits, f.unit, q.unit.value);
    }
  }

  /** A one followed by 4300 zeros is an accepted quantity of 4301 digits,
      and `int` refuses it. */
  lemma {:induction false} ItemCountDigitLimit()
    ensures var s := "1" + seq(IntMaxStrDigits, i => '0');
            IsQuantity(s) && ItemCount(s) == None
  {
    var w := "1" + seq(IntMaxStrDigits, i => '0');
    var q := Quantity(w, None, None);
    assert IsWhole(w);
    assert QuantityText(q) == w;
    assert !IsZeroShape(q);
    ZeroAmountShape(q);
    ParseQuantityComplete(q);
    CountPlain(w);
  }

  /** `0.5kg` and `50kg` each count as one item; `3` counts as three. */
  lemma {:induction false} ItemCountExamples()
    ensures ItemCount("0.5kg") == Some(1)
    ensures ItemCount("50kg") == Some(1)
    ensures ItemCount("3") == Some(3)
  {
    HalfKiloCount();
    FiftyKiloCount();
    ThreeCount();
  }

  lemma {:induction false} HalfKiloCount()
    ensures ItemCount("0.5kg") == Some(1)
  {
    CountWithDecimal("0", "5", Kilogram);
    assert "0" + "." + "5" + UnitText(Kilogram) == "0.5kg";
  }

  lemma {:induction false} FiftyKiloCount()
    ensures ItemCount("50kg") == Some(1)
  {
    CountWithUnit("50", Kilogram);
    assert "50" + UnitText(Kilogram) == "50kg";
  }

  lemma {:induction false} ThreeCount()
    ensures ItemCount("3") == Some(3)
  {
    CountPlain("3");
    assert "3"[..0] == "";
  }
}

=== FILE: rounding.dfy ===
/**
 * The two roundings to hundredths the program performs, on exact values:
 * `round_num`, that is `Decimal.quantize(Decimal('0.01'),
 * rounding=ROUND_HALF_UP)`, which rounds a tie away from zero and raises
 * once the result needs more than the context's 28 digits; and the `:.2f`
 * format, which rounds a tie to the even cent.
 */
module Rounding {
  import opened Wrappers

  /** A whole number of hundredths. */
  predicate IsCents(x: real) {
    (x * 100.0).Floor as real == x * 100.0
  }

  function Abs(x: real): real { if x < 0.0 then -x else x }

  /** Rounding of a non-negative amount: hundredths, ties up. */
  function RoundUp(x: real): real
    requires x >= 0.0
  {
    (x * 100.0 + 0.5).Floor as real / 100.0
  }

  /** `round_num`: the nearest multiple of 0.01, a tie going to the one of
      larger magnitude. */
  function Round(x: real): (r: real)
    ensures IsCents(r)
    ensures Abs(r - x) <= 0.005
    ensures Abs(r - x) == 0.005 ==> Abs(r) > Abs(x)
    ensures x >= 0.0 ==> r >= 0.0
  {
    if x >= 0.0 then
      RoundUpSpec(x);
      RoundUp(x)
    else
      RoundUpSpec(-x);
      CentsNegate(RoundUp(-x));
      -RoundUp(-x)
  }

  lemma RoundUpSpec(x: real)
    requires x >= 0.0
    ensures IsCents(RoundUp(x)) && RoundUp(x) >= 0.0
    ensures -0.005 < RoundUp(x) - x <= 0.005
  {
    var n := (x * 100.0 + 0.5).Floor;
    assert RoundUp(x) * 100.0 == n as real;
    assert (n as real).Floor == n;
  }

  lemma CentsNegate(v: real)
    requires IsCents(v)
    ensures IsCents(-v)
  {
    var n := (v * 100.0).Floor;
    assert -v * 100.0 == (-n) as real;
    assert ((-n) as real).Floor == -n;
  }

  /** Two multiples of 0.01 less than 0.01 apart are equal. */
  lemma CentsApart(c: real, r: real)
    requires IsCents(c) && IsCents(r) && Abs(c - r) < 0.01
    ensures c == r
  {
    var a, b := (c * 100.0).Floor, (r * 100.0).Floor;
    assert Abs((a - b) as real) < 1.0;
  }

  /** The contract of `Round` determines it: a multiple of 0.01 within
      0.005 of `x`, and further from zero on a tie, is `Round(x)`. */
  lemma {:induction false} RoundUnique(x: real, c: real)
    requires IsCents(c) && Abs(c - x) <= 0.005
    requires Abs(c - x) == 0.005 ==> Abs(c) > Abs(x)
    ensures c == Round(x)
  {
    var r := Round(x);
    if Abs(c - x) == 0.005 && Abs(r - x) == 0.005 {
      assert (c - x) * (r - x) > 0.0;
    }
    CentsApart(c, r);
  }

  /** Amounts already in hundredths are left alone; in particular rounding
      is idempotent. */
  lemma {:induction false} RoundCents(x: real)
    requires IsCents(x)
    ensures Round(x) == x
    ensures Round(Round(x)) == Round(x)
  {
    RoundUnique(x, x);
  }

  /** The first magnitude `quantize` to hundredths cannot hold: a result of
      10^26 or more has 29 digits, one more than the default context's
      precision. */
  const QuantizeLimit: real := 100000000000000000000000000.0

  /** `round_num`: `None` where `quantize` raises `InvalidOperation`. */
  function RoundNum(x: real): (r: Option<real>)
    ensures r.Some? ==> IsCents(r.value) && Abs(r.value) < QuantizeLimit
    ensures r.Some? ==> Abs(r.value - x) <= 0.005
    ensures r.Some? && x >= 0.0 ==> r.value >= 0.0
  {
    var c := Round(x);
    if Abs(c) < QuantizeLimit then Some(c) else None
  }

  /** `round_num` succeeds exactly on the amounts below the limit by more
      than half a cent, and then it is `Round`. */
  lemma {:induction false} RoundNumDefined(x: real)
    ensures Abs(x) < QuantizeLimit - 0.005 ==> RoundNum(x) == Some(Round(x))
    ensures Abs(x) >= QuantizeLimit ==> RoundNum(x) == None
  {
    var c := Round(x);
    if Abs(x) >= QuantizeLimit {
      assert Abs(c) >= Abs(x) || Abs(c) >= QuantizeLimit by {
        if Abs(c) < Abs(x) {
          CentsBelowLimit(c, x);
        }
      }
    }
  }

  /** A multiple of 0.01 within half a cent of an amount at or above the
      limit, and smaller in magnitude, is the limit itself. */
  lemma {:induction false} CentsBelowLimit(c: real, x: real)
    requires IsCents(c) && Abs(c - x) <= 0.005 && Abs(x) >= QuantizeLimit && Abs(c) < Abs(x)
    requires Abs(c - x) == 0.005 ==> Abs(c) > Abs(x)
    ensures Abs(c) >= QuantizeLimit
  {
    var n := (c * 100.0).Floor;
    assert n as real == c * 100.0;
    assert Abs(c) > QuantizeLimit - 0.005;
  }

  /** Rounding never reverses the order of two amounts. */
  lemma {:induction false} RoundMonotone(x: real, y: real)
    requires x <= y
    ensures Round(x) <= Round(y)
  {
    if 0.0 <= x {
      FloorMonotone(x * 100.0 + 0.5, y * 100.0 + 0.5);
    } else if y < 0.0 {
      FloorMonotone(-y * 100.0 + 0.5, -x * 100.0 + 0.5);
    }
  }

  lemma {:induction false} FloorMonotone(a: real, b: real)
    requires a <= b
    ensures a.Floor <= b.Floor
  {
    assert a.Floor as real <= a;
  }

  // ---------------------------------------------------------------- the `:.2f` format

  /** A whole, even number of hundredths. */
  predicate IsEvenCents(x: real) {
    IsCents(x) && (x * 100.0).Floor % 2 == 0
  }

  /** Rounding of a non-negative amount: hundredths, ties to the even one. */
  function HalfEven(x: real): real
    requires x >= 0.0
  {
    var n := (x * 100.0).Floor;
    var f := x * 100.0 - n as real;
    var k := if f < 0.5 || (f == 0.5 && n % 2 == 0) then n else n + 1;
    k as real / 100.0
  }

  /** The rounding of `format(x, '.2f')` on an exact value: the nearest
      multiple of 0.01, a tie going to the even one. */
  function RoundEven(x: real): (r: real)
    ensures IsCents(r)
    ensures Abs(r - x) <= 0.005
    ensures Abs(r - x) == 0.005 ==> IsEvenCents(r)
    ensures x >= 0.0 ==> r >= 0.0
  {
    if x >= 0.0 then
      HalfEvenSpec(x);
      HalfEven(x)
    else
      HalfEvenSpec(-x);
      EvenCentsNegate(HalfEven(-x));
      -HalfEven(-x)
  }

  lemma HalfEvenSpec(x: real)
    requires x >= 0.0
    ensures IsCents(HalfEven(x)) && HalfEven(x) >= 0.0
    ensures Abs(HalfEven(x) - x) <= 0.005
    ensures Abs(HalfEven(x) - x) == 0.005 ==> IsEvenCents(HalfEven(x))
  {
    var n := (x * 100.0).Floor;
    var f := x * 100.0 - n as real;
    var k := if f < 0.5 || (f == 0.5 && n % 2 == 0) then n else n + 1;
    assert HalfEven(x) * 100.0 == k as real;
    assert (k as real).Floor == k;
  }

  lemma EvenCentsNegate(v: real)
    requires IsCents(v)
    ensures IsCents(-v)
    ensures IsEvenCents(v) ==> IsEvenCents(-v)
  {
    var n := (v * 100.0).Floor;
    assert -v * 100.0 == (-n) as real;
    assert ((-n) as real).Floor == -n;
  }

  /** The contract of `RoundEven` determines it: a multiple of 0.01 within
      0.005 of `x`, and even on a tie, is `RoundEven(x)`. */
  lemma {:induction false} RoundEvenUnique(x: real, c: real)
    requires IsCents(c) && Abs(c - x) <= 0.005
    requires Abs(c - x) == 0.005 ==> IsEvenCents(c)
    ensures c == RoundEven(x)
  {
    var r := RoundEven(x);
    if Abs(c - r) < 0.01 {
      CentsApart(c, r);
    }
  }

  /** The two roundings differ only on an exact tie: elsewhere, and on
      amounts already in hundredths, the format shows `Round(x)`. */
  lemma {:induction false} RoundEvenAgrees(x: real)
    ensures Abs(Round(x) - x) < 0.005 ==> RoundEven(x) == Round(x)
    ensures IsCents(x) ==> RoundEven(x) == x
  {
    if Abs(Round(x) - x) < 0.005 {
      RoundEvenUnique(x, Round(x));
    }
    if IsCents(x) {
      RoundEvenUnique(x, x);
    }
  }

  /** Exact ties go to the even cent: 0.125 becomes 0.12 and 0.375 becomes
      0.38, where `round_num` gives 0.13 and 0.38. */
  lemma {:induction false} RoundEvenTies()
    ensures RoundEven(0.125) == 0.12
    ensures RoundEven(0.375) == 0.38
    ensures RoundEven(-0.125) == -0.12
  {
    RoundEvenUnique(0.125, 0.12);
    RoundEvenUnique(0.375, 0.38);
    RoundEvenUnique(-0.125, -0.12);
  }

  /** Exact halves go up: 0.125 becomes 0.13 and 0.005 becomes 0.01. */
  lemma {:induction false} RoundHalves()
    ensures Round(0.125) == 0.13
    ensures Round(0.005) == 0.01
    ensures Round(0.015) == 0.02
    ensures Round(-0.125) == -0.13
  {
    RoundUnique(0.125, 0.13);
    RoundUnique(0.005, 0.01);
    RoundUnique(0.015, 0.02);
    RoundUnique(-0.125, -0.13);
  }
}

=== FILE: text.dfy ===
/**
 * Character classes, decimal digit strings and separator-based splitting,
 * restricted to ASCII: `\d` is `0`-`9` and `\w` is letters, digits and `_`.
 */
module Text {

  predicate IsDigit(c: char) { '0' <= c <= '9' }

  predicate IsLetter(c: char) { 'a' <= c <= 'z' || 'A' <= c <= 'Z' }

  /** The regular-expression class `\w`. */
  predicate IsWordChar(c: char) { IsLetter(c) || IsDigit(c) || c == '_' }

  predicate AllDigits(s: string) { forall i | 0 <= i < |s| :: IsDigit(s[i]) }

  predicate AllWordChars(s: string) { forall i | 0 <= i < |s| :: IsWordChar(s[i]) }

  /** Every character of `s` is `c` (true of the empty string). */
  predicate AllChar(s: string, c: char) { forall i | 0 <= i < |s| :: s[i] == c }

  predicate HasSuffix(s: string, suffix: string) {
    |suffix| <= |s| && s[|s| - |suffix|..] == suffix
  }

  // ---------------------------------------------------------------- digits

  function DigitValue(c: char): nat
    requires IsDigit(c)
  {
    c as int - '0' as int
  }

  function DigitChar(d: nat): (c: char)
    requires d < 10
    ensures IsDigit(c) && DigitValue(c) == d
  {
    ('0' as int + d) as char
  }

  function Pow10(n: nat): (p: nat)
    ensures p >= 1
  {
    if n == 0 then 1 else 10 * Pow10(n - 1)
  }

  /** The value of a decimal digit string, as Python's `int` reads it; "" is 0. */
  function DigitsValue(s: string): nat
    requires AllDigits(s)
  {
    if |s| == 0 then 0 else DigitsValue(s[..|s| - 1]) * 10 + DigitValue(s[|s| - 1])
  }

  /** `n` written with exactly `width` digits, zero-padded on the left
      (the `%02d`-style rendering of `strftime`). */
  function Pad(n: nat, width: nat): (s: string)
    ensures |s| == width && AllDigits(s)
  {
    if width == 0 then "" else Pad(n / 10, width - 1) + [DigitChar(n % 10)]
  }

  /** `str(n)`: the shortest decimal rendering of `n`. */
  function NatText(n: nat): (s: string)
    ensures 0 < |s| && AllDigits(s)
  {
    if n < 10 then [DigitChar(n)] else NatText(n / 10) + [DigitChar(n % 10)]
  }

  lemma {:induction false} DigitsValueBound(s: string)
    requires AllDigits(s)
    ensures DigitsValue(s) < Pow10(|s|)
  {
    if |s| > 0 {
      DigitsValueBound(s[..|s| - 1]);
    }
  }

  /** Padding to `width` digits loses nothing when the number fits. */
  lemma {:induction false} PadValue(n: nat, width: nat)
    requires n < Pow10(width)
    ensures DigitsValue(Pad(n, width)) == n
  {
    if width > 0 {
      PadValue(n / 10, width - 1);
      var s := Pad(n, width);
      assert s[..|s| - 1] == Pad(n / 10, width - 1);
    }
  }

  /** A digit string is the zero-padded rendering of its own value. */
  lemma {:induction false} PadOfValue(s: string)
    requires AllDigits(s)
    ensures Pad(DigitsValue(s), |s|) == s
  {
    if |s| > 0 {
      var t := s[..|s| - 1];
      PadOfValue(t);
      assert s == t + [s[|s| - 1]];
    }
  }

  /** `str(n)` reads back as `n` and has no leading zero. */
  lemma {:induction false} NatTextValue(n: nat)
    ensures DigitsValue(NatText(n)) == n
    ensures NatText(n)[0] != '0' || n == 0
  {
    var s := NatText(n);
    if n >= 10 {
      NatTextValue(n / 10);
      assert s[..|s| - 1] == NatText(n / 10);
      assert s[0] == NatText(n / 10)[0];
    }
  }

  /** A digit string with a non-zero digit has a positive value. */
  lemma {:induction false} DigitsValuePositive(s: string, k: nat)
    requires AllDigits(s) && k < |s| && s[k] != '0'
    ensures DigitsValue(s) >= 1
  {
    if k < |s| - 1 {
      DigitsValuePositive(s[..|s| - 1], k);
    }
  }

  /** Length of the run of digits at the start of `s`. */
  function DigitRun(s: string): (n: nat)
    ensures n <= |s|
  {
    if |s| == 0 || !IsDigit(s[0]) then 0 else 1 + DigitRun(s[1..])
  }

  lemma {:induction false} DigitRunSpec(s: string)
    ensures AllDigits(s[..DigitRun(s)])
    ensures DigitRun(s) < |s| ==> !IsDigit(s[DigitRun(s)])
    decreases |s|
  {
    if |s| > 0 && IsDigit(s[0]) {
      DigitRunSpec(s[1..]);
      var k := DigitRun(s);
      assert s[..k] == [s[0]] + s[1..][..k - 1];
    }
  }

  lemma {:induction false} DigitRunAt(a: string, b: string)
    requires AllDigits(a) && (|b| == 0 || !IsDigit(b[0]))
    ensures DigitRun(a + b) == |a|
    decreases |a|
  {
    var s := a + b;
    if |a| == 0 {
      assert s == b;
    } else {
      assert s[0] == a[0];
      assert s[1..] == a[1..] + b;
      assert AllDigits(a[1..]);
      DigitRunAt(a[1..], b);
    }
  }

  // ---------------------------------------------------------------- case

  /** ASCII upper-casing; every other character is unchanged. */
  function ToUpper(c: char): (u: char)
    ensures IsWordChar(c) <==> IsWordChar(u)
    ensures u == '_' <==> c == '_'
  {
    if 'a' <= c <= 'z' then (c as int - 32) as char else c
  }

  /** ASCII lower-casing; every other character is unchanged. */
  function ToLower(c: char): (l: char)
    ensures IsWordChar(c) <==> IsWordChar(l)
    ensures l == '_' <==> c == '_'
  {
    if 'A' <= c <= 'Z' then (c as int + 32) as char else c
  }

  // ---------------------------------------------------------------- search and split

  /** Index of the first `c` in `s`, or `|s|` when there is none. */
  function IndexOf(s: string, c: char): (i: nat)
    ensures i <= |s|
    ensures forall k | 0 <= k < i :: s[k] != c
    ensures i < |s| ==> s[i] == c
  {
    if |s| == 0 then 0
    else if s[0] == c then 0
    else 1 + IndexOf(s[1..], c)
  }

  lemma {:induction false} IndexOfConcat(a: string, c: char, b: string)
    requires forall k | 0 <= k < |a| :: a[k] != c
    ensures IndexOf(a + [c] + b, c) == |a|
  {
    var s := a + [c] + b;
    assert s[|a|] == c;
  }

  /** Python's `s.split(sep)` for a one-character separator: the pieces
      between separators, always at least one. */
  function SplitOn(s: string, sep: char): (parts: seq<string>)
    ensures |parts| >= 1
  {
    if |s| == 0 then [""]
    else
      var init := SplitOn(s[..|s| - 1], sep);
      var c := s[|s| - 1];
      if c == sep then init + [""]
      else init[..|init| - 1] + [init[|init| - 1] + [c]]
  }

  /** Python's `sep.join(parts)`. */
  function JoinWith(parts: seq<string>, sep: char): string
  {
    if |parts| == 0 then ""
    else if |parts| == 1 then parts[0]
    else JoinWith(parts[..|parts| - 1], sep) + [sep] + parts[|parts| - 1]
  }

  /** Joining the pieces of a split restores the string. */
  lemma {:induction false} JoinSplit(s: string, sep: char)
    ensures JoinWith(SplitOn(s, sep), sep) == s
  {
    if |s| > 0 {
      var t := s[..|s| - 1];
      var c := s[|s| - 1];
      var init := SplitOn(t, sep);
      JoinSplit(t, sep);
      assert s == t + [c];
      if c != sep {
        assert SplitOn(s, sep) == init[..|init| - 1] + [init[|init| - 1] + [c]];
        JoinReplaceLast(init, sep, c);
      } else {
        var parts := init + [""];
        assert SplitOn(s, sep) == parts;
        assert parts[..|parts| - 1] == init;
        assert JoinWith(parts, sep) == JoinWith(init, sep) + [sep] + "";
      }
    }
  }

  /** No piece of a split contains the separator. */
  lemma {:induction false} SplitPiecesAvoidSeparator(s: string, sep: char)
    ensures forall k | 0 <= k < |SplitOn(s, sep)| :: sep !in SplitOn(s, sep)[k]
  {
    if |s| > 0 {
      var t := s[..|s| - 1];
      var c := s[|s| - 1];
      var init := SplitOn(t, sep);
      SplitPiecesAvoidSeparator(t, sep);
      var parts := SplitOn(s, sep);
      if c != sep {
        var n := |init|;
        forall k | 0 <= k < |parts|
          ensures sep !in parts[k]
        {
          if k < n - 1 {
            assert parts[k] == init[k];
          } else {
            assert sep !in init[n - 1];
            assert parts[k] == init[n - 1] + [c];
          }
        }
      } else {
        assert parts == init + [""];
      }
    }
  }

  /** Appending a character to the last piece appends it to the join. */
  lemma {:induction false} JoinReplaceLast(parts: seq<string>, sep: char, c: char)
    requires |parts| >= 1
    ensures JoinWith(parts[..|parts| - 1] + [parts[|parts| - 1] + [c]], sep)
            == JoinWith(parts, sep) + [c]
  {
    var n := |parts|;
    var q := parts[..n - 1] + [parts[n - 1] + [c]];
    if n > 1 {
      assert q[..n - 1] == parts[..n - 1];
    }
  }
}

=== FILE: totals.dfy ===
/**
 * The summary both the display and the output file end with: the running
 * total, rounded to hundredths after every addition, and the item count
 * with its `item`/`items` word.
 */
module Totals {
  import opened Wrappers
  import opened Rounding
  import opened Quantities
  import opened Entries

  /** An entry with its total price. The total is computed by the entry
      class, which is not part of this model, and is taken as given. */
  datatype PricedEntry = PricedEntry(entry: Entry, totalPrice: real)

  datatype Summary = Summary(total: real, count: nat)

  /** The exact sum of the amounts, with no rounding. */
  function Sum(amounts: seq<real>): real
  {
    if |amounts| == 0 then 0.0 else Sum(amounts[..|amounts| - 1]) + amounts[|amounts| - 1]
  }

  /** `total_price = round_num(total_price + entry.total_price)` over the
      amounts in order, from 0; `None` once `round_num` raises. */
  function RunningTotal(amounts: seq<real>): (t: Option<real>)
    ensures t.Some? ==> IsCents(t.value) && Abs(t.value) < QuantizeLimit
    ensures t.Some? && (forall i | 0 <= i < |amounts| :: amounts[i] >= 0.0) ==> t.value >= 0.0
  {
    if |amounts| == 0 then Some(0.0)
    else
      var init := amounts[..|amounts| - 1];
      assert forall i | 0 <= i < |init| :: init[i] == amounts[i];
      match RunningTotal(init)
      case None => None
      case Some(t) => RoundNum(t + amounts[|amounts| - 1])
  }

  /** The item count of each quantity, in order. */
  function Counts(quantities: seq<string>): (cs: seq<Option<nat>>)
    ensures |cs| == |quantities|
    ensures forall i | 0 <= i < |quantities| :: cs[i] == ItemCount(quantities[i])
  {
    seq(|quantities|, i requires 0 <= i < |quantities| => ItemCount(quantities[i]))
  }

  /** The sum of the counts from the first to the last; `None` once one of
      them is missing. */
  function AddCounts(cs: seq<Option<nat>>): (r: Option<nat>)
    ensures r.Some? <==> forall i | 0 <= i < |cs| :: cs[i].Some?
  {
    if |cs| == 0 then Some(0)
    else
      var init := cs[..|cs| - 1];
      assert forall i | 0 <= i < |init| :: init[i] == cs[i];
      match (AddCounts(init), cs[|cs| - 1])
      case (Some(a), Some(b)) => Some(a + b)
      case _ => None
  }

  /** `total_of_items += add_entry_quantity(quantity)` over the quantities in
      order, from 0; `None` where one of them makes `int` raise. */
  function ItemTotal(quantities: seq<string>): (r: Option<nat>)
    ensures r.Some? <==> forall i | 0 <= i < |quantities| :: ItemCount(quantities[i]).Some?
  {
    AddCounts(Counts(quantities))
  }

  /** The word after the count: `items` when the count is above one or zero. */
  function ItemWord(count: nat): (w: string)
    ensures w == "item" <==> count == 1
    ensures w == "items" <==> count != 1
  {
    if count > 1 || count == 0 then "items" else "item"
  }

  function Amounts(lines: seq<PricedEntry>): (a: seq<real>)
    ensures |a| == |lines| && forall i | 0 <= i < |lines| :: a[i] == lines[i].totalPrice
  {
    seq(|lines|, i requires 0 <= i < |lines| => lines[i].totalPrice)
  }

  function QuantitiesOf(lines: seq<PricedEntry>): (q: seq<string>)
    ensures |q| == |lines| && forall i | 0 <= i < |lines| :: q[i] == lines[i].entry.quantity
  {
    seq(|lines|, i requires 0 <= i < |lines| => lines[i].entry.quantity)
  }

  /** The total and the count of a receipt's entries. */
  function Summarize(lines: seq<PricedEntry>): Option<Summary>
  {
    match (RunningTotal(Amounts(lines)), ItemTotal(QuantitiesOf(lines)))
    case (Some(t), Some(n)) => Some(Summary(t, n))
    case _ => None
  }

  // ---------------------------------------------------------------- properties

  /** The count of a concatenation is the sum of the counts. */
  lemma {:induction false} AddCountsAppend(a: seq<Option<nat>>, b: seq<Option<nat>>)
    requires AddCounts(a).Some? && AddCounts(b).Some?
    ensures AddCounts(a + b) == Some(AddCounts(a).value + AddCounts(b).value)
    decreases |b|
  {
    if |b| == 0 {
      assert a + b == a;
    } else {
      var bi := b[..|b| - 1];
      assert (a + b)[..|a + b| - 1] == a + bi;
      assert (a + b)[|a + b| - 1] == b[|b| - 1];
      AddCountsAppend(a, bi);
    }
  }

  lemma {:induction false} ItemTotalAppend(a: seq<string>, b: seq<string>)
    requires ItemTotal(a).Some? && ItemTotal(b).Some?
    ensures ItemTotal(a + b) == Some(ItemTotal(a).value + ItemTotal(b).value)
  {
    var ca, cb, cab := Counts(a), Counts(b), Counts(a + b);
    forall i | 0 <= i < |cab|
      ensures cab[i] == (ca + cb)[i]
    {
      if i < |a| {
        assert (a + b)[i] == a[i];
      } else {
        assert (a + b)[i] == b[i - |a|];
      }
    }
    assert cab == ca + cb;
    AddCountsAppend(ca, cb);
  }

  /** An accepted quantity with at most one unit text. */
  predicate HasOneUnitAtMost(s: string) {
    IsQuantity(s) && UnitCount(ParseQuantity(s).value) <= 1
  }

  /** Such a quantity counts at least one item, unless it is a bare number
      of more digits than `int` reads. */
  lemma {:induction false} OneUnitCount(s: string)
    requires HasOneUnitAtMost(s)
    ensures ItemCount(s).Some? <==> UnitCount(ParseQuantity(s).value) == 1 || |s| <= IntMaxStrDigits
    ensures ItemCount(s).Some? ==> ItemCount(s).value >= 1
  {
    var q := ParseQuantity(s).value;
    ParseQuantitySound(s);
    ZeroAmountShape(q);
    ItemCountOfQuantity(q);
  }

  lemma {:induction false} AddCountsLowerBound(cs: seq<Option<nat>>)
    requires forall i | 0 <= i < |cs| :: cs[i].Some? && cs[i].value >= 1
    ensures AddCounts(cs).Some? && AddCounts(cs).value >= |cs|
  {
    if |cs| > 0 {
      var init := cs[..|cs| - 1];
      assert forall i | 0 <= i < |init| :: init[i] == cs[i];
      AddCountsLowerBound(init);
    }
  }

  /** Every accepted quantity with at most one unit, within the digit limit
      of `int`, counts at least one item, so a receipt of such entries
      counts at least one per entry. */
  lemma {:induction false} ItemTotalLowerBound(quantities: seq<string>)
    requires forall i | 0 <= i < |quantities| ::
               HasOneUnitAtMost(quantities[i]) && |quantities[i]| <= IntMaxStrDigits
    ensures ItemTotal(quantities).Some? && ItemTotal(quantities).value >= |quantities|
  {
    var cs := Counts(quantities);
    forall i | 0 <= i < |cs|
      ensures cs[i].Some? && cs[i].value >= 1
    {
      OneUnitCount(quantities[i]);
    }
    AddCountsLowerBound(cs);
  }

  /** Each step moves the total at most half a cent away from the exact
      sum, so the running total is within 0.005 per entry of it. */
  lemma {:induction false} RunningTotalNearSum(amounts: seq<real>)
    requires RunningTotal(amounts).Some?
    ensures Abs(RunningTotal(amounts).value - Sum(amounts)) <= 0.005 * |amounts| as real
  {
    if |amounts| > 0 {
      var init := amounts[..|amounts| - 1];
      var x := amounts[|amounts| - 1];
      assert RunningTotal(init).Some?;
      RunningTotalNearSum(init);
      var t := RunningTotal(init).value;
      assert RunningTotal(amounts) == RoundNum(t + x);
      assert Sum(amounts) == Sum(init) + x;
    }
  }

  /** Non-negative amounts whose sum stays below the limit of `quantize`
      by half a cent per entry never make `round_num` raise. */
  lemma {:induction false} RunningTotalDefined(amounts: seq<real>)
    requires forall i | 0 <= i < |amounts| :: amounts[i] >= 0.0
    requires Sum(amounts) + 0.005 * |amounts| as real < QuantizeLimit
    ensures RunningTotal(amounts).Some?
  {
    if |amounts| > 0 {
      var init := amounts[..|amounts| - 1];
      var x := amounts[|amounts| - 1];
      assert forall i | 0 <= i < |init| :: init[i] == amounts[i];
      assert Sum(amounts) == Sum(init) + x;
      RunningTotalDefined(init);
      RunningTotalNearSum(init);
      var t := RunningTotal(init).value;
      RoundNumDefined(t + x);
    }
  }

  /** A total that reaches 10^26 makes `round_num` raise. */
  lemma {:induction false} RunningTotalOverflow()
    ensures RunningTotal([QuantizeLimit]) == None
  {
    assert [QuantizeLimit][..0] == [];
    RoundNumDefined(0.0 + QuantizeLimit);
  }

  /** Rounding after every addition is not rounding once at the end:
      0.005 and 0.005 total 0.02 step by step, against 0.01 for the
      rounded exact sum. */
  lemma {:induction false} StepwiseRounding()
    ensures RunningTotal([0.005]) == Some(0.01)
    ensures RunningTotal([0.005, 0.005]) == Some(0.02)
    ensures Round(Sum([0.005, 0.005])) == 0.01
  {
    RoundHalves();
    RoundNumDefined(0.005);
    RoundNumDefined(0.015);
    assert [0.005, 0.005][..1] == [0.005];
    assert [0.005][..0] == [];
    RoundUnique(0.01, 0.01);
  }

  lemma {:induction false} RunningTotalStep(a: seq<real>, i: nat)
    requires i < |a|
    ensures RunningTotal(a[..i + 1]) == match RunningTotal(a[..i])
      case None => None
      case Some(t) => RoundNum(t + a[i])
  {
    assert a[..i + 1][..i] == a[..i];
  }

  lemma {:induction false} AddCountsStep(cs: seq<Option<nat>>, i: nat, count: nat)
    requires i < |cs| && AddCounts(cs[..i]) == Some(count)
    ensures cs[i].Some? ==> AddCounts(cs[..i + 1]) == Some(count + cs[i].value)
  {
    assert cs[..i + 1][..i] == cs[..i];
    assert cs[..i + 1][i] == cs[i];
  }

  /** The total half of the loop of `display_entries` and
      `write_receipt_output_file`: add the entry's total and round, entry by
      entry. */
  method AddTotals(amounts: seq<real>) returns (total: Option<real>)
    ensures total == RunningTotal(amounts)
  {
    total := Some(0.0);
    var i := 0;
    while i < |amounts|
      invariant i <= |amounts|
      invariant total == RunningTotal(amounts[..i])
    {
      RunningTotalStep(amounts, i);
      if total.Some? {
        total := RoundNum(total.value + amounts[i]);
      }
      i := i + 1;
    }
    assert amounts[..i] == amounts;
  }

  /** The count half of the same loop: add each entry's item count, giving
      up at the first quantity whose count cannot be read. */
  method CountItems(quantities: seq<string>) returns (r: Option<nat>)
    ensures r == ItemTotal(quantities)
  {
    r := AddAll(Counts(quantities));
  }

  /** The counts added one by one, stopping at the first missing one. */
  method AddAll(cs: seq<Option<nat>>) returns (r: Option<nat>)
    ensures r == AddCounts(cs)
  {
    var count := 0;
    var i := 0;
    while i < |cs|
      invariant i <= |cs|
      invariant AddCounts(cs[..i]) == Some(count)
    {
      if cs[i].None? {
        return None;
      }
      AddCountsStep(cs, i, count);
      count := count + cs[i].value;
      i := i + 1;
    }
    assert cs[..i] == cs;
    r := Some(count);
  }

  /** The summary line's two numbers, or `None` where a count cannot be
      read or `round_num` raises. */
  method SummarizeEntries(lines: seq<PricedEntry>) returns (r: Option<Summary>)
    ensures r == Summarize(lines)
  {
    var count := CountItems(QuantitiesOf(lines));
    if count.None? {
      return None;
    }
    var total := AddTotals(Amounts(lines));
    if total.None? {
      return None;
    }
    r := Some(Summary(total.value, count.value));
  }
}

=== FILE: wrappers.dfy ===
/** Failure-compatible wrappers used throughout the receipt model. */
module Wrappers {

  /** A value that may be absent. */
  datatype Option<+T> = None | Some(value: T)

  /** Either a value or the reason there is none. */
  datatype Result<+R, +E> = Ok(value: R) | Err(error: E)
}
